=== FILE: README.md ===
# Living Docs backend: ingestion lifecycle, records and request gating

This project models the bookkeeping around the retrieval-augmented-generation
pipeline of the Living Docs API. Users own projects. A project holds uploaded
documents. Each document is ingested into a vector store namespace named after
its project, and can then be queried with citations. The model covers:

- **Document ingestion.** `IngestionService.ingest_document` is a state machine
  over PENDING, PROCESSING, COMPLETED and FAILED. The loader, the chunker and the
  vector-store writer become collaborator parameters. Each one either returns a
  value or raises one of five exception classes. The run records its status
  writes and store calls, in order, in a trace.
- **The vector store.** It is a map from namespace (the project id) to a set of
  chunks. Each chunk carries its document id and source metadata. This is enough
  to state "no stale vectors after re-ingestion", "deleting leaves nothing" and
  namespace isolation. Nothing in the code makes a store call atomic, so a call
  that raises is modelled as having applied its effect to an arbitrary subset of
  the chunks it concerns.
- **Record operations.** This covers document and project rows and their column
  defaults, the status writes, the reset for re-ingestion and project
  statistics. It also covers the login-lockout counter (clock in whole seconds),
  single-live-token rotation for verification and password-reset tokens, and
  refresh-token family revocation.
- **The HTTP handlers.** These are the upload, bulk-upload, list, detail,
  status, re-ingest and delete handlers for documents; the list, statistics and
  delete handlers for projects; and the query and similar-chunks handlers. Each
  handler's side effects (file written, row created, job queued, vectors
  deleted, chat messages stored) are an ordered effect log. The log is what
  states orderings such as "vectors are deleted before the row is reset".
- **Request schemas and settings.** The field bounds of the request bodies act as
  validity predicates. The settings cover origin-list parsing,
  retrieval-strategy normalisation, the environment flags and the
  required-for-email check.

Modules follow the source files: `Models` (app/db/models.py), `Crud` and
`AuthCrud` (app/db/crud.py), `VectorStore` and `Ingestion`
(app/services/ingestion.py), `Api` (what the routers share), `DocumentsApi`,
`ProjectsApi` and `QueryApi` (app/api/), `Schemas` (app/schemas/), `Settings`
(app/settings.py), and `Lifecycle`, which joins the handlers with the background
job. `Wrappers` and `Strings` are generic helpers.

Identifiers are UUID text. A table is a sequence of rows in insertion order,
so "newest first" is the reverse of that order. Clock readings, fresh UUIDs, the
MIME guess and the iteration order of the extension set are parameters.

## Behaviour the status names do not suggest

The model follows the code in each case.

- `reset_document_for_reingestion` (app/db/crud.py:630-640) puts a row back to
  PENDING and clears only the status message, chunk count and completion time.
  The page and character counts of the previous run stay on the row:
  `Crud.ResetKeepsStaleMetrics`.
- `ingest_document` (app/services/ingestion.py:60-72) never reads the row's
  status before writing PROCESSING. A FAILED or COMPLETED row goes straight to
  PROCESSING, so PENDING is not the only way in: `Lifecycle.IngestIgnoresStatus`.
- `ProjectCreate` (app/schemas/project.py:21-24) bounds `chunk_size` and
  `chunk_overlap` separately. Nothing keeps the overlap below the size:
  `Schemas.OverlapNotBelowSizeAccepted`.

## Model

| member | source | states |
|---|---|---|
| Models.ParseDocumentStatus | app/db/models.py:13-18 | a stored string names a status exactly when it is one of the four values, and that status serialises back to the string |
| Models.DocumentStatusRoundTrip | app/db/models.py:13-18 | every status's own value parses back to it, so the four values are distinct |
| Models.ParseProjectStatus | app/db/models.py:21-24 | only "active" and "archived" name project statuses, each serialising back to itself |
| Models.ProjectStatusRoundTrip | app/db/models.py:21-24 | both project statuses survive serialise-then-parse |
| Models.NewProjectRow | app/db/models.py:127-144 | an inserted project keeps the given columns; absent status, chunk size and overlap become ACTIVE, 1000 and 200 |
| Models.NewDocumentRow | app/db/models.py:161-192 | a new document row is unprocessed (PENDING, no message, 0 chunks, no page or character count, no completion time) and keeps its file columns |
| Settings.DefaultsAreValid | app/settings.py:91-94 | the declared RAG defaults lie inside their own field bounds and the default strategy passes its validator as "mmr" |
| Settings.MaxUploadSizeBytes | app/settings.py:109-113 | for a non-negative setting the byte limit is a whole number of MiB equal to the setting |
| Settings.StripQuotes | app/settings.py:121 | stripping quotes keeps only characters of the raw value |
| Settings.StripQuotesUnchanged | app/settings.py:121 | a value with no quote at either end passes quote stripping unchanged |
| Settings.QuotedValueUnwrapped | app/settings.py:121 | surrounding double quotes are removed and nothing else |
| Settings.ParseOrigins | app/settings.py:121-122 | every parsed origin is non-empty, comma-free and has no surrounding whitespace |
| Settings.TrimmedNonEmpty | app/settings.py:122 | trimming and dropping blank parts keeps at most as many entries as parts, each a clean origin |
| Settings.AllowedOriginsList | app/settings.py:116-122 | the value "*" alone gives ["*"]; any other value yields only clean origins |
| Settings.TrimmedNonEmptyMembers | app/settings.py:122 | every non-blank part is kept, stripped, and every kept entry is some part stripped |
| Settings.TrimmedIsMapped | app/settings.py:122 | the trimming is the keep-the-non-empty-images comprehension with `str.strip` as the map |
| Settings.MapNonEmptyKeeps | app/settings.py:122 | in that comprehension, every part with a non-empty image contributes its image |
| Settings.MapNonEmptyFrom | app/settings.py:122 | in that comprehension, every entry is the image of some part |
| Settings.TrimmedNonEmptyConcat | app/settings.py:122 | trimming distributes over concatenation, so the kept entries keep the order of their parts |
| Settings.AllowedOriginsMembers | app/settings.py:116-122 | outside the "*" case the list holds exactly the non-blank comma-separated pieces of the unquoted setting, stripped |
| Strings.SplitJoin | app/settings.py:122 | splitting a join of separator-free parts at the separator gives the parts back |
| Strings.JoinSplit | app/settings.py:122 | joining the parts of a split with the separator gives the string back |
| Settings.ParseOriginsRoundTrip | app/settings.py:121-122 | parsing clean origins joined with commas gives back exactly those origins |
| Settings.OriginsRoundTrip | app/settings.py:116-122 | setting the origins to a comma-joined list of clean origins makes the computed list that list |
| Settings.ValidateRetrievalStrategy | app/settings.py:152-160 | a value is accepted exactly when its quote-stripped, lower-cased form is similarity, mmr or hybrid, and that form is returned |
| Settings.ValidateRetrievalStrategyIdempotent | app/settings.py:152-160 | validating an accepted result again accepts it unchanged |
| Settings.QuotedSpellingAccepted | app/settings.py:152-160 | a double-quoted valid name in any letter case is accepted as its lower-case form |
| Settings.EnvironmentFlags | app/settings.py:124-134 | production and development exclude each other only when DEBUG is off; the defaults count as development and not production |
| Settings.ValidateRequiredForEmail | app/settings.py:179-188 | each SMTP field is reported exactly when unset, in declaration order, and nothing reported implies email is enabled |
| Settings.EnabledWithoutHost | app/settings.py:136-140 | with user and password set but no host, email counts as enabled while the host is still reported missing |
| Schemas.FromModelStatus | app/schemas/document.py:9-14 | the API status carries the same string as the stored status |
| Schemas.ToModelStatus | app/schemas/document.py:9-14 | the stored status carries the same string as the API status |
| Schemas.DocumentStatusEnumsAgree | app/schemas/document.py:9-14 | conversion by value between the two status enums is a bijection, both ways |
| Schemas.ParseRetrievalStrategy | app/schemas/query.py:8-12 | a string names a strategy only when it is that strategy's value |
| Schemas.RetrievalStrategyMatchesSettings | app/schemas/query.py:8-12 | the schema accepts exactly the names the settings validator accepts, and each strategy's value parses back to it |
| Schemas.SettingsDefaultsFitSchemas | app/settings.py:91-93 | in-range settings defaults are values every request schema accepts |
| Schemas.ParseReingestionRequest | app/schemas/document.py:105-109 | a body is valid exactly when each given size is in bounds; valid bodies keep the sizes and force is true only when given true; failures name the field |
| Schemas.EmptyReingestionRequest | app/schemas/document.py:105-109 | the empty body is valid with no sizes and force off |
| Schemas.ParseProjectCreate | app/schemas/project.py:15-24 | a body is valid exactly when name, description, size and overlap are in bounds; absent sizes default to 1000 and 200 |
| Schemas.OverlapNotBelowSizeAccepted | app/schemas/project.py:21-24 | any in-bounds overlap at least as large as the chunk size is accepted |
| Schemas.OverlapAboveSizeWitness | app/schemas/project.py:23-24 | a project with size 100 and overlap 1000 is accepted |
| Schemas.ParseProjectUpdate | app/schemas/project.py:27-33 | an update is accepted unchanged exactly when every present field is in bounds |
| Schemas.UpdateBoundsMatchCreate | app/schemas/project.py:27-33 | every valid create body, with a status attached, is a valid update |
| Schemas.EmptyProjectStatsConsistent | app/schemas/project.py:36-43 | the all-default statistics are consistent and report no documents and no chunks |
| Schemas.ParseQueryRequest | app/schemas/query.py:42-73 | a query is valid exactly when the question length and top_k are in bounds; defaults are MMR, top 5 and no extra sources |
| Schemas.QueryDefaultsMatchSettings | app/schemas/query.py:60-68 | the query defaults agree with the settings' default strategy and top_k |
| Schemas.ParseSimilarChunksRequest | app/schemas/query.py:110-115 | a similar-chunks request is valid exactly when text and top_k are in bounds; top_k defaults to 5 |
| Schemas.SimilarTopKWidensQuery | app/schemas/query.py:110-115 | every top_k a query accepts is accepted for similar chunks, and 50 only there |
| Crud.Window | app/db/crud.py:541 | an offset/limit window holds every remaining row up to limit: none past the end, limit rows when that many remain, otherwise all the rows from skip on; each is the row at skip plus its position |
| Crud.WindowsTile | app/db/crud.py:527-544 | two adjacent windows read the same rows as one window of their combined size |
| Crud.GetProject | app/db/crud.py:370-382 | a project is found exactly when a row has that id and that owner |
| Crud.GetProjectHidesOtherOwners | app/db/crud.py:370-382 | another owner's project is never found |
| Crud.UserProjects | app/db/crud.py:384-401 | the listing holds exactly the caller's projects of the requested status |
| Crud.GetProjects | app/db/crud.py:384-400 | the total counts all the caller's matching projects; the page has the window's length, and its entry i is the caller's (skip + i)-th newest matching project |
| Crud.ProjectsPageIsWindow | app/db/crud.py:398 | those clauses alone fix the page as the skip/limit window of the caller's projects, newest first |
| Crud.CreateDocument | app/db/crud.py:481-506 | the table gains exactly one unprocessed row for that project and keeps every earlier row |
| Crud.GetDocument | app/db/crud.py:508-520 | a document is found exactly when a row has that id within that project |
| Crud.GetDocumentById | app/db/crud.py:522-525 | a document is found exactly when some row has that id |
| Crud.ProjectDocuments | app/db/crud.py:527-544 | the listing holds exactly the project's documents of the requested status |
| Crud.GetDocumentsByProject | app/db/crud.py:527-543 | the total counts all the project's matching documents; the page has the window's length, and its entry i is the project's (skip + i)-th newest matching document |
| Crud.DocumentsPageIsWindow | app/db/crud.py:541 | those clauses alone fix the page as the skip/limit window of the project's documents, newest first |
| Crud.UpdateDocumentStatus | app/db/crud.py:562-590 | status and message always change; counts change only when given; the completion time is set only on COMPLETED; identity and file columns never change |
| Crud.ResetDocumentForReingestion | app/db/crud.py:630-640 | the row is PENDING with no message, no chunks and no completion time; page and character counts and file columns are kept |
| Crud.ResetMatchesFreshUploadIff | app/db/crud.py:630-640 | a reset row looks like a fresh upload exactly when it had no page and no character count |
| Crud.ResetKeepsStaleMetrics | app/db/crud.py:630-640 | the page and character counts of a completed run survive a reset |
| Crud.ResetIdempotent | app/db/crud.py:630-640 | resetting twice equals resetting once at the later time |
| Crud.DeleteDocumentRecord | app/db/crud.py:592-602 | no row with that id remains and every other row stays |
| Crud.DeleteProject | app/db/crud.py:419-431 | the project row and, by cascade, its documents are gone; every other project and document stays |
| Crud.GetProjectStats | app/db/crud.py:433-457 | each bucket counts the project's documents of its status, PROCESSING counted as pending, with summed chunks and sizes |
| Crud.StatsConsistent | app/db/crud.py:433-457 | completed, failed and pending add up to the document count, and the chunk total is non-negative |
| Crud.StatsOfEmptyProject | app/db/crud.py:433-457 | a project without documents reports the all-zero statistics |
| Crud.StatsAfterCreate | app/db/crud.py:433-457 | creating a document raises the document count and the pending bucket by one and changes nothing else |
| AuthCrud.IncrementFailedLogin | app/db/crud.py:133-141 | the failure count rises by exactly one; reaching the limit locks until now plus the lockout period; below it the lock is untouched |
| AuthCrud.ResetFailedLogin | app/db/crud.py:143-151 | a successful login zeroes the count, clears the lock and records the login time |
| AuthCrud.LockoutAfterMaxAttempts | app/db/crud.py:133-159 | after a successful login, n failures at one instant leave the count at n and lock the account exactly when n reaches the limit |
| AuthCrud.LockExpires | app/db/crud.py:153-159 | once the clock reaches the lock's end the account is no longer locked |
| AuthCrud.MarkUsedVerification | app/db/crud.py:263-275 | afterwards no token of that user and type is live; every token differs from before at most in its used flag, and tokens of other users or types do not change |
| AuthCrud.CreateVerificationToken | app/db/crud.py:263-289 | afterwards the new token is the only live one of that user and type, and other users' or types' tokens are untouched |
| AuthCrud.VerificationTokensIndependent | app/db/crud.py:263-289 | a live token of another user or purpose stays live |
| AuthCrud.MarkUsedReset | app/db/crud.py:312-319 | afterwards no reset token of that user is live; every token differs from before at most in its used flag, and other users' tokens do not change |
| AuthCrud.CreatePasswordResetToken | app/db/crud.py:312-330 | afterwards the new token is the user's only live reset token; other users' tokens are untouched |
| AuthCrud.SecondResetTokenSupersedesFirst | app/db/crud.py:312-330 | after issuing twice only the second token is live |
| AuthCrud.GetActiveRefreshToken | app/db/crud.py:191-199 | a token is returned exactly when one with that secret is unrevoked and unexpired |
| AuthCrud.RevokedTokenNotActive | app/db/crud.py:191-199 | a revoked or expired token is never returned |
| AuthCrud.RevokeTokenFamily | app/db/crud.py:215-227 | the returned count is the family's unrevoked tokens, none remain unrevoked, and other families are untouched |
| AuthCrud.RevokedFamilyInactive | app/db/crud.py:215-227 | after revocation no member of the family can be exchanged at any time |
| AuthCrud.NoUnrevokedMember | app/db/crud.py:215-227 | a family whose unrevoked count is zero has no unrevoked member |
| VectorStore.Add | app/services/ingestion.py:118-121 | the namespace gains exactly the given chunks and every other namespace is unchanged |
| VectorStore.DeleteByDocumentId | app/services/ingestion.py:192-195 | exactly that document's chunks leave that namespace; other namespaces are unchanged |
| VectorStore.DeleteNamespace | app/services/ingestion.py:205-207 | the namespace becomes empty and every other one is unchanged |
| VectorStore.AddSome | app/services/ingestion.py:116-121 | an add that raised part-way leaves the namespace with its old chunks plus the reached ones among those added; other namespaces are unchanged |
| VectorStore.DeleteSomeOfDocument | app/services/ingestion.py:192-195 | a document delete that raised part-way removes only the document's chunks it reached; other namespaces are unchanged |
| VectorStore.DeleteSomeOfNamespace | app/services/ingestion.py:205-207 | a namespace delete that raised part-way removes only the chunks it reached; other namespaces are unchanged |
| VectorStore.InterruptedCallsBetween | app/services/ingestion.py:116-121 | for each of the three calls, an interruption reaching nothing changes nothing and one reaching everything is the full call |
| VectorStore.DeleteByDocumentIdIdempotent | app/services/ingestion.py:186-201 | deleting a document's chunks twice equals deleting them once, after which none remain |
| VectorStore.DeleteThenAddReplaces | app/api/documents.py:467-491 | deleting a document's chunks and then adding new ones leaves exactly the new ones for it and every other document's chunks as before |
| VectorStore.AddWithoutDeleteKeepsOld | app/services/ingestion.py:118-121 | adding without deleting keeps every earlier chunk of the document |
| Ingestion.ErrorMessage | app/services/ingestion.py:136-184 | a failure message is the exception class's prefix followed by the exception's text |
| Ingestion.ErrorPrefixesDistinguishable | app/services/ingestion.py:136-184 | distinct exception classes have prefixes of which neither starts the other |
| Ingestion.AttachSource | app/services/ingestion.py:108-112 | one chunk per piece, each tagged with the document id and with the original file name as source and source_file |
| Ingestion.RunPipeline | app/services/ingestion.py:74-184 | the pipeline loads first and writes no status itself; it ends COMPLETED exactly on success, right after the store write of a positive number of chunks, or FAILED with a message and a count of 0; the store changes only when the last step is the store write, and then only by chunks of this document added to the project's namespace |
| Ingestion.FinishRun | app/services/ingestion.py:66-184 | a found row's trace is the PROCESSING write, the load, the pipeline steps and one terminal write; a successful run's last store call adds its chunks |
| Ingestion.IngestDocument | app/services/ingestion.py:39-184 | an unknown id returns not-found and writes nothing; otherwise the trace starts with the PROCESSING write and the load, and ends with the one terminal write, exactly two status writes in all; success exactly when COMPLETED, with a positive count only then |
| Ingestion.IngestStoreEffect | app/services/ingestion.py:74-184 | the store changes only when the step before the terminal write is the store write, and then only by chunks of this document added to the project's namespace; other namespaces and the number of rows are unchanged |
| Ingestion.StoreWritePrecedesCompletion | app/services/ingestion.py:118-134 | COMPLETED is written right after the store call that added the reported number of chunks |
| Ingestion.IngestSucceeds | app/services/ingestion.py:74-135 | with pages, chunks and a working store the run adds the tagged chunks and leaves the row COMPLETED with chunk, page and character counts and the completion time |
| Ingestion.StoredChunksCarrySource | app/services/ingestion.py:108-121 | every chunk a run adds belongs to the document and names its original file |
| Ingestion.IngestReportsRaised | app/services/ingestion.py:136-184 | an exception from loader, chunker or store write ends FAILED with the class's prefixed message and a count of 0, in the result and on the row; the store can have changed only through the store write, by chunks of this document |
| Ingestion.IngestInterruptedAdd | app/services/ingestion.py:116-184 | a store write that raises part-way leaves exactly the chunks it reached added to the namespace, and the row FAILED with the prefixed message |
| Ingestion.IngestNoContent | app/services/ingestion.py:76-85 | a loader returning no pages ends FAILED before the chunker runs, with the store untouched |
| Ingestion.IngestNoChunks | app/services/ingestion.py:91-106 | a chunker returning nothing ends FAILED with the store untouched, and the stored and returned messages differ |
| Ingestion.DeleteDocumentVectors | app/services/ingestion.py:186-201 | true exactly when the store call returned, and then none of the document's chunks remain; after a raise every chunk the call did not reach remains; chunks of other documents and other namespaces are untouched |
| Ingestion.DeleteProjectVectors | app/services/ingestion.py:203-211 | true exactly when the store call returned, and then the namespace is empty; after a raise it holds its old chunks less those reached; other namespaces are untouched |
| Api.OwnedProject | app/api/projects.py:85-97 | the guard passes exactly when the caller owns a project with that id, else 404 "Project not found" |
| Api.Skip | app/api/projects.py:54 | the offset is zero only on page 1 and grows with the page between one and a hundred rows per page |
| Api.SkipAdvancesByPageSize | app/api/documents.py:331 | each next page starts exactly one page size later |
| Api.Pages | app/api/projects.py:69 | the page count is the ceiling of total over page size, zero only for no rows |
| Api.PagesCoverRows | app/api/documents.py:331-342 | a page lies within the reported page count exactly when its offset is below the total |
| Api.ConsecutivePagesTile | app/api/documents.py:331-342 | pages p and p + 1 together are one window of twice the size |
| Api.RowOnItsPage | app/api/documents.py:331-342 | row q·size + m of the listing is at position m of page q + 1 |
| DocumentsApi.ValidateFile | app/api/documents.py:40-65 | a file passes exactly when it has a name whose lower-cased suffix is an allowed extension; the result carries that extension and a non-empty content type; failures are 400 |
| DocumentsApi.ValidateFileByExtension | app/api/documents.py:52-56 | a name stem + ext passes exactly when ext, lower-cased, is one of the eleven allowed extensions |
| DocumentsApi.DotfileRejected | app/api/documents.py:52-56 | a dotfile such as ".pdf" has no suffix and is rejected |
| DocumentsApi.ExtensionIgnoresTrailingSeparators | app/api/documents.py:55 | a trailing `/` or `/.` on a name does not change its extension, as pathlib drops such components |
| DocumentsApi.TrailingSeparatorsIgnored | app/api/documents.py:40-65 | `name/` and `name/.` are accepted or rejected as `name` is, with the same extension |
| DocumentsApi.PdfExtension | app/api/documents.py:55 | the extension of `report.pdf` is `.pdf` |
| DocumentsApi.PlainPdfAccepted | app/api/documents.py:40-65 | `report.pdf` is accepted as a `.pdf` file |
| DocumentsApi.TrailingSlashPdfAccepted | app/api/documents.py:40-65 | `report.pdf/` is accepted as a `.pdf` file too |
| DocumentsApi.StoredPathUnderUploadDir | app/api/documents.py:165-170 | the stored file lies directly under the upload directory, with its root and components followed by the UUID name; for the directory "." the path is the bare name |
| Strings.PathName | app/api/documents.py:55 | a path's name has no separator and is empty or one of its components other than "" and "." |
| Strings.PathSuffix | app/api/documents.py:55 | a suffix is empty or a dot followed by at least one character, with no further dot and no separator |
| Strings.SuffixOfName | app/api/documents.py:55 | a non-empty, separator-free stem followed by `.ext` has the suffix `.ext` |
| Strings.NameIgnoresTrailingSeparators | app/api/documents.py:55 | a trailing `/` or `/.` does not change a path's name |
| Strings.PathJoin | app/api/documents.py:165-170 | joining a relative name keeps the directory's root and appends the name's components to the directory's; an absolute name replaces the directory |
| Strings.PathTextRoundTrip | app/api/documents.py:170-182 | printing a root and clean components and parsing the text again gives back that root and those components |
| DocumentsApi.SaveUploadFile | app/api/documents.py:68-90 | never more than 50 MiB is written; success exactly when the stream fits, returning its total size; otherwise 413 |
| DocumentsApi.UploadCapIgnoresSetting | app/api/documents.py:37 | the cap equals the default size setting but differs from any other configured value |
| DocumentsApi.StoreUpload | app/api/documents.py:163-201 | an oversized file is written and removed with no row; otherwise one unprocessed row with the file's name, size and extension and the stored path (the upload directory joined with UUID + extension as pathlib joins), then the job when asked |
| DocumentsApi.UploadOne | app/api/documents.py:160-201 | an upload succeeds exactly when the file validates and fits; a rejected file adds no row and reports its error |
| DocumentsApi.UploadDocument | app/api/documents.py:123-216 | a missing project is 404 and an archived one 400, both before any file effect; otherwise success exactly when the file is accepted, with the job queued only when asked |
| DocumentsApi.AcceptedOrRejected | app/api/documents.py:255-307 | every one of the first n files of a bulk upload is counted once, as accepted or as rejected |
| DocumentsApi.UploadQueued | app/api/documents.py:255-299 | one bulk file either appends its unprocessed row, named by the file and carrying the fresh row id, and queues exactly its job, or contributes exactly its failed entry and queues nothing |
| DocumentsApi.UploadEach | app/api/documents.py:255-300 | the failed list is the rejected files' entries in order; the uploaded rows are new unprocessed rows of the project, one per accepted file in order with that file's name and row id; one job per uploaded row, in the same order |
| DocumentsApi.BulkUploadDocuments | app/api/documents.py:224-307 | after the project guards, uploaded plus failed equals the number of files, and the totals match the lists |
| DocumentsApi.NotFoundCode | app/api/documents.py:9-19 | `status.HTTP_404_NOT_FOUND` yields 404 exactly when `status` is the imported module of status codes; on the `status` query parameter the lookup fails |
| DocumentsApi.ListDocuments | app/api/documents.py:315-350 | as intended: 404 "Project not found" exactly when the caller does not own the project; otherwise exactly the window of the project's documents of the status that the page selects, all of that project, with the total and a page count that covers it; the page is non-empty exactly up to the last page |
| DocumentsApi.ListDocumentsAsWritten | app/api/documents.py:315-329 | as written: fails exactly when the caller does not own the project, and then with a 500, because the `status` parameter shadows the status-code module; an owned project gets the same page as the intended version |
| DocumentsApi.UnownedListingIsServerError | app/api/documents.py:319-328 | for a project the caller does not own, the listing as written is the generic 500 where the intended one is the 404 |
| DocumentsApi.GetDocumentDetail | app/api/documents.py:358-380 | a document is returned exactly when the caller owns the project and the document is in it; otherwise 404 |
| DocumentsApi.GetDocumentStatus | app/api/documents.py:388-416 | the report carries the row's status, message, chunk and page counts and completion time, with the same 404s as the detail |
| DocumentsApi.OrInt | app/api/documents.py:475-476 | Python `or` on an optional integer falls back when the value is absent or 0 |
| DocumentsApi.ReingestGuard | app/api/documents.py:440-465 | 404 when the caller does not own the project, 400 when it is archived, 404 when the document is not in it; a passing guard returns the caller's own non-archived project and the document, which is not COMPLETED unless forced |
| DocumentsApi.ReingestGuardIff | app/api/documents.py:461-465 | in an active owned project, re-ingestion is refused exactly for a COMPLETED document without force |
| DocumentsApi.ReingestDocument | app/api/documents.py:424-491 | vectors are deleted, then the row reset to PENDING, then the job queued with the fallback sizes; a failed guard changes nothing |
| DocumentsApi.ExplicitZeroOverlapIgnored | app/api/documents.py:475-476 | an explicit overlap of 0 is replaced by the project's overlap |
| DocumentsApi.DeleteDocument | app/api/documents.py:499-534 | success exactly when the caller owns the project and the document is in it, and then the vectors are deleted, whether or not that worked, then the document's stored file is removed, then the row goes; each failure is its 404 with nothing changed |
| DocumentsApi.DeletedDocumentLeavesNoVectors | app/api/documents.py:527-532 | when the vector call works, neither the row nor any chunk of the document remains |
| DocumentsApi.FailedVectorDeleteOrphansChunks | app/api/documents.py:527-532 | when the vector call raises, the row is gone but every chunk of the document that the call did not reach stays |
| DocumentsApi.SupportedTypes | app/api/documents.py:542-544 | exactly the allowed extensions, each once, in increasing order |
| DocumentsApi.DispatchGet | app/api/documents.py:353-358 | the first route whose pattern matches serves the request, and no route is found exactly when none matches |
| DocumentsApi.SupportedTypesUnreachable | app/api/documents.py:537-544 | as declared, GET /supported-types is captured by the document route and answered 422 |
| DocumentsApi.SupportedTypesReachableWhenDeclaredFirst | app/api/documents.py:537-544 | with the static route first the listing is served, and every UUID still reaches the detail handler |
| ProjectsApi.ListProjects | app/api/projects.py:44-77 | one page of the caller's projects of the status, with the total, a covering page count, and a non-empty page exactly up to the last page |
| ProjectsApi.ListedOnItsPage | app/api/projects.py:44-77 | the caller's (q·size + m)-th newest project is at position m of page q + 1 |
| ProjectsApi.GetProjectWithStats | app/api/projects.py:105-132 | 404 exactly when the caller does not own the project; otherwise that project with its document count, its PENDING-or-PROCESSING, COMPLETED and FAILED counts, its chunk total and its size total |
| ProjectsApi.StatsViewConsistent | app/api/projects.py:105-132 | the reported buckets add up to the document count |
| ProjectsApi.FileRemovals | app/db/crud.py:419-426 | the project's file removals are one removal per document at most, and nothing but removals |
| ProjectsApi.FileRemovalsMembers | app/db/crud.py:419-426 | a path is removed exactly when some document of the project is stored there |
| ProjectsApi.DeleteProject | app/api/projects.py:209-236 | after the guard the namespace is cleared, then the project's document files are removed, then the row goes; a missing project changes nothing |
| ProjectsApi.DeletionRemovesProjectFiles | app/db/crud.py:419-431 | a successful deletion starts by clearing the namespace, ends by deleting the project row, and removes exactly the files of the project's documents |
| ProjectsApi.DeletedProjectLeavesNothing | app/api/projects.py:209-236 | afterwards no row and no document of the project remains; a working vector call leaves no vector, an interrupted one removes exactly the chunks it reached; other namespaces are unchanged |
| ProjectsApi.DeleteProjectKeepsOthers | app/api/projects.py:209-236 | other projects and their documents survive |
| QueryApi.GetRetrievalStrategy | app/api/query.py:24-26 | each schema strategy maps to the RAG strategy with the same value |
| QueryApi.GetRetrievalStrategyBijective | app/api/query.py:24-26 | the mapping is one-to-one and onto |
| QueryApi.ConfigFor | app/api/query.py:89-100 | the engine uses the requested strategy and top_k, temperature 0 and required citations |
| QueryApi.CompletedIds | app/api/query.py:75-80 | the valid ids are exactly those of COMPLETED documents among the candidates |
| QueryApi.FirstInvalid | app/api/query.py:82-87 | no id is reported exactly when every requested id is valid; a reported id is requested and invalid, and every id before its first occurrence is valid |
| QueryApi.Preconditions | app/api/query.py:55-87 | passes exactly when the caller owns the project, it has a COMPLETED document and every requested id is a valid candidate; each failure carries its 404 or 400 |
| QueryApi.NewestPage | app/api/query.py:76-79 | the id check sees only the project's newest 100 documents |
| QueryApi.SessionStep | app/api/query.py:121-145 | an existing session is reused exactly when it is named, well-formed and of this project; no name means create one; other cases are the three session errors |
| QueryApi.RunQuery | app/api/query.py:89-191 | failed checks have no effect; a success ran the engine with the request's configuration, created a session only when none was named, and stored the question before the answer; engine errors are 500s |
| QueryApi.EngineBuiltFromRequest | app/api/query.py:89-100 | once the checks pass, the first effect runs the engine with the request's strategy and top_k, temperature 0 and required citations |
| QueryApi.QueryDocumentsAsWritten | app/api/query.py:34-191 | as written, a success had a valid session step, and every failure after the checks is a 500 |
| QueryApi.QueryDocuments | app/api/query.py:34-191 | a success was owned, had a COMPLETED document, every requested id is a COMPLETED document of the project, and it ended by storing question then answer |
| QueryApi.SessionErrorReported | app/api/query.py:121-145 | as corrected, a session error after an answer reaches the client as its own 400 or 404 |
| QueryApi.SessionCreatedUnlessNamed | app/api/query.py:147-176 | a successful query creates a chat session exactly when the request names none |
| QueryApi.ValidIdsAreProjectDocuments | app/api/query.py:75-87 | every id the corrected check accepts is a COMPLETED document of the project |
| QueryApi.CompletedDocumentAccepted | app/api/query.py:75-87 | as corrected, any COMPLETED document of an owned project can be requested |
| QueryApi.OldestCompletedRejected | app/api/query.py:75-87 | as written, the oldest of more than 100 documents is rejected even when COMPLETED |
| QueryApi.SessionErrorMasked | app/api/query.py:180-191 | as written, every session error after an answer becomes the generic 500 |
| QueryApi.OtherProjectSession | app/api/query.py:140-145 | a session of another project is the intended 400 as corrected and a 500 as written |
| QueryApi.Snippet | app/api/query.py:248 | the snippet is the text when at most 300 characters, else its first 300 plus "...", never over 303 |
| QueryApi.SnippetIdempotent | app/api/query.py:248 | snipping a snippet changes nothing |
| QueryApi.ScoreAt | app/api/query.py:249 | the score is present exactly for positions within the score list and is the score there |
| QueryApi.CitationOf | app/api/query.py:240-250 | a citation copies the chunk's document id, page and character offsets, with "unknown" for a missing chunk id or file, and carries its snippet and its positional score |
| QueryApi.FindSimilarChunks | app/api/query.py:199-262 | a missing project is 404 and a failed retrieval 500; otherwise the query text is echoed with one citation per retrieved chunk, in order, each that chunk's citation with its positional score and a snippet of at most 303 characters |
| QueryApi.MissingScoresAreTrailing | app/api/query.py:249 | exactly the citations past the end of the score list have no score |
| Lifecycle.RunJob | app/api/documents.py:93-114 | the background job makes exactly two status writes on a found row; the store changes only through the store write, by chunks of the job's document added to its project's namespace, and every other namespace is unchanged |
| Lifecycle.IngestEndsTerminal | app/services/ingestion.py:66-184 | every row with the id ends in the last write's status, a documented move out of PROCESSING |
| Lifecycle.IngestIgnoresStatus | app/services/ingestion.py:60-72 | a row that is not PENDING is still moved to PROCESSING, a move the documented lifecycle does not allow |
| Lifecycle.ReingestedRowIsNext | app/api/documents.py:467-491 | after re-ingestion the queued job finds the reset row: PENDING with no chunks |
| Lifecycle.NoStaleVectorsAfterReingest | app/api/documents.py:467-491 | re-ingestion with a working vector delete, then a successful job, leaves exactly the new chunks of the document and other documents' chunks as they were |
| Lifecycle.StaleVectorsSurviveFailedDelete | app/api/documents.py:467-472 | when the vector delete raises, every chunk of the document it did not reach survives the next run |

## Findings

| source | as written | input that shows it | evidently intended | confidence | as-written member | corrected member |
|---|---|---|---|---|---|---|
| app/api/query.py:121-191 | the session checks raise their 400/404 inside the `try`, whose `except Exception` turns them into the generic 500 | a query naming a session of another project, after the engine answered | the client receives the 400 "session_id does not belong to the specified project" (or the 404/400 of the other checks) | high; not executed | QueryApi.QueryDocumentsAsWritten | QueryApi.QueryDocuments |
| app/api/query.py:75-87 | requested document ids are checked against `get_documents_by_project` at its default limit of 100, the newest 100 documents | a project with 101 documents whose oldest is COMPLETED, queried with that document's id | any COMPLETED document of the project may be requested | high; not executed | QueryApi.OldestCompletedRejected | QueryApi.CompletedDocumentAccepted |
| app/api/documents.py:319-328 | the `status` query parameter of `list_documents` shadows the `status` module imported from fastapi, so raising the not-found error looks up `HTTP_404_NOT_FOUND` on `None` or on a status member and fails with `AttributeError` | `GET /documents/project/<id of a project the caller does not own>` | the 404 "Project not found" | high; not executed | DocumentsApi.ListDocumentsAsWritten | DocumentsApi.ListDocuments |
| app/api/documents.py:353-380 | `/{document_id}` is declared before `/supported-types`, so the parameter route captures the static path first | `GET /documents/supported-types` | the sorted extension list is returned | high; not executed | DocumentsApi.SupportedTypesUnreachable | DocumentsApi.SupportedTypesReachableWhenDeclaredFirst |

`QueryApi.SessionErrorMasked` and `QueryApi.OtherProjectSession` also exhibit the
first finding. `QueryApi.SessionErrorReported` states the corrected behaviour.
`DocumentsApi.SupportedTypesReachableWhenDeclaredFirst` also shows that
reordering costs nothing: every UUID still reaches the detail handler.
`DocumentsApi.UnownedListingIsServerError` exhibits the third finding for every
project the caller does not own.

## Left out

- File system I/O. Saving an upload, removing an oversized one, and the file removals of document and project deletion are effects in a log. A removal is an attempt: a missing file is skipped and a failing removal swallowed, and the model does not track which files exist. Creating the upload directory, which each upload does first (app/api/documents.py:165, 253) and which does nothing when it exists, is not logged. File bytes are not modelled.
- ProjectsApi.FileRemovals: takes the order of `db_project.documents` to be table order; the relationship declares no ordering.
- Database sessions, commits and refreshes, and database failures. So the generic 500 of `upload_document` (app/api/documents.py:207-215) and the `except Exception` branch of the bulk loop (app/api/documents.py:295-299) are not modelled.
- The loader, chunker, embeddings, vector store and query engine of the RAG layer. app/rag is not part of this model. They are collaborator parameters with returned-or-raised outcomes. The RAG strategy enum is assumed to carry the same three values as the schema's.
- Floating point. Relevance scores are an opaque type parameter. Only the engine's temperature literal 0.0 appears.
- Concurrency and background scheduling. A queued job is an effect. `Lifecycle.RunJob` runs one job at a time, with no interleaving of two runs on one row.
- Pydantic's error reporting. Schema parsing names one offending field, not the full error list.
- Body strings converted with `UUID(...)` in the query handlers. A malformed project id there would raise; ids are compared as text. Path parameters are checked by `Api.UuidText`, but only in the routing finding.
- Citation metadata keys that are present with the value None. Keys are either present with a value or absent.
- Chat session and message storage (app/api/chat.py and its CRUD). These are represented only as effects of the query handler.
- Project create, update, archive and unarchive, user CRUD, other refresh-token operations, and the getters and `use_*` of the verification and reset tokens. They are not part of the modelled core.
- `rag_enabled`, `validate_required_for_rag`, `validate_upload_dir` and the remaining settings fields. They are not part of the modelled core.
- Timestamps. `created_at` ordering is the order of the table sequence. `updated_at` is the clock parameter. The lockout period is converted from minutes to seconds.
- The iteration order of the extension set in the 400 detail. It is a parameter, because CPython's string hashing fixes it per process.
- Settings.StripQuotes: states only that the result keeps characters of the input. `StripQuotesUnchanged` and `QuotedValueUnwrapped` pin it for unquoted and double-quoted values.
- Settings.MaxUploadSizeBytes: characterises the result only for non-negative settings.
- Crud.UserProjects: states membership in both directions. Newest-first order is given by the definition, not the contract.
- Crud.ProjectDocuments: states membership in both directions. Newest-first order is given by the definition, not the contract.
- Crud.DeleteDocumentRecord: states which rows remain, not that their order is kept.
- Crud.DeleteProject: states which rows remain, not that their order is kept.
- Api.Skip: states bounds rather than the product. The exact offsets are in `SkipAdvancesByPageSize` and `RowOnItsPage`.
- QueryApi.QueryDocumentsAsWritten: states only the success condition and the 500. The full behaviour is `RunQuery`'s.
- Ingestion.IngestDocument: states the trace shape. The store facts are in `IngestStoreEffect`, and the row contents of each outcome are in `IngestSucceeds`, `IngestReportsRaised`, `IngestInterruptedAdd`, `IngestNoContent` and `IngestNoChunks`.
- Settings.ParseOrigins: states the shape of each entry only. Which entries are kept is in `AllowedOriginsMembers`, and their order in `TrimmedNonEmptyConcat`.
- Settings.TrimmedNonEmpty: states the shape of each entry only. Its contents are in `TrimmedNonEmptyMembers`, and their order in `TrimmedNonEmptyConcat`.
- Settings.AllowedOriginsList: states the shape of each entry only. Its contents are in `AllowedOriginsMembers`.
- Strings.LowerChar: lower-cases ASCII letters only, where `str.lower()` also maps other letters (such as 'À' to 'à'). Every allowed extension is ASCII, so no accept or reject decision changes. The extension echoed in the 400 detail and the value in the retrieval-strategy error can differ.
- Settings.ValidateRetrievalStrategy: the rejection message lists the set as `{'similarity', 'mmr', 'hybrid'}`. That order is fixed here, whereas Python's set display order depends on the per-process string hash seed.
- The atomicity of vector-store calls. A call that raises is assumed to have applied its effect to some subset of its chunks, chosen freely; nothing is assumed about which subset.

=== FILE: api.dfy ===
/**
 * What the HTTP handlers share: errors, the effect log that records the order of
 * their side effects, page arithmetic, the ownership guard and the path-parameter
 * UUID check.
 */
module Api {
  import opened Wrappers
  import opened Models
  import Crud

  /** An `HTTPException`: status code and detail. */
  datatype HttpError = HttpError(code: int, detail: string)

  const BadRequest: int := 400
  const NotFound: int := 404
  const PayloadTooLarge: int := 413
  const Unprocessable: int := 422
  const ServerError: int := 500

  /** A queued background ingestion: `process_document_background` with these arguments. */
  datatype IngestJob = IngestJob(documentId: Id, projectId: Id, chunkSize: int, chunkOverlap: int)

  datatype ChatRole = UserRole | AssistantRole

  /** The retrieval strategies of the RAG layer (not part of this model), taken to carry the same three values. */
  datatype RagStrategy = RagSimilarity | RagMmr | RagHybrid

  function RagStrategyValue(s: RagStrategy): string {
    match s
    case RagSimilarity => "similarity"
    case RagMmr => "mmr"
    case RagHybrid => "hybrid"
  }

  /** What the retriever and the query engine are built with. */
  datatype EngineConfig = EngineConfig(strategy: RagStrategy, topK: int, temperature: real, citationRequired: bool)

  /**
   * The side effects of a handler, in the order they happen. A `RemoveFile` is an
   * attempt: a missing file is skipped and a failing removal is swallowed.
   */
  datatype Effect =
    | SaveFile(path: string)
    | RemoveFile(path: string)
    | CreateRow(documentId: Id)
    | QueueIngest(job: IngestJob)
    | DeleteVectors(documentId: Id, projectId: Id)
    | ResetRow(documentId: Id)
    | DeleteRow(documentId: Id)
    | DeleteNamespace(projectId: Id)
    | DeleteProjectRow(projectId: Id)
    | QueryEngine(config: EngineConfig)
    | CreateSession(sessionId: Id)
    | StoreMessage(role: ChatRole, content: string)

  // ---------------------------------------------------------------- ownership

  const ProjectNotFound: HttpError := HttpError(404, "Project not found")

  /** The guard every project-scoped handler starts with: the caller's project, or 404. */
  function OwnedProject(projects: seq<Project>, projectId: Id, userId: Id): (r: Result<Project, HttpError>)
    ensures r.Success? <==> Crud.GetProject(projects, projectId, userId).Some?
    ensures r.Success? ==> r.value.id == projectId && r.value.ownerId == userId && r.value in projects
    ensures r.Failure? ==> r.error == ProjectNotFound
  {
    match Crud.GetProject(projects, projectId, userId)
    case None => Failure(ProjectNotFound)
    case Some(p) => Success(p)
  }

  // ---------------------------------------------------------------- pagination

  /** The bounds FastAPI enforces on `page` and `page_size` before a list handler runs. */
  predicate ValidPaging(page: int, pageSize: int) {
    page >= 1 && 1 <= pageSize <= 100
  }

  /** `skip = (page - 1) * page_size`. */
  function Skip(page: int, pageSize: int): (s: nat)
    requires ValidPaging(page, pageSize)
    ensures s == 0 <==> page == 1
    ensures page - 1 <= s <= 100 * (page - 1)
  {
    ScaledBounds(page - 1, pageSize);
    (page - 1) * pageSize
  }

  /** `a` rows of between 1 and 100: at least `a`, at most `100 * a`, zero only for none. */
  lemma {:induction false} ScaledBounds(a: nat, b: int)
    requires 1 <= b <= 100
    ensures a <= a * b <= 100 * a
    ensures a * b == 0 <==> a == 0
    decreases a
  {
    if a > 0 {
      ScaledBounds(a - 1, b);
      assert a * b == (a - 1) * b + b;
    }
  }

  /** Page `p + 1` starts exactly one page size after page `p`. */
  lemma SkipAdvancesByPageSize(page: int, pageSize: int)
    requires ValidPaging(page, pageSize)
    ensures Skip(page + 1, pageSize) == Skip(page, pageSize) + pageSize
  {
  }

  /** `pages = (total + page_size - 1) // page_size`, the ceiling of `total / page_size`. */
  function Pages(total: nat, pageSize: int): (n: nat)
    requires pageSize >= 1
    ensures n * pageSize >= total
    ensures total > 0 ==> (n - 1) * pageSize < total
    ensures n == 0 <==> total == 0
  {
    (total + pageSize - 1) / pageSize
  }

  /** Exactly the pages `1..pages` hold rows: every earlier page is full and no later page exists. */
  lemma PagesCoverRows(total: nat, pageSize: int, page: int)
    requires ValidPaging(page, pageSize)
    ensures page <= Pages(total, pageSize) <==> Skip(page, pageSize) < total
  {
    var n := Pages(total, pageSize);
    var s := Skip(page, pageSize);
    if page <= n {
      MulMonotone(page - 1, n - 1, pageSize);
      assert s <= (n - 1) * pageSize;
    } else {
      MulMonotone(n, page - 1, pageSize);
      assert s >= n * pageSize;
    }
  }

  lemma MulMonotone(a: int, b: int, c: nat)
    requires a <= b
    ensures a * c <= b * c
  {
    assert b * c - a * c == (b - a) * c;
  }

  /** Consecutive pages of a listing tile it: page `p` followed by page `p + 1` is one window of twice the size. */
  lemma ConsecutivePagesTile<T>(xs: seq<T>, page: int, pageSize: int)
    requires ValidPaging(page, pageSize)
    ensures Crud.Window(xs, Skip(page, pageSize), pageSize) + Crud.Window(xs, Skip(page + 1, pageSize), pageSize)
            == Crud.Window(xs, Skip(page, pageSize), 2 * pageSize)
  {
    Crud.WindowsTile(xs, Skip(page, pageSize), pageSize, pageSize);
  }

  /** The row at offset `m` of page `q + 1` is row `q * pageSize + m` of the whole listing. */
  lemma RowOnItsPage<T>(xs: seq<T>, pageSize: int, q: nat, m: nat)
    requires 1 <= pageSize <= 100 && m < pageSize
    requires q * pageSize + m < |xs|
    ensures ValidPaging(q + 1, pageSize)
    ensures m < |Crud.Window(xs, Skip(q + 1, pageSize), pageSize)|
    ensures Crud.Window(xs, Skip(q + 1, pageSize), pageSize)[m] == xs[q * pageSize + m]
  {
    assert Skip(q + 1, pageSize) == q * pageSize;
  }

  // ---------------------------------------------------------------- path parameters

  predicate IsHexDigit(c: char) {
    ('0' <= c <= '9') || ('a' <= c <= 'f') || ('A' <= c <= 'F')
  }

  /** `8-4-4-4-12` hex digits. */
  predicate Hyphenated(s: string) {
    && |s| == 36
    && (forall i :: 0 <= i < 36 ==> (s[i] == '-' <==> i in {8, 13, 18, 23}))
    && (forall i :: 0 <= i < 36 && i !in {8, 13, 18, 23} ==> IsHexDigit(s[i]))
  }

  /**
   * The UUID spellings a `UUID` path parameter accepts: 32 hex digits, the hyphenated
   * form, the hyphenated form in braces, or it after `urn:uuid:`.
   */
  predicate UuidText(s: string) {
    || (|s| == 32 && forall i :: 0 <= i < 32 ==> IsHexDigit(s[i]))
    || Hyphenated(s)
    || (|s| == 38 && s[0] == '{' && s[37] == '}' && Hyphenated(s[1..37]))
    || (|s| == 45 && s[..9] == "urn:uuid:" && Hyphenated(s[9..]))
  }

  /** Every accepted spelling has one of four lengths. */
  lemma UuidTextLength(s: string)
    requires UuidText(s)
    ensures |s| in {32, 36, 38, 45}
  {
  }

  /** The 422 a path parameter that fails UUID validation produces. */
  const InvalidUuid: HttpError := HttpError(422, "Input should be a valid UUID")
}

=== FILE: auth_crud.dfy ===
/**
 * The account operations of the data-access layer: the failed-login counter and
 * lockout, single-live verification and password-reset tokens, and refresh-token
 * lookup and family revocation. The clock is the `now` parameter (seconds) and
 * fresh token ids and secrets are parameters too.
 */
module AuthCrud {
  import opened Wrappers
  import opened Models

  // ---------------------------------------------------------------- lockout

  /** `increment_failed_login`: one more failure; at the limit the account locks for the lockout period. */
  function IncrementFailedLogin(u: User, maxAttempts: int, lockoutMinutes: int, now: Time): (r: User)
    ensures r.failedLoginAttempts == u.failedLoginAttempts + 1
    ensures r.failedLoginAttempts >= maxAttempts ==> r.lockedUntil == Some(now + lockoutMinutes * 60)
    ensures r.failedLoginAttempts < maxAttempts ==> r.lockedUntil == u.lockedUntil
    ensures r.id == u.id && r.email == u.email && r.isActive == u.isActive && r.lastLoginAt == u.lastLoginAt
  {
    var n := u.failedLoginAttempts + 1;
    if n >= maxAttempts then u.(failedLoginAttempts := n, lockedUntil := Some(now + lockoutMinutes * 60))
    else u.(failedLoginAttempts := n)
  }

  /** `reset_failed_login`: a successful login clears the counter and the lock and records the time. */
  function ResetFailedLogin(u: User, now: Time): (r: User)
    ensures r.failedLoginAttempts == 0 && r.lockedUntil.None? && r.lastLoginAt == Some(now)
    ensures r.id == u.id && r.email == u.email && r.isActive == u.isActive
  {
    u.(failedLoginAttempts := 0, lockedUntil := None, lastLoginAt := Some(now))
  }

  /** `is_user_locked`: locked while the clock is before the lock's end. */
  predicate IsUserLocked(u: User, now: Time) {
    u.lockedUntil.Some? && now < u.lockedUntil.value
  }

  /** `n` consecutive failures at the same instant. */
  function FailTimes(u: User, n: nat, maxAttempts: int, lockoutMinutes: int, now: Time): User
    decreases n
  {
    if n == 0 then u else IncrementFailedLogin(FailTimes(u, n - 1, maxAttempts, lockoutMinutes, now), maxAttempts, lockoutMinutes, now)
  }

  /**
   * After a successful login, `n` failures lock the account exactly when `n` reaches
   * the limit (for a positive lockout), and the counter equals `n`.
   */
  lemma {:induction false} LockoutAfterMaxAttempts(u: User, n: nat, maxAttempts: int, lockoutMinutes: int, t0: Time, now: Time)
    requires maxAttempts >= 1 && lockoutMinutes > 0
    ensures var r := FailTimes(ResetFailedLogin(u, t0), n, maxAttempts, lockoutMinutes, now);
            && r.failedLoginAttempts == n
            && (n < maxAttempts ==> r.lockedUntil.None?)
            && (n >= maxAttempts ==> r.lockedUntil == Some(now + lockoutMinutes * 60))
            && (IsUserLocked(r, now) <==> n >= maxAttempts)
    decreases n
  {
    if n > 0 {
      LockoutAfterMaxAttempts(u, n - 1, maxAttempts, lockoutMinutes, t0, now);
    }
  }

  /** A lock expires: once the clock reaches its end the account is usable again without a reset. */
  lemma LockExpires(u: User, now: Time)
    requires u.lockedUntil.Some? && now >= u.lockedUntil.value
    ensures !IsUserLocked(u, now)
  {
  }

  // ---------------------------------------------------------------- single-live tokens

  /** The unused tokens of one user and purpose. */
  predicate LiveVerification(t: VerificationToken, userId: Id, tokenType: string) {
    t.userId == userId && t.tokenType == tokenType && !t.isUsed
  }

  /**
   * The bulk update that retires a user's tokens of one purpose: afterwards none is
   * live, each row differs from before at most in `is_used` (`used_at` is not set),
   * and rows of another user or purpose are untouched.
   */
  function MarkUsedVerification(tokens: seq<VerificationToken>, userId: Id, tokenType: string): (r: seq<VerificationToken>)
    ensures |r| == |tokens|
    ensures forall i :: 0 <= i < |r| ==> !LiveVerification(r[i], userId, tokenType)
    ensures forall i :: 0 <= i < |tokens| ==> r[i].(isUsed := tokens[i].isUsed) == tokens[i]
    ensures forall i :: 0 <= i < |tokens| && !(tokens[i].userId == userId && tokens[i].tokenType == tokenType) ==>
              r[i] == tokens[i]
  {
    seq(|tokens|, i requires 0 <= i < |tokens| =>
      if tokens[i].userId == userId && tokens[i].tokenType == tokenType then tokens[i].(isUsed := true) else tokens[i])
  }

  /**
   * `create_verification_token`: every earlier unused token of this user and type
   * becomes used, then a fresh token expiring after the configured hours is appended.
   */
  function CreateVerificationToken(
    tokens: seq<VerificationToken>, id: Id, secret: string, userId: Id, tokenType: string,
    newEmail: Option<string>, expireHours: int, now: Time): (r: seq<VerificationToken>)
    ensures |r| == |tokens| + 1
    ensures var t := r[|tokens|];
            t.id == id && t.token == secret && LiveVerification(t, userId, tokenType)
            && t.newEmail == newEmail && t.expiresAt == now + expireHours * 3600 && t.usedAt.None?
    ensures forall i :: 0 <= i < |r| && LiveVerification(r[i], userId, tokenType) ==> i == |tokens|
    ensures forall i :: 0 <= i < |tokens| && !(tokens[i].userId == userId && tokens[i].tokenType == tokenType) ==> r[i] == tokens[i]
    ensures forall i :: 0 <= i < |tokens| ==> r[i].id == tokens[i].id && r[i].token == tokens[i].token && r[i].usedAt == tokens[i].usedAt
  {
    MarkUsedVerification(tokens, userId, tokenType)
    + [VerificationToken(id, secret, userId, tokenType, newEmail, false, now + expireHours * 3600, None)]
  }

  /** Tokens of another user or another purpose stay live through a creation. */
  lemma VerificationTokensIndependent(
    tokens: seq<VerificationToken>, id: Id, secret: string, userId: Id, tokenType: string,
    newEmail: Option<string>, expireHours: int, now: Time, i: nat, otherUser: Id, otherType: string)
    requires i < |tokens| && LiveVerification(tokens[i], otherUser, otherType)
    requires otherUser != userId || otherType != tokenType
    ensures LiveVerification(CreateVerificationToken(tokens, id, secret, userId, tokenType, newEmail, expireHours, now)[i], otherUser, otherType)
  {
  }

  /** An unused password-reset token of the user. */
  predicate LiveReset(t: PasswordResetToken, userId: Id) {
    t.userId == userId && !t.isUsed
  }

  /** The password-reset counterpart: afterwards the user has no live token, and only `is_used` changed. */
  function MarkUsedReset(tokens: seq<PasswordResetToken>, userId: Id): (r: seq<PasswordResetToken>)
    ensures |r| == |tokens|
    ensures forall i :: 0 <= i < |r| ==> !LiveReset(r[i], userId)
    ensures forall i :: 0 <= i < |tokens| ==> r[i].(isUsed := tokens[i].isUsed) == tokens[i]
    ensures forall i :: 0 <= i < |tokens| && tokens[i].userId != userId ==> r[i] == tokens[i]
  {
    seq(|tokens|, i requires 0 <= i < |tokens| =>
      if tokens[i].userId == userId then tokens[i].(isUsed := true) else tokens[i])
  }

  /** `create_password_reset_token`: earlier unused tokens of the user become used; a fresh one is appended. */
  function CreatePasswordResetToken(
    tokens: seq<PasswordResetToken>, id: Id, secret: string, userId: Id, expireHours: int, now: Time)
    : (r: seq<PasswordResetToken>)
    ensures |r| == |tokens| + 1
    ensures var t := r[|tokens|];
            t.id == id && t.token == secret && LiveReset(t, userId) && t.expiresAt == now + expireHours * 3600 && t.usedAt.None?
    ensures forall i :: 0 <= i < |r| && LiveReset(r[i], userId) ==> i == |tokens|
    ensures forall i :: 0 <= i < |tokens| && tokens[i].userId != userId ==> r[i] == tokens[i]
  {
    MarkUsedReset(tokens, userId) + [PasswordResetToken(id, secret, userId, false, now + expireHours * 3600, None)]
  }

  /** Issuing twice leaves only the second token live: the first one can no longer be redeemed. */
  lemma SecondResetTokenSupersedesFirst(
    tokens: seq<PasswordResetToken>, id1: Id, s1: string, id2: Id, s2: string, userId: Id, hours: int, t1: Time, t2: Time)
    ensures var r := CreatePasswordResetToken(CreatePasswordResetToken(tokens, id1, s1, userId, hours, t1), id2, s2, userId, hours, t2);
            !LiveReset(r[|tokens|], userId) && LiveReset(r[|tokens| + 1], userId) && r[|tokens| + 1].token == s2
  {
  }

  // ---------------------------------------------------------------- refresh tokens

  /** A refresh token that may still be exchanged at time `now`. */
  predicate ActiveRefresh(t: RefreshToken, secret: string, now: Time) {
    t.token == secret && !t.isRevoked && t.expiresAt > now
  }

  /** `get_active_refresh_token`: the token with this secret, only if unrevoked and unexpired. */
  function GetActiveRefreshToken(tokens: seq<RefreshToken>, secret: string, now: Time): (r: Option<RefreshToken>)
    ensures r.Some? ==> r.value in tokens && r.value.token == secret && !r.value.isRevoked && r.value.expiresAt > now
    ensures r.None? <==> forall i :: 0 <= i < |tokens| ==> !ActiveRefresh(tokens[i], secret, now)
  {
    FindFirst(tokens, (t: RefreshToken) => ActiveRefresh(t, secret, now))
  }

  /** A revoked or expired token is never returned, even when it is the only one with that secret. */
  lemma RevokedTokenNotActive(t: RefreshToken, now: Time)
    requires t.isRevoked || t.expiresAt <= now
    ensures GetActiveRefreshToken([t], t.token, now).None?
  {
  }

  /** Number of unrevoked tokens in a family. */
  function CountUnrevoked(tokens: seq<RefreshToken>, familyId: Id): nat
    decreases |tokens|
  {
    if |tokens| == 0 then 0
    else CountUnrevoked(tokens[..|tokens| - 1], familyId)
         + (if tokens[|tokens| - 1].familyId == familyId && !tokens[|tokens| - 1].isRevoked then 1 else 0)
  }

  /** The row `revoke_token_family` writes in place of `t`. */
  function RevokedInFamily(t: RefreshToken, familyId: Id, now: Time): RefreshToken {
    if t.familyId == familyId && !t.isRevoked then t.(isRevoked := true, revokedAt := Some(now)) else t
  }

  /**
   * `revoke_token_family`: revokes every unrevoked token of the family, stamping the
   * revocation time, and returns how many rows it changed.
   */
  method RevokeTokenFamily(tokens: seq<RefreshToken>, familyId: Id, now: Time) returns (r: seq<RefreshToken>, count: nat)
    ensures |r| == |tokens|
    ensures count == CountUnrevoked(tokens, familyId)
    ensures CountUnrevoked(r, familyId) == 0
    ensures forall i :: 0 <= i < |r| ==> r[i] == RevokedInFamily(tokens[i], familyId, now)
    ensures forall i :: 0 <= i < |r| && tokens[i].familyId != familyId ==> r[i] == tokens[i]
  {
    r := [];
    count := 0;
    var i := 0;
    while i < |tokens|
      invariant 0 <= i <= |tokens| && |r| == i
      invariant forall j :: 0 <= j < i ==> r[j] == RevokedInFamily(tokens[j], familyId, now)
      invariant count == CountUnrevoked(tokens[..i], familyId)
      invariant CountUnrevoked(r, familyId) == 0
    {
      var t := tokens[i];
      var t' := RevokedInFamily(t, familyId, now);
      assert tokens[..i + 1][..i] == tokens[..i];
      assert (r + [t'])[..i] == r;
      if t.familyId == familyId && !t.isRevoked {
        count := count + 1;
      }
      r := r + [t'];
      i := i + 1;
    }
    assert tokens[..i] == tokens;
  }

  /** After revocation no token of the family can be exchanged, at any time. */
  lemma RevokedFamilyInactive(r: seq<RefreshToken>, familyId: Id, secret: string, now: Time, i: nat)
    requires i < |r| && r[i].familyId == familyId
    requires CountUnrevoked(r, familyId) == 0
    ensures !ActiveRefresh(r[i], secret, now)
  {
    NoUnrevokedMember(r, familyId, i);
  }

  /** A family with no unrevoked count has no unrevoked member. */
  lemma {:induction false} NoUnrevokedMember(r: seq<RefreshToken>, familyId: Id, i: nat)
    requires i < |r| && r[i].familyId == familyId
    requires CountUnrevoked(r, familyId) == 0
    ensures r[i].isRevoked
    decreases |r|
  {
    if i < |r| - 1 {
      NoUnrevokedMember(r[..|r| - 1], familyId, i);
    }
  }
}

=== FILE: crud.dfy ===
/**
 * The project and document operations of the data-access layer, over tables held
 * as sequences in creation order (oldest first). A query ordered by `created_at`
 * descending is the reverse of the matching rows; `offset`/`limit` is a window.
 */
module Crud {
  import opened Wrappers
  import opened Models
  import Schemas

  // ---------------------------------------------------------------- paging

  /** SQL `OFFSET skip LIMIT limit` over an ordered result. */
  function Window<T>(xs: seq<T>, skip: nat, limit: nat): (w: seq<T>)
    ensures |w| <= limit
    ensures skip >= |xs| ==> w == []
    ensures skip + limit <= |xs| ==> |w| == limit
    ensures |w| == if skip >= |xs| then 0 else if skip + limit <= |xs| then limit else |xs| - skip
    ensures forall i :: 0 <= i < |w| ==> skip + i < |xs| && w[i] == xs[skip + i]
  {
    var lo := if skip < |xs| then skip else |xs|;
    var hi := if skip + limit < |xs| then skip + limit else |xs|;
    xs[lo..hi]
  }

  /** Two consecutive windows read the same rows as one window of their combined size. */
  lemma WindowsTile<T>(xs: seq<T>, skip: nat, a: nat, b: nat)
    ensures Window(xs, skip, a) + Window(xs, skip + a, b) == Window(xs, skip, a + b)
  {
    var w1 := Window(xs, skip, a);
    var w2 := Window(xs, skip + a, b);
    var w := Window(xs, skip, a + b);
    if skip + a < |xs| {
      assert |w1| == a;
      assert |w1 + w2| == |w|;
      forall i | 0 <= i < |w| ensures (w1 + w2)[i] == w[i] {
        if i >= a {
          assert (w1 + w2)[i] == w2[i - a];
        }
      }
    } else {
      assert w2 == [];
      assert |w1| == |w|;
    }
  }

  // ---------------------------------------------------------------- projects

  /** `get_project`: the project with this id, only when the caller owns it. */
  function GetProject(projects: seq<Project>, projectId: Id, ownerId: Id): (r: Option<Project>)
    ensures r.Some? ==> r.value in projects && r.value.id == projectId && r.value.ownerId == ownerId
    ensures r.None? <==> forall i :: 0 <= i < |projects| ==> !(projects[i].id == projectId && projects[i].ownerId == ownerId)
  {
    FindFirst(projects, (p: Project) => p.id == projectId && p.ownerId == ownerId)
  }

  /** Another owner's project is never found, whatever its id. */
  lemma GetProjectHidesOtherOwners(projects: seq<Project>, projectId: Id, ownerId: Id)
    requires forall i :: 0 <= i < |projects| && projects[i].id == projectId ==> projects[i].ownerId != ownerId
    ensures GetProject(projects, projectId, ownerId).None?
  {
  }

  predicate ProjectMatches(p: Project, ownerId: Id, status: Option<ProjectStatus>) {
    p.ownerId == ownerId && (status.None? || p.status == status.value)
  }

  /** The caller's projects (optionally of one status), newest first. */
  function UserProjects(projects: seq<Project>, ownerId: Id, status: Option<ProjectStatus>): (r: seq<Project>)
    ensures forall i :: 0 <= i < |r| ==> r[i] in projects && ProjectMatches(r[i], ownerId, status)
    ensures forall i :: 0 <= i < |projects| && ProjectMatches(projects[i], ownerId, status) ==> projects[i] in r
  {
    var matching := Filter(projects, (p: Project) => ProjectMatches(p, ownerId, status));
    var r := Reverse(matching);
    assert forall x :: x in matching ==> x in r by {
      forall x | x in matching ensures x in r {
        ReverseMembership(matching, x);
      }
    }
    r
  }

  /** `get_projects`: one window of `UserProjects`, and the total count. */
  function GetProjects(projects: seq<Project>, ownerId: Id, status: Option<ProjectStatus>, skip: nat, limit: nat)
    : (r: (seq<Project>, nat))
    ensures r.1 == |UserProjects(projects, ownerId, status)|
    ensures |r.0| <= limit && |r.0| <= r.1
    ensures forall i :: 0 <= i < |r.0| ==> r.0[i] in projects && ProjectMatches(r.0[i], ownerId, status)
    ensures skip == 0 && r.1 <= limit ==> r.0 == UserProjects(projects, ownerId, status)
    ensures |r.0| == if skip >= r.1 then 0 else if skip + limit <= r.1 then limit else r.1 - skip
    ensures forall i :: 0 <= i < |r.0| ==> r.0[i] == UserProjects(projects, ownerId, status)[skip + i]
  {
    var all := UserProjects(projects, ownerId, status);
    (Window(all, skip, limit), |all|)
  }
  /** The contract alone fixes the page: it is the `skip`/`limit` window of the caller's projects, newest first. */
  lemma ProjectsPageIsWindow(projects: seq<Project>, ownerId: Id, status: Option<ProjectStatus>, skip: nat, limit: nat)
    ensures GetProjects(projects, ownerId, status, skip, limit).0 == Window(UserProjects(projects, ownerId, status), skip, limit)
  {
    hide GetProjects, Window, UserProjects;
    var page := GetProjects(projects, ownerId, status, skip, limit).0;
    var w := Window(UserProjects(projects, ownerId, status), skip, limit);
    assert |page| == |w|;
    assert forall i :: 0 <= i < |page| ==> page[i] == w[i];
  }


  // ---------------------------------------------------------------- documents

  /** `create_document`: the table with a new PENDING row appended. */
  function CreateDocument(
    docs: seq<Document>, id: Id, filename: string, originalFilename: string, projectId: Id,
    filePath: string, fileSize: Option<int>, fileType: Option<string>, contentType: Option<string>, now: Time)
    : (r: seq<Document>)
    ensures |r| == |docs| + 1 && r[..|docs|] == docs
    ensures IsUnprocessed(r[|docs|]) && r[|docs|].id == id && r[|docs|].projectId == projectId
    ensures r[|docs|].originalFilename == originalFilename && r[|docs|].filePath == filePath
  {
    docs + [NewDocumentRow(id, filename, originalFilename, projectId, filePath, fileSize, fileType, contentType, now)]
  }

  /** `get_document`: the document with this id, only within this project. */
  function GetDocument(docs: seq<Document>, documentId: Id, projectId: Id): (r: Option<Document>)
    ensures r.Some? ==> r.value in docs && r.value.id == documentId && r.value.projectId == projectId
    ensures r.None? <==> forall i :: 0 <= i < |docs| ==> !(docs[i].id == documentId && docs[i].projectId == projectId)
  {
    FindFirst(docs, (d: Document) => d.id == documentId && d.projectId == projectId)
  }

  /** `get_document_by_id`: the document with this id in any project. */
  function GetDocumentById(docs: seq<Document>, documentId: Id): (r: Option<Document>)
    ensures r.Some? ==> r.value in docs && r.value.id == documentId
    ensures r.None? <==> forall i :: 0 <= i < |docs| ==> docs[i].id != documentId
  {
    FindFirst(docs, (d: Document) => d.id == documentId)
  }

  predicate DocumentMatches(d: Document, projectId: Id, status: Option<DocumentStatus>) {
    d.projectId == projectId && (status.None? || d.status == status.value)
  }

  /** The project's documents (optionally of one status), newest first. */
  function ProjectDocuments(docs: seq<Document>, projectId: Id, status: Option<DocumentStatus>): (r: seq<Document>)
    ensures forall i :: 0 <= i < |r| ==> r[i] in docs && DocumentMatches(r[i], projectId, status)
    ensures forall i :: 0 <= i < |docs| && DocumentMatches(docs[i], projectId, status) ==> docs[i] in r
  {
    var matching := Filter(docs, (d: Document) => DocumentMatches(d, projectId, status));
    var r := Reverse(matching);
    assert forall x :: x in matching ==> x in r by {
      forall x | x in matching ensures x in r {
        ReverseMembership(matching, x);
      }
    }
    r
  }

  /** `get_documents_by_project`: one window of `ProjectDocuments`, and the total count. */
  function GetDocumentsByProject(docs: seq<Document>, projectId: Id, status: Option<DocumentStatus>, skip: nat, limit: nat)
    : (r: (seq<Document>, nat))
    ensures r.1 == |ProjectDocuments(docs, projectId, status)|
    ensures |r.0| <= limit && |r.0| <= r.1
    ensures forall i :: 0 <= i < |r.0| ==> r.0[i] in docs && DocumentMatches(r.0[i], projectId, status)
    ensures skip == 0 && r.1 <= limit ==> r.0 == ProjectDocuments(docs, projectId, status)
    ensures |r.0| == if skip >= r.1 then 0 else if skip + limit <= r.1 then limit else r.1 - skip
    ensures forall i :: 0 <= i < |r.0| ==> r.0[i] == ProjectDocuments(docs, projectId, status)[skip + i]
  {
    var all := ProjectDocuments(docs, projectId, status);
    var page := Window(all, skip, limit);
    assert skip == 0 && |all| <= limit ==> page == all;
    (page, |all|)
  }
  /** The contract alone fixes the page: it is the `skip`/`limit` window of the project's documents, newest first. */
  lemma DocumentsPageIsWindow(docs: seq<Document>, projectId: Id, status: Option<DocumentStatus>, skip: nat, limit: nat)
    ensures GetDocumentsByProject(docs, projectId, status, skip, limit).0 == Window(ProjectDocuments(docs, projectId, status), skip, limit)
  {
    hide GetDocumentsByProject, Window, ProjectDocuments;
    var page := GetDocumentsByProject(docs, projectId, status, skip, limit).0;
    var w := Window(ProjectDocuments(docs, projectId, status), skip, limit);
    assert |page| == |w|;
    assert forall i :: 0 <= i < |page| ==> page[i] == w[i];
  }


  /** `update_document_status`: status and message always; counts only when given; the completion time only on COMPLETED. */
  function UpdateDocumentStatus(
    d: Document, status: DocumentStatus, message: Option<string>,
    chunkCount: Option<int>, pageCount: Option<int>, characterCount: Option<int>, now: Time): (r: Document)
    ensures r.status == status && r.statusMessage == message && r.updatedAt == now
    ensures r.chunkCount == chunkCount.GetOr(d.chunkCount)
    ensures r.pageCount == (if pageCount.Some? then pageCount else d.pageCount)
    ensures r.characterCount == (if characterCount.Some? then characterCount else d.characterCount)
    ensures status == Completed ==> r.processedAt == Some(now)
    ensures status != Completed ==> r.processedAt == d.processedAt
    ensures SameFile(r, d)
  {
    var r := d.(status := status, statusMessage := message, updatedAt := now);
    var r := if chunkCount.Some? then r.(chunkCount := chunkCount.value) else r;
    var r := if pageCount.Some? then r.(pageCount := pageCount) else r;
    var r := if characterCount.Some? then r.(characterCount := characterCount) else r;
    if status == Completed then r.(processedAt := Some(now)) else r
  }

  /** The identity and file columns no status transition touches. */
  predicate SameFile(a: Document, b: Document) {
    && a.id == b.id && a.projectId == b.projectId
    && a.filename == b.filename && a.originalFilename == b.originalFilename
    && a.filePath == b.filePath && a.fileSize == b.fileSize
    && a.fileType == b.fileType && a.contentType == b.contentType
  }

  /** `reset_document_for_reingestion`: back to PENDING with no chunks; page and character counts stay. */
  function ResetDocumentForReingestion(d: Document, now: Time): (r: Document)
    ensures r.status == Pending && r.statusMessage.None? && r.chunkCount == 0 && r.processedAt.None?
    ensures r.pageCount == d.pageCount && r.characterCount == d.characterCount
    ensures r.updatedAt == now
    ensures SameFile(r, d)
  {
    d.(status := Pending, statusMessage := None, chunkCount := 0, processedAt := None, updatedAt := now)
  }

  /** A reset row is indistinguishable from a fresh upload exactly when it had no page or character count. */
  lemma ResetMatchesFreshUploadIff(d: Document, now: Time)
    ensures IsUnprocessed(ResetDocumentForReingestion(d, now)) <==> d.pageCount.None? && d.characterCount.None?
  {
  }

  /** A completed run's page count survives the reset for re-ingestion. */
  lemma ResetKeepsStaleMetrics(d: Document, pages: int, chars: int, t1: Time, t2: Time)
    ensures var done := UpdateDocumentStatus(d, Completed, None, Some(1), Some(pages), Some(chars), t1);
            var r := ResetDocumentForReingestion(done, t2);
            r.pageCount == Some(pages) && r.characterCount == Some(chars) && !IsUnprocessed(r)
  {
  }

  /** Resetting twice is resetting once, at the later time. */
  lemma ResetIdempotent(d: Document, t1: Time, t2: Time)
    ensures ResetDocumentForReingestion(ResetDocumentForReingestion(d, t1), t2) == ResetDocumentForReingestion(d, t2)
  {
  }

  /** Writes an updated row back into the table by id; every other row is unchanged. */
  function ReplaceDocument(docs: seq<Document>, d: Document): (r: seq<Document>)
    ensures |r| == |docs|
    ensures forall i :: 0 <= i < |docs| ==> r[i] == (if docs[i].id == d.id then d else docs[i])
  {
    seq(|docs|, i requires 0 <= i < |docs| => if docs[i].id == d.id then d else docs[i])
  }

  /** Looking a row up by id after writing it back finds the written row. */
  lemma ReplacedRowFound(docs: seq<Document>, d: Document, i: nat)
    requires i < |docs| && docs[i].id == d.id
    ensures GetDocumentById(ReplaceDocument(docs, d), d.id) == Some(d)
  {
    var r := ReplaceDocument(docs, d);
    assert r[i] == d;
    var found := GetDocumentById(r, d.id);
    var j :| 0 <= j < |r| && r[j] == found.value;
    assert docs[j].id == d.id;
  }

  /** `delete_document`: every row with this id is gone and every other row stays, in order. */
  function DeleteDocumentRecord(docs: seq<Document>, documentId: Id): (r: seq<Document>)
    ensures forall i :: 0 <= i < |r| ==> r[i] in docs && r[i].id != documentId
    ensures forall i :: 0 <= i < |docs| && docs[i].id != documentId ==> docs[i] in r
  {
    Filter(docs, (d: Document) => d.id != documentId)
  }

  /** `delete_project`: the project row goes, and the `delete-orphan` cascade takes its documents. */
  function DeleteProject(projects: seq<Project>, docs: seq<Document>, projectId: Id): (r: (seq<Project>, seq<Document>))
    ensures forall i :: 0 <= i < |r.0| ==> r.0[i] in projects && r.0[i].id != projectId
    ensures forall i :: 0 <= i < |projects| && projects[i].id != projectId ==> projects[i] in r.0
    ensures forall i :: 0 <= i < |r.1| ==> r.1[i] in docs && r.1[i].projectId != projectId
    ensures forall i :: 0 <= i < |docs| && docs[i].projectId != projectId ==> docs[i] in r.1
  {
    (Filter(projects, (p: Project) => p.id != projectId), Filter(docs, (d: Document) => d.projectId != projectId))
  }

  // ---------------------------------------------------------------- statistics

  /** Number of the project's documents with the given status. */
  function CountStatus(docs: seq<Document>, projectId: Id, status: DocumentStatus): nat
    decreases |docs|
  {
    if |docs| == 0 then 0
    else
      var last := docs[|docs| - 1];
      CountStatus(docs[..|docs| - 1], projectId, status)
      + (if last.projectId == projectId && last.status == status then 1 else 0)
  }

  /** Number of the project's documents. */
  function CountProject(docs: seq<Document>, projectId: Id): nat
    decreases |docs|
  {
    if |docs| == 0 then 0
    else CountProject(docs[..|docs| - 1], projectId) + (if docs[|docs| - 1].projectId == projectId then 1 else 0)
  }

  /** Sum of `chunk_count` over the project's documents (`COALESCE(SUM(...), 0)`). */
  function SumChunks(docs: seq<Document>, projectId: Id): int
    decreases |docs|
  {
    if |docs| == 0 then 0
    else SumChunks(docs[..|docs| - 1], projectId) + (if docs[|docs| - 1].projectId == projectId then docs[|docs| - 1].chunkCount else 0)
  }

  /** Sum of the known `file_size`s of the project's documents; SQL `SUM` skips NULLs. */
  function SumSizes(docs: seq<Document>, projectId: Id): int
    decreases |docs|
  {
    if |docs| == 0 then 0
    else
      var last := docs[|docs| - 1];
      SumSizes(docs[..|docs| - 1], projectId) + (if last.projectId == projectId && last.fileSize.Some? then last.fileSize.value else 0)
  }

  /** `get_project_stats`: PROCESSING documents are reported as pending. */
  function GetProjectStats(docs: seq<Document>, projectId: Id): (s: Schemas.ProjectStats)
    ensures s.documentCount == CountProject(docs, projectId)
    ensures s.completedDocuments == CountStatus(docs, projectId, Completed)
    ensures s.failedDocuments == CountStatus(docs, projectId, Failed)
    ensures s.pendingDocuments == CountStatus(docs, projectId, Pending) + CountStatus(docs, projectId, Processing)
    ensures s.totalChunks == SumChunks(docs, projectId) && s.totalSizeBytes == SumSizes(docs, projectId)
  {
    Schemas.ProjectStats(
      CountProject(docs, projectId),
      CountStatus(docs, projectId, Completed),
      CountStatus(docs, projectId, Failed),
      CountStatus(docs, projectId, Pending) + CountStatus(docs, projectId, Processing),
      SumChunks(docs, projectId),
      SumSizes(docs, projectId))
  }

  /** Every document has exactly one of the four statuses. */
  lemma {:induction false} CountPartition(docs: seq<Document>, projectId: Id)
    ensures CountProject(docs, projectId)
            == CountStatus(docs, projectId, Pending) + CountStatus(docs, projectId, Processing)
             + CountStatus(docs, projectId, Completed) + CountStatus(docs, projectId, Failed)
    decreases |docs|
  {
    if |docs| > 0 {
      CountPartition(docs[..|docs| - 1], projectId);
    }
  }

  /** Chunk totals are non-negative when every row's chunk count is. */
  lemma {:induction false} SumChunksNonNegative(docs: seq<Document>, projectId: Id)
    requires forall i :: 0 <= i < |docs| ==> docs[i].chunkCount >= 0
    ensures SumChunks(docs, projectId) >= 0
    decreases |docs|
  {
    if |docs| > 0 {
      SumChunksNonNegative(docs[..|docs| - 1], projectId);
    }
  }

  /** The reported buckets partition the document count: completed + failed + pending. */
  lemma StatsConsistent(docs: seq<Document>, projectId: Id)
    requires forall i :: 0 <= i < |docs| ==> docs[i].chunkCount >= 0
    ensures Schemas.ConsistentStats(GetProjectStats(docs, projectId))
  {
    CountPartition(docs, projectId);
    SumChunksNonNegative(docs, projectId);
  }

  /** A project without documents reports the all-zero statistics. */
  lemma {:induction false} StatsOfEmptyProject(docs: seq<Document>, projectId: Id)
    requires forall i :: 0 <= i < |docs| ==> docs[i].projectId != projectId
    ensures GetProjectStats(docs, projectId) == Schemas.EmptyProjectStats
    decreases |docs|
  {
    if |docs| > 0 {
      StatsOfEmptyProject(docs[..|docs| - 1], projectId);
    }
  }

  /** Creating a document adds one to the project's count and one to its pending bucket, nothing else. */
  lemma StatsAfterCreate(
    docs: seq<Document>, id: Id, filename: string, originalFilename: string, projectId: Id,
    filePath: string, fileType: Option<string>, contentType: Option<string>, now: Time)
    ensures var before := GetProjectStats(docs, projectId);
            var after := GetProjectStats(CreateDocument(docs, id, filename, originalFilename, projectId, filePath, None, fileType, contentType, now), projectId);
            after == before.(documentCount := before.documentCount + 1, pendingDocuments := before.pendingDocuments + 1)
  {
    var r := CreateDocument(docs, id, filename, originalFilename, projectId, filePath, None, fileType, contentType, now);
    assert r[..|r| - 1] == docs;
  }
}

=== FILE: documents_api.dfy ===
/**
 * The document endpoints: upload checks and saving, single and bulk upload,
 * listing, re-ingestion, deletion, the supported-type listing, and how GET paths
 * of the documents router resolve to handlers.
 */
module DocumentsApi {
  import opened Wrappers
  import opened Models
  import opened Strings
  import opened Api
  import Crud
  import Schemas
  import Settings
  import VS = VectorStore
  import Ingestion

  // ---------------------------------------------------------------- upload checks

  /** The accepted upload extensions, lower case with the dot. */
  const AllowedExtensions: set<string> :=
    {".pdf", ".docx", ".doc", ".pptx", ".ppt", ".xlsx", ".xls", ".md", ".txt", ".html", ".htm"}

  /** The hard upload cap: 50 MiB. */
  const MaxFileSize: nat := 50 * 1024 * 1024

  /** A multipart file: its client-side name and type, and the lengths of the chunks reading it yields. */
  datatype UploadFile = UploadFile(filename: Option<string>, contentType: Option<string>, chunks: seq<Positive>)

  /** A non-empty read: the read loop stops at the first empty one. */
  type Positive = n: nat | n > 0 witness 1

  /** `s` lists every allowed extension exactly once, in some order. */
  predicate ListsAllowedOnce(s: seq<string>) {
    && (forall i :: 0 <= i < |s| ==> s[i] in AllowedExtensions)
    && (forall e :: e in AllowedExtensions ==> e in s)
    && (forall i, j :: 0 <= i < j < |s| ==> s[i] != s[j])
  }

  /** An iteration order of the extension set: fixed per process by string hashing, otherwise unknown. */
  type ExtensionOrder = s: seq<string> | ListsAllowedOnce(s) witness SortedExtensions

  /**
   * What the environment supplies: the upload directory, the MIME guess of the
   * standard library, the iteration order of the extension set, and the clock.
   */
  datatype UploadEnv = UploadEnv(
    uploadDir: string,
    guessType: string -> Option<string>,
    extensionOrder: ExtensionOrder,
    now: Time)

  /** Python `a or b` on an optional string: `b` when `a` is None or empty. */
  function OrString(a: Option<string>, b: string): string {
    if a.Some? && a.value != "" then a.value else b
  }

  /** The upload's name when it is truthy. */
  function GivenName(file: UploadFile): Option<string> {
    if file.filename.Some? && file.filename.value != "" then file.filename else None
  }

  /** `sep.join(parts)` for a string separator. */
  function JoinWith(parts: seq<string>, sep: string): string {
    if |parts| == 0 then "" else if |parts| == 1 then parts[0] else parts[0] + sep + JoinWith(parts[1..], sep)
  }

  /** The 400 detail for a rejected extension, listing the allowed ones in the set's iteration order. */
  function UnsupportedTypeDetail(ext: string, order: seq<string>): string {
    "File type '" + ext + "' is not supported. Allowed types: " + JoinWith(order, ", ")
  }

  /** The extension `validate_file` checks: the path suffix, lower-cased. */
  function Extension(name: string): string {
    Lower(PathSuffix(name))
  }

  /** `validate_file`: the lower-cased extension and a content type, or 400. */
  function ValidateFile(file: UploadFile, env: UploadEnv): (r: Result<(string, string), HttpError>)
    ensures r.Success? <==> GivenName(file).Some? && Extension(GivenName(file).value) in AllowedExtensions
    ensures r.Success? ==> r.value.0 == Extension(GivenName(file).value) && r.value.0 in AllowedExtensions
    ensures r.Success? ==> r.value.1 != ""
    ensures r.Failure? ==> r.error.code == 400
    ensures GivenName(file).None? ==> r == Failure(HttpError(400, "No filename provided"))
  {
    match GivenName(file)
    case None => Failure(HttpError(400, "No filename provided"))
    case Some(name) =>
      var ext := Extension(name);
      if ext !in AllowedExtensions then
        Failure(HttpError(400, UnsupportedTypeDetail(ext, env.extensionOrder)))
      else
        var guessed := env.guessType(name);
        Success((ext, OrString(file.contentType, OrString(guessed, "application/octet-stream"))))
  }

  /** A name `stem + ext` is accepted exactly when `ext`, lower-cased, is an allowed extension. */
  lemma ValidateFileByExtension(file: UploadFile, env: UploadEnv, stem: string, ext: string)
    requires file.filename == Some(stem + ext)
    requires |stem| > 0 && |ext| >= 2 && ext[0] == '.' && '.' !in ext[1..]
    requires '/' !in stem && '/' !in ext
    ensures ValidateFile(file, env).Success? <==> Lower(ext) in AllowedExtensions
  {
    SuffixOfName(stem, ext);
  }

  /** pathlib drops a trailing `/` or `/.` before taking the suffix, so the extension is the same. */
  lemma ExtensionIgnoresTrailingSeparators(name: string)
    ensures Extension(name + "/") == Extension(name) && Extension(name + "/.") == Extension(name)
  {
    NameIgnoresTrailingSeparators(name);
  }

  /**
   * `report.pdf/` and `report.pdf/.` are judged, and accepted or rejected, as
   * `report.pdf` is.
   */
  lemma TrailingSeparatorsIgnored(name: string, contentType: Option<string>, chunks: seq<Positive>, env: UploadEnv)
    requires name != ""
    ensures var plain := ValidateFile(UploadFile(Some(name), contentType, chunks), env);
            && ValidateFile(UploadFile(Some(name + "/"), contentType, chunks), env).Success? == plain.Success?
            && ValidateFile(UploadFile(Some(name + "/."), contentType, chunks), env).Success? == plain.Success?
            && (plain.Success? ==>
                  && ValidateFile(UploadFile(Some(name + "/"), contentType, chunks), env).value.0 == plain.value.0
                  && ValidateFile(UploadFile(Some(name + "/."), contentType, chunks), env).value.0 == plain.value.0)
  {
    ExtensionIgnoresTrailingSeparators(name);
    hide Extension;
  }

  /** `report.pdf/` is accepted as a PDF. */
  lemma TrailingSlashPdfAccepted(env: UploadEnv)
    ensures ValidateFile(UploadFile(Some("report.pdf/"), None, []), env).Success?
    ensures ValidateFile(UploadFile(Some("report.pdf/"), None, []), env).value.0 == ".pdf"
  {
    var name := "report.pdf";
    var slashed := name + "/";
    assert slashed == "report.pdf/";
    PlainPdfAccepted(env);
    TrailingSeparatorsIgnored(name, None, [], env);
  }

  /** The extension of `report.pdf` is `.pdf`. */
  lemma PdfExtension()
    ensures Extension("report.pdf") == ".pdf"
  {
    var ext := ".pdf";
    assert ext[0] == '.' && ext[1..] == "pdf";
    assert "report" + ext == "report.pdf";
    SuffixOfName("report", ext);
    LowerUnchanged(ext);
  }

  /** `report.pdf` is accepted as a PDF. */
  lemma PlainPdfAccepted(env: UploadEnv)
    ensures ValidateFile(UploadFile(Some("report.pdf"), None, []), env).Success?
    ensures ValidateFile(UploadFile(Some("report.pdf"), None, []), env).value.0 == ".pdf"
  {
    PdfExtension();
    hide Extension;
  }

  /** A dotfile such as `.pdf` has no suffix and is rejected. */
  lemma DotfileRejected(file: UploadFile, env: UploadEnv, rest: string)
    requires file.filename == Some(['.'] + rest) && '.' !in rest && '/' !in rest
    ensures ValidateFile(file, env).Failure?
  {
    var name := ['.'] + rest;
    DotfileHasNoSuffix(rest);
    assert |Extension(name)| == 0;
    EmptyExtensionNotAllowed(Extension(name));
    assert GivenName(file) == Some(name);
  }

  lemma EmptyExtensionNotAllowed(ext: string)
    requires |ext| == 0
    ensures ext !in AllowedExtensions
  {
    assert ext == "";
  }

  /** Sum of the chunk lengths. */
  function Total(chunks: seq<nat>): nat
    decreases |chunks|
  {
    if |chunks| == 0 then 0 else Total(chunks[..|chunks| - 1]) + chunks[|chunks| - 1]
  }

  /** A prefix never totals more than the whole. */
  lemma {:induction false} TotalPrefix(chunks: seq<nat>, k: nat)
    requires k <= |chunks|
    ensures Total(chunks[..k]) <= Total(chunks)
    decreases |chunks|
  {
    if k < |chunks| {
      var init := chunks[..|chunks| - 1];
      TotalPrefix(init, k);
      assert init[..k] == chunks[..k];
    } else {
      assert chunks[..k] == chunks;
    }
  }

  const TooLarge: HttpError := HttpError(413, "File size exceeds maximum allowed size of 50 MB")

  /**
   * `save_upload_file`: copies the stream chunk by chunk, counting bytes; the chunk
   * that would take the count past the cap is not written, the partial file is
   * removed and 413 is raised.
   */
  method SaveUploadFile(chunks: seq<Positive>) returns (r: Result<nat, HttpError>, written: nat)
    ensures written <= MaxFileSize
    ensures r.Success? <==> Total(chunks) <= MaxFileSize
    ensures r.Success? ==> r.value == Total(chunks) && written == r.value
    ensures r.Failure? ==> r.error == TooLarge
  {
    var total: nat := 0;
    written := 0;
    var i := 0;
    while i < |chunks|
      invariant 0 <= i <= |chunks|
      invariant total == Total(chunks[..i]) && total <= MaxFileSize && written == total
    {
      assert chunks[..i + 1][..i] == chunks[..i];
      total := total + chunks[i];
      if total > MaxFileSize {
        TotalPrefix(chunks, i + 1);
        return Failure(TooLarge), written;
      }
      written := total;
      i := i + 1;
    }
    assert chunks[..i] == chunks;
    r := Success(total);
  }

  /** The cap is the default `MAX_FILE_SIZE_MB` in bytes, but the handler never reads that setting. */
  lemma UploadCapIgnoresSetting(s: Settings.Settings)
    ensures MaxFileSize == Settings.MaxUploadSizeBytes(Settings.Defaults)
    ensures s.maxFileSizeMb != 50 ==> MaxFileSize != Settings.MaxUploadSizeBytes(s)
  {
  }

  // ---------------------------------------------------------------- upload

  /** The fresh UUIDs one upload draws: the stored file's name and the row's id. */
  datatype FreshIds = FreshIds(fileId: Id, rowId: Id)

  /** Whether one file passes validation and fits under the cap. */
  predicate Accepted(file: UploadFile, env: UploadEnv) {
    ValidateFile(file, env).Success? && Total(file.chunks) <= MaxFileSize
  }

  /** Where an upload with extension `ext` is stored: `str(Path(UPLOAD_DIR) / f"{file_id}{ext}")`. */
  function StoredPath(env: UploadEnv, ids: FreshIds, ext: string): string {
    PathJoin(env.uploadDir, ids.fileId + ext)
  }

  /**
   * A stored file sits directly under the upload directory and is named by its
   * UUID and extension; in the current directory `"."` the path is the bare name.
   */
  lemma StoredPathUnderUploadDir(env: UploadEnv, ids: FreshIds, ext: string)
    requires KeptPart(ids.fileId + ext) && '/' !in ids.fileId + ext
    ensures PathParts(StoredPath(env, ids, ext)) == PathParts(env.uploadDir) + [ids.fileId + ext]
    ensures PathRoot(StoredPath(env, ids, ext)) == PathRoot(env.uploadDir)
    ensures PathName(StoredPath(env, ids, ext)) == ids.fileId + ext
    ensures env.uploadDir == "." ==> StoredPath(env, ids, ext) == ids.fileId + ext
  {
    NameOfComponent(ids.fileId + ext);
    if env.uploadDir == "." {
      EmptyPathRoundTrip("");
      assert PathParts(".") == [];
      assert PathRoot(".") == "";
    }
  }

  /** The detail a rejected file is reported with: the validation error, else the size error. */
  function RejectionDetail(file: UploadFile, env: UploadEnv): string {
    if ValidateFile(file, env).Failure? then ValidateFile(file, env).error.detail else TooLarge.detail
  }

  /** The effects of an accepted upload, in order: file written, row created, then ingestion queued if asked. */
  predicate UploadEffects(effects: seq<Effect>, d: Document, job: Option<IngestJob>) {
    effects == [SaveFile(d.filePath), CreateRow(d.id)] + (if job.Some? then [QueueIngest(job.value)] else [])
  }

  /** The ingestion job an upload queues: the new row with the project's chunk settings. */
  function UploadJob(project: Project, documentId: Id): IngestJob {
    IngestJob(documentId, project.id, project.chunkSize, project.chunkOverlap)
  }

  /**
   * Saving an accepted file and recording it: the file is written (and removed again
   * when it exceeds the cap), then a PENDING row is appended and ingestion queued.
   */
  method StoreUpload(project: Project, docs: seq<Document>, file: UploadFile, name: string, ext: string, contentType: string,
                     ids: FreshIds, queue: bool, env: UploadEnv)
    returns (r: Result<Document, HttpError>, docs': seq<Document>, effects: seq<Effect>)
    ensures r.Success? <==> Total(file.chunks) <= MaxFileSize
    ensures r.Failure? ==>
              && r == Failure(TooLarge) && docs' == docs
              && effects == [SaveFile(StoredPath(env, ids, ext)), RemoveFile(StoredPath(env, ids, ext))]
    ensures r.Success? ==>
              && docs' == docs + [r.value]
              && IsUnprocessed(r.value) && r.value.id == ids.rowId && r.value.projectId == project.id
              && r.value.originalFilename == name && r.value.filePath == StoredPath(env, ids, ext)
              && r.value.fileSize == Some(Total(file.chunks)) && r.value.fileType == Some(ext)
              && UploadEffects(effects, r.value, if queue then Some(UploadJob(project, ids.rowId)) else None)
  {
    hide Extension, StoredPath;
    docs' := docs;
    var path := StoredPath(env, ids, ext);
    effects := [SaveFile(path)];
    var saved, _ := SaveUploadFile(file.chunks);
    if saved.Failure? {
      effects := effects + [RemoveFile(path)];
      return Failure(saved.error), docs', effects;
    }
    var d := NewDocumentRow(ids.rowId, ids.fileId + ext, name, project.id, path,
                            Some(saved.value), Some(ext), Some(contentType), env.now);
    docs' := Crud.CreateDocument(docs, ids.rowId, ids.fileId + ext, name, project.id, path,
                                 Some(saved.value), Some(ext), Some(contentType), env.now);
    effects := effects + [CreateRow(ids.rowId)];
    if queue {
      effects := effects + [QueueIngest(UploadJob(project, ids.rowId))];
    }
    r := Success(d);
  }

  /**
   * The part of an upload after the project checks: validate, save, create the row,
   * and queue ingestion with the project's chunk settings when asked to.
   */
  method UploadOne(project: Project, docs: seq<Document>, file: UploadFile, ids: FreshIds, queue: bool, env: UploadEnv)
    returns (r: Result<Document, HttpError>, docs': seq<Document>, effects: seq<Effect>)
    ensures r.Success? <==> Accepted(file, env)
    ensures r.Failure? ==> docs' == docs && r.error.detail == RejectionDetail(file, env)
    ensures ValidateFile(file, env).Failure? ==> effects == [] && r == Failure(ValidateFile(file, env).error)
    ensures ValidateFile(file, env).Success? && !Accepted(file, env) ==>
              var path := StoredPath(env, ids, Extension(file.filename.value));
              r == Failure(TooLarge) && effects == [SaveFile(path), RemoveFile(path)]
    ensures r.Success? ==>
              && docs' == docs + [r.value]
              && IsUnprocessed(r.value) && r.value.id == ids.rowId && r.value.projectId == project.id
              && r.value.originalFilename == file.filename.value
              && r.value.filePath == StoredPath(env, ids, Extension(file.filename.value))
              && r.value.fileSize == Some(Total(file.chunks))
              && r.value.fileType == Some(Extension(file.filename.value))
              && UploadEffects(effects, r.value, if queue then Some(UploadJob(project, ids.rowId)) else None)
  {
    hide Extension, StoredPath;
    var v := ValidateFile(file, env);
    if v.Failure? {
      return Failure(v.error), docs, [];
    }
    r, docs', effects := StoreUpload(project, docs, file, file.filename.value, v.value.0, v.value.1, ids, queue, env);
  }

  datatype UploadResponse = UploadResponse(document: Document, message: string, processing: bool)

  const ArchivedUpload: HttpError := HttpError(400, "Cannot upload documents to archived projects")

  /** Whether the caller owns the project and it is not archived: what both upload handlers check first. */
  predicate OpenForUpload(projects: seq<Project>, projectId: Id, userId: Id) {
    OwnedProject(projects, projectId, userId).Success? && OwnedProject(projects, projectId, userId).value.status == Active
  }

  /** `upload_document`: ownership (404), then the archived guard (400), then `UploadOne`. */
  method UploadDocument(
    projects: seq<Project>, docs: seq<Document>, userId: Id, projectId: Id,
    file: UploadFile, processImmediately: bool, ids: FreshIds, env: UploadEnv)
    returns (r: Result<UploadResponse, HttpError>, docs': seq<Document>, effects: seq<Effect>)
    ensures OwnedProject(projects, projectId, userId).Failure? ==> r == Failure(ProjectNotFound) && effects == [] && docs' == docs
    ensures OwnedProject(projects, projectId, userId).Success? && !OpenForUpload(projects, projectId, userId) ==>
              r == Failure(ArchivedUpload) && effects == [] && docs' == docs
    ensures OpenForUpload(projects, projectId, userId) ==> (r.Success? <==> Accepted(file, env))
    ensures r.Failure? ==> docs' == docs
    ensures r.Success? ==>
              && OpenForUpload(projects, projectId, userId)
              && docs' == docs + [r.value.document] && IsUnprocessed(r.value.document)
              && r.value.processing == processImmediately
              && UploadEffects(effects, r.value.document,
                               if processImmediately then Some(UploadJob(OwnedProject(projects, projectId, userId).value, r.value.document.id))
                               else None)
  {
    hide Extension, StoredPath;
    var owned := OwnedProject(projects, projectId, userId);
    if owned.Failure? {
      return Failure(owned.error), docs, [];
    }
    var project := owned.value;
    if project.status == Archived {
      return Failure(ArchivedUpload), docs, [];
    }
    var one;
    one, docs', effects := UploadOne(project, docs, file, ids, processImmediately, env);
    if one.Failure? {
      return Failure(one.error), docs', effects;
    }
    r := Success(UploadResponse(one.value,
           if processImmediately then "Document uploaded successfully. Processing started." else "Document uploaded. Processing pending.",
           processImmediately));
  }

  // ---------------------------------------------------------------- bulk upload

  datatype FailedUpload = FailedUpload(filename: string, error: string)

  datatype BulkUploadResponse = BulkUploadResponse(
    uploaded: seq<Document>,
    failed: seq<FailedUpload>,
    totalUploaded: nat,
    totalFailed: nat)

  /** How many of the first `n` files pass validation and the size cap. */
  function CountAccepted(files: seq<UploadFile>, n: nat, env: UploadEnv): nat
    requires n <= |files|
  {
    if n == 0 then 0
    else CountAccepted(files, n - 1, env) + (if Accepted(files[n - 1], env) then 1 else 0)
  }

  /** What one file adds to the `failed` list: nothing when accepted, else its name (or `"unknown"`) and the error. */
  function Rejection(file: UploadFile, env: UploadEnv): seq<FailedUpload> {
    if Accepted(file, env) then [] else [FailedUpload(OrString(file.filename, "unknown"), RejectionDetail(file, env))]
  }

  /** The `failed` list after the first `n` files of a bulk upload: each rejected one, in order. */
  function Rejections(files: seq<UploadFile>, n: nat, env: UploadEnv): seq<FailedUpload>
    requires n <= |files|
  {
    if n == 0 then []
    else Rejections(files, n - 1, env) + Rejection(files[n - 1], env)
  }

  /** Every one of the first `n` files is counted once: accepted or rejected. */
  lemma {:induction false} AcceptedOrRejected(files: seq<UploadFile>, n: nat, env: UploadEnv)
    requires n <= |files|
    ensures CountAccepted(files, n, env) + |Rejections(files, n, env)| == n
  {
    hide Extension, StoredPath, ValidateFile, ListsAllowedOnce;
    if n > 0 {
      AcceptedOrRejected(files, n - 1, env);
    }
  }

  /** The accepted ones among the first `n` files, each with the fresh ids it is stored under, in order. */
  function AcceptedWithIds(files: seq<UploadFile>, ids: seq<FreshIds>, n: nat, env: UploadEnv)
    : (r: seq<(UploadFile, FreshIds)>)
    requires |ids| == |files| && n <= |files|
    ensures |r| == CountAccepted(files, n, env)
  {
    if n == 0 then []
    else AcceptedWithIds(files, ids, n - 1, env) + (if Accepted(files[n - 1], env) then [(files[n - 1], ids[n - 1])] else [])
  }

  /** The ingestion jobs an effect log queues, in order. */
  function QueuedJobs(effects: seq<Effect>): seq<IngestJob>
    decreases |effects|
  {
    if |effects| == 0 then []
    else QueuedJobs(effects[..|effects| - 1]) + (if effects[|effects| - 1].QueueIngest? then [effects[|effects| - 1].job] else [])
  }

  lemma {:induction false} QueuedJobsConcat(a: seq<Effect>, b: seq<Effect>)
    ensures QueuedJobs(a + b) == QueuedJobs(a) + QueuedJobs(b)
    decreases |b|
  {
    if |b| == 0 {
      assert a + b == a;
    } else {
      assert (a + b)[..|a + b| - 1] == a + b[..|b| - 1];
      QueuedJobsConcat(a, b[..|b| - 1]);
    }
  }

  /** The rows of a bulk upload are those of the accepted files, in order: same name, same fresh row id. */
  predicate RowsMatch(uploaded: seq<Document>, accepted: seq<(UploadFile, FreshIds)>) {
    && |uploaded| == |accepted|
    && forall k :: 0 <= k < |uploaded| ==>
         Some(uploaded[k].originalFilename) == accepted[k].0.filename && uploaded[k].id == accepted[k].1.rowId
  }

  lemma RowsMatchAppend(uploaded: seq<Document>, accepted: seq<(UploadFile, FreshIds)>, d: Document, a: (UploadFile, FreshIds))
    requires RowsMatch(uploaded, accepted)
    requires Some(d.originalFilename) == a.0.filename && d.id == a.1.rowId
    ensures RowsMatch(uploaded + [d], accepted + [a])
  {
  }

  /** The jobs queued are one per uploaded row, in the same order. */
  predicate JobsFor(project: Project, jobs: seq<IngestJob>, uploaded: seq<Document>) {
    |jobs| == |uploaded| && forall k :: 0 <= k < |uploaded| ==> jobs[k] == UploadJob(project, uploaded[k].id)
  }

  lemma JobsForAppend(project: Project, jobs: seq<IngestJob>, uploaded: seq<Document>, d: Document)
    requires JobsFor(project, jobs, uploaded)
    ensures JobsFor(project, jobs + [UploadJob(project, d.id)], uploaded + [d])
  {
  }

  /** A log with no queueing effect queues no job. */
  lemma {:induction false} NoQueueNoJobs(effects: seq<Effect>)
    requires forall i :: 0 <= i < |effects| ==> !effects[i].QueueIngest?
    ensures QueuedJobs(effects) == []
    decreases |effects|
  {
    if |effects| > 0 {
      NoQueueNoJobs(effects[..|effects| - 1]);
    }
  }

  /** One file of a bulk upload, always queued: its row and its job, or its entry in `failed`. */
  method UploadQueued(project: Project, docs: seq<Document>, file: UploadFile, ids: FreshIds, env: UploadEnv)
    returns (r: Result<Document, HttpError>, docs': seq<Document>, effects: seq<Effect>)
    ensures r.Success? <==> Accepted(file, env)
    ensures r.Failure? ==> docs' == docs && Rejection(file, env) == [FailedUpload(OrString(file.filename, "unknown"), r.error.detail)]
    ensures r.Success? ==> docs' == docs + [r.value] && IsUnprocessed(r.value) && r.value.projectId == project.id
    ensures r.Success? ==> r.value.id == ids.rowId && Some(r.value.originalFilename) == file.filename
    ensures r.Success? ==> Rejection(file, env) == []
    ensures QueuedJobs(effects) == if r.Success? then [UploadJob(project, ids.rowId)] else []
  {
    hide Extension, StoredPath, ValidateFile, ListsAllowedOnce;
    r, docs', effects := UploadOne(project, docs, file, ids, true, env);
    if r.Success? {
      var job := UploadJob(project, ids.rowId);
      var front := [SaveFile(r.value.filePath), CreateRow(r.value.id)];
      assert effects == front + [QueueIngest(job)];
      NoQueueNoJobs(front);
      QueuedJobsConcat(front, [QueueIngest(job)]);
      NoQueueNoJobs([]);
      assert [QueueIngest(job)][..0] == [];
    } else {
      NoQueueNoJobs(effects);
    }
  }

  /** One turn of the bulk-upload loop: file `i` joins the rows and jobs, or the `failed` list. */
  method UploadNext(
    project: Project, docs: seq<Document>, files: seq<UploadFile>, ids: seq<FreshIds>, env: UploadEnv, i: nat,
    uploaded: seq<Document>, failed: seq<FailedUpload>, docs': seq<Document>, effects: seq<Effect>)
    returns (uploaded': seq<Document>, failed': seq<FailedUpload>, docs'': seq<Document>, effects': seq<Effect>)
    requires |ids| == |files| && i < |files|
    requires |uploaded| + |failed| == i
    requires failed == Rejections(files, i, env)
    requires docs' == docs + uploaded
    requires forall k :: 0 <= k < |uploaded| ==> IsUnprocessed(uploaded[k]) && uploaded[k].projectId == project.id
    requires RowsMatch(uploaded, AcceptedWithIds(files, ids, i, env))
    requires JobsFor(project, QueuedJobs(effects), uploaded)
    ensures |uploaded'| + |failed'| == i + 1
    ensures failed' == Rejections(files, i + 1, env)
    ensures docs'' == docs + uploaded'
    ensures forall k :: 0 <= k < |uploaded'| ==> IsUnprocessed(uploaded'[k]) && uploaded'[k].projectId == project.id
    ensures RowsMatch(uploaded', AcceptedWithIds(files, ids, i + 1, env))
    ensures JobsFor(project, QueuedJobs(effects'), uploaded')
  {
    hide Extension, StoredPath, ValidateFile, ListsAllowedOnce, Accepted, Rejection, IsUnprocessed;
    var one, next, fx := UploadQueued(project, docs', files[i], ids[i], env);
    effects' := effects + fx;
    if one.Success? {
      AcceptedTurn(project, uploaded, AcceptedWithIds(files, ids, i, env), effects, fx, one.value, (files[i], ids[i]));
      uploaded', failed', docs'' := uploaded + [one.value], failed, next;
    } else {
      RejectedTurn(project, uploaded, effects, fx);
      uploaded', failed', docs'' := uploaded, failed + [FailedUpload(OrString(files[i].filename, "unknown"), one.error.detail)], docs';
    }
  }

  /** An accepted file's row and job extend the loop's rows and jobs. */
  lemma AcceptedTurn(
    project: Project, uploaded: seq<Document>, accepted: seq<(UploadFile, FreshIds)>,
    effects: seq<Effect>, fx: seq<Effect>, d: Document, a: (UploadFile, FreshIds))
    requires RowsMatch(uploaded, accepted) && JobsFor(project, QueuedJobs(effects), uploaded)
    requires Some(d.originalFilename) == a.0.filename && d.id == a.1.rowId
    requires QueuedJobs(fx) == [UploadJob(project, a.1.rowId)]
    ensures RowsMatch(uploaded + [d], accepted + [a])
    ensures JobsFor(project, QueuedJobs(effects + fx), uploaded + [d])
  {
    QueuedJobsConcat(effects, fx);
    RowsMatchAppend(uploaded, accepted, d, a);
    JobsForAppend(project, QueuedJobs(effects), uploaded, d);
  }

  /** A rejected file queues no job. */
  lemma RejectedTurn(project: Project, uploaded: seq<Document>, effects: seq<Effect>, fx: seq<Effect>)
    requires JobsFor(project, QueuedJobs(effects), uploaded)
    requires QueuedJobs(fx) == []
    ensures JobsFor(project, QueuedJobs(effects + fx), uploaded)
  {
    QueuedJobsConcat(effects, fx);
    assert QueuedJobs(effects) + [] == QueuedJobs(effects);
  }

  /** The loop of `bulk_upload_documents`: every file is uploaded and queued, or reported. */
  method UploadEach(project: Project, docs: seq<Document>, files: seq<UploadFile>, ids: seq<FreshIds>, env: UploadEnv)
    returns (uploaded: seq<Document>, failed: seq<FailedUpload>, docs': seq<Document>, effects: seq<Effect>)
    requires |ids| == |files|
    ensures failed == Rejections(files, |files|, env)
    ensures |uploaded| == CountAccepted(files, |files|, env)
    ensures docs' == docs + uploaded
    ensures forall k :: 0 <= k < |uploaded| ==> IsUnprocessed(uploaded[k]) && uploaded[k].projectId == project.id
    ensures RowsMatch(uploaded, AcceptedWithIds(files, ids, |files|, env))
    ensures JobsFor(project, QueuedJobs(effects), uploaded)
  {
    hide Extension, StoredPath, ValidateFile, ListsAllowedOnce;
    uploaded := [];
    failed := [];
    docs' := docs;
    effects := [];
    var i := 0;
    while i < |files|
      invariant 0 <= i <= |files|
      invariant |uploaded| + |failed| == i
      invariant failed == Rejections(files, i, env)
      invariant docs' == docs + uploaded
      invariant forall k :: 0 <= k < |uploaded| ==> IsUnprocessed(uploaded[k]) && uploaded[k].projectId == project.id
      invariant RowsMatch(uploaded, AcceptedWithIds(files, ids, i, env))
      invariant JobsFor(project, QueuedJobs(effects), uploaded)
    {
      uploaded, failed, docs', effects := UploadNext(project, docs, files, ids, env, i, uploaded, failed, docs', effects);
      i := i + 1;
    }
    AcceptedOrRejected(files, |files|, env);
  }

  /**
   * `bulk_upload_documents`: after the project checks, each file independently ends
   * up either uploaded (and queued) or listed as failed.
   */
  method BulkUploadDocuments(
    projects: seq<Project>, docs: seq<Document>, userId: Id, projectId: Id,
    files: seq<UploadFile>, ids: seq<FreshIds>, env: UploadEnv)
    returns (r: Result<BulkUploadResponse, HttpError>, docs': seq<Document>, effects: seq<Effect>)
    requires |ids| == |files|
    ensures OwnedProject(projects, projectId, userId).Failure? ==> r == Failure(ProjectNotFound) && effects == [] && docs' == docs
    ensures OwnedProject(projects, projectId, userId).Success? && !OpenForUpload(projects, projectId, userId) ==>
              r == Failure(ArchivedUpload) && effects == [] && docs' == docs
    ensures r.Success? <==> OpenForUpload(projects, projectId, userId)
    ensures r.Failure? ==> docs' == docs
    ensures r.Success? ==>
              && r.value.failed == Rejections(files, |files|, env)
              && |r.value.uploaded| == CountAccepted(files, |files|, env)
              && r.value.totalUploaded + r.value.totalFailed == |files|
              && r.value.totalUploaded == |r.value.uploaded| && r.value.totalFailed == |r.value.failed|
              && docs' == docs + r.value.uploaded
              && (forall k :: 0 <= k < |r.value.uploaded| ==> IsUnprocessed(r.value.uploaded[k]) && r.value.uploaded[k].projectId == projectId)
  {
    hide Extension, StoredPath, ValidateFile, ListsAllowedOnce;
    var owned := OwnedProject(projects, projectId, userId);
    if owned.Failure? {
      return Failure(owned.error), docs, [];
    }
    var project := owned.value;
    if project.status == Archived {
      return Failure(ArchivedUpload), docs, [];
    }
    var uploaded, failed;
    uploaded, failed, docs', effects := UploadEach(project, docs, files, ids, env);
    AcceptedOrRejected(files, |files|, env);
    r := Success(BulkUploadResponse(uploaded, failed, |uploaded|, |failed|));
  }

  // ---------------------------------------------------------------- listing

  datatype DocumentList = DocumentList(items: seq<Document>, total: nat, page: int, pageSize: int, pages: nat)

  /**
   * What the name `status` denotes where `list_documents` raises its 404: the module
   * of HTTP status codes imported at the top of the file, or the `status` query
   * parameter, which shadows that module throughout the handler's body.
   */
  datatype StatusBinding = StatusCodes | StatusFilter(value: Option<Schemas.DocumentStatus>)

  /** `status.HTTP_404_NOT_FOUND`: the module has it; `None` and a status member raise `AttributeError`. */
  function NotFoundCode(b: StatusBinding): (r: Option<int>)
    ensures r.Some? <==> b.StatusCodes?
    ensures r.Some? ==> r.value == NotFound
  {
    match b
    case StatusCodes => Some(NotFound)
    case StatusFilter(_) => None
  }

  /** What an exception no handler catches comes to: the server's plain 500. */
  const UnhandledError: HttpError := HttpError(ServerError, "Internal Server Error")

  /**
   * `list_documents` as evidently intended: one page of the project's documents,
   * newest first, optionally of one status, or 404 for a project the caller does not own.
   */
  function ListDocuments(
    projects: seq<Project>, docs: seq<Document>, userId: Id, projectId: Id,
    page: int, pageSize: int, status: Option<Schemas.DocumentStatus>): (r: Result<DocumentList, HttpError>)
    requires ValidPaging(page, pageSize)
    ensures r.Failure? <==> OwnedProject(projects, projectId, userId).Failure?
    ensures r.Failure? ==> r.error == ProjectNotFound
    ensures r.Success? ==>
              var st := if status.Some? then Some(Schemas.ToModelStatus(status.value)) else None;
              && r.value.total == |Crud.ProjectDocuments(docs, projectId, st)|
              && r.value.items == Crud.Window(Crud.ProjectDocuments(docs, projectId, st), Skip(page, pageSize), pageSize)
              && r.value.pages * pageSize >= r.value.total
              && (r.value.items != [] <==> page <= r.value.pages)
              && (forall k :: 0 <= k < |r.value.items| ==> r.value.items[k].projectId == projectId)
  {
    match OwnedProject(projects, projectId, userId)
    case Failure(e) => Failure(e)
    case Success(_) =>
      var st := if status.Some? then Some(Schemas.ToModelStatus(status.value)) else None;
      var (items, total) := Crud.GetDocumentsByProject(docs, projectId, st, Skip(page, pageSize), pageSize);
      PagesCoverRows(total, pageSize, page);
      Success(DocumentList(items, total, page, pageSize, Pages(total, pageSize)))
  }

  /**
   * `list_documents` as written: the `status` parameter shadows the module, so the
   * not-found branch raises `AttributeError` and the client gets a 500; a listing
   * the caller may see is unaffected.
   */
  function ListDocumentsAsWritten(
    projects: seq<Project>, docs: seq<Document>, userId: Id, projectId: Id,
    page: int, pageSize: int, status: Option<Schemas.DocumentStatus>): (r: Result<DocumentList, HttpError>)
    requires ValidPaging(page, pageSize)
    ensures r.Failure? <==> OwnedProject(projects, projectId, userId).Failure?
    ensures r.Failure? ==> r.error.code == 500
    ensures r.Success? ==> r == ListDocuments(projects, docs, userId, projectId, page, pageSize, status)
  {
    match OwnedProject(projects, projectId, userId)
    case Failure(_) =>
      (match NotFoundCode(StatusFilter(status))
       case None => Failure(UnhandledError)
       case Some(code) => Failure(HttpError(code, ProjectNotFound.detail)))
    case Success(_) => ListDocuments(projects, docs, userId, projectId, page, pageSize, status)
  }

  /**
   * A caller asking for the documents of a project it does not own gets the generic
   * 500 as written, where the 404 "Project not found" is intended.
   */
  lemma UnownedListingIsServerError(
    projects: seq<Project>, docs: seq<Document>, userId: Id, projectId: Id,
    page: int, pageSize: int, status: Option<Schemas.DocumentStatus>)
    requires ValidPaging(page, pageSize)
    requires Crud.GetProject(projects, projectId, userId).None?
    ensures ListDocumentsAsWritten(projects, docs, userId, projectId, page, pageSize, status) == Failure(UnhandledError)
    ensures ListDocuments(projects, docs, userId, projectId, page, pageSize, status) == Failure(ProjectNotFound)
  {
  }

  // ---------------------------------------------------------------- reading one document

  /** `get_document`: the document, looked up only inside a project the caller owns. */
  function GetDocumentDetail(projects: seq<Project>, docs: seq<Document>, userId: Id, projectId: Id, documentId: Id)
    : (r: Result<Document, HttpError>)
    ensures OwnedProject(projects, projectId, userId).Failure? ==> r == Failure(ProjectNotFound)
    ensures r.Success? <==> OwnedProject(projects, projectId, userId).Success? && Crud.GetDocument(docs, documentId, projectId).Some?
    ensures r.Success? ==> r.value in docs && r.value.id == documentId && r.value.projectId == projectId
    ensures r.Failure? && OwnedProject(projects, projectId, userId).Success? ==> r == Failure(DocumentNotFound)
  {
    match OwnedProject(projects, projectId, userId)
    case Failure(e) => Failure(e)
    case Success(_) =>
      match Crud.GetDocument(docs, documentId, projectId)
      case None => Failure(DocumentNotFound)
      case Some(d) => Success(d)
  }

  /** `get_document_status`: the progress report of a document the caller can see. */
  function GetDocumentStatus(projects: seq<Project>, docs: seq<Document>, userId: Id, projectId: Id, documentId: Id)
    : (r: Result<Schemas.DocumentIngestionStatus, HttpError>)
    ensures r.Failure? <==> GetDocumentDetail(projects, docs, userId, projectId, documentId).Failure?
    ensures r.Failure? ==> r.error == GetDocumentDetail(projects, docs, userId, projectId, documentId).error
    ensures r.Success? ==>
              var d := GetDocumentDetail(projects, docs, userId, projectId, documentId).value;
              && r.value.documentId == documentId
              && Schemas.ToModelStatus(r.value.status) == d.status
              && r.value.message == d.statusMessage
              && r.value.chunksCreated == d.chunkCount && r.value.pagesProcessed == d.pageCount
              && r.value.completedAt == d.processedAt && r.value.startedAt.None?
  {
    match GetDocumentDetail(projects, docs, userId, projectId, documentId)
    case Failure(e) => Failure(e)
    case Success(d) =>
      Schemas.DocumentStatusEnumsAgree(Schemas.FromModelStatus(d.status), d.status);
      Success(Schemas.DocumentIngestionStatus(d.id, Schemas.FromModelStatus(d.status), d.statusMessage, d.chunkCount,
                                              d.pageCount, None, d.processedAt))
  }

  // ---------------------------------------------------------------- re-ingestion

  /** Python `a or b` on an optional integer: `b` when `a` is None or 0. */
  function OrInt(a: Option<int>, b: int): (r: int)
    ensures a.Some? && a.value != 0 ==> r == a.value
    ensures a.None? || a.value == 0 ==> r == b
  {
    if a.Some? && a.value != 0 then a.value else b
  }

  datatype HandlerOutcome<T> = HandlerOutcome(result: Result<T, HttpError>, docs: seq<Document>, store: VS.Store, effects: seq<Effect>)

  const ArchivedModify: HttpError := HttpError(400, "Cannot modify documents in archived projects")
  const DocumentNotFound: HttpError := HttpError(404, "Document not found")
  const AlreadyProcessed: HttpError := HttpError(400, "Document already processed. Set force=true to reprocess.")

  /** The checks re-ingestion makes, in order, before it changes anything. */
  function ReingestGuard(projects: seq<Project>, docs: seq<Document>, userId: Id, projectId: Id, documentId: Id, force: bool)
    : (r: Result<(Project, Document), HttpError>)
    ensures OwnedProject(projects, projectId, userId).Failure? ==> r == Failure(ProjectNotFound)
    ensures OwnedProject(projects, projectId, userId).Success? && OwnedProject(projects, projectId, userId).value.status == Archived ==>
              r == Failure(ArchivedModify)
    ensures OwnedProject(projects, projectId, userId).Success? && OwnedProject(projects, projectId, userId).value.status != Archived
            && Crud.GetDocument(docs, documentId, projectId).None? ==>
              r == Failure(DocumentNotFound)
    ensures r.Success? ==> OwnedProject(projects, projectId, userId) == Success(r.value.0)
    ensures r.Success? ==> r.value.0.status != Archived
    ensures r.Success? ==> r.value.1.id == documentId && r.value.1.projectId == projectId
    ensures r.Success? ==> r.value.1.status != Completed || force
    ensures r.Success? ==> Crud.GetDocument(docs, documentId, projectId) == Some(r.value.1)
  {
    match OwnedProject(projects, projectId, userId)
    case Failure(e) => Failure(e)
    case Success(project) =>
      if project.status == Archived then Failure(ArchivedModify)
      else match Crud.GetDocument(docs, documentId, projectId)
        case None => Failure(DocumentNotFound)
        case Some(d) =>
          if d.status == Completed && !force then Failure(AlreadyProcessed)
          else Success((project, d))
  }

  /**
   * `reingest_document`: after the guard, deletes the document's vectors (ignoring
   * whether that worked), resets the row to PENDING and queues ingestion with the
   * requested sizes, falling back to the project's through `or`.
   */
  function ReingestDocument(
    projects: seq<Project>, docs: seq<Document>, store: VS.Store, userId: Id, projectId: Id, documentId: Id,
    request: Schemas.ReingestionRequest, vectorCall: Ingestion.StoreCall, now: Time): (o: HandlerOutcome<Document>)
    ensures ReingestGuard(projects, docs, userId, projectId, documentId, request.force).Failure? ==>
              o == HandlerOutcome(Failure(ReingestGuard(projects, docs, userId, projectId, documentId, request.force).error), docs, store, [])
    ensures o.result.Success? ==>
              var (project, d) := ReingestGuard(projects, docs, userId, projectId, documentId, request.force).value;
              && o.effects == [DeleteVectors(documentId, projectId), ResetRow(documentId),
                               QueueIngest(IngestJob(documentId, projectId, OrInt(request.chunkSize, project.chunkSize),
                                                     OrInt(request.chunkOverlap, project.chunkOverlap)))]
              && o.result.value == Crud.ResetDocumentForReingestion(d, now)
              && o.docs == Crud.ReplaceDocument(docs, o.result.value)
              && o.store == Ingestion.DeleteDocumentVectors(store, documentId, projectId, vectorCall).0
  {
    match ReingestGuard(projects, docs, userId, projectId, documentId, request.force)
    case Failure(e) => HandlerOutcome(Failure(e), docs, store, [])
    case Success((project, d)) =>
      var (store', _) := Ingestion.DeleteDocumentVectors(store, documentId, projectId, vectorCall);
      var reset := Crud.ResetDocumentForReingestion(d, now);
      var job := IngestJob(documentId, projectId, OrInt(request.chunkSize, project.chunkSize),
                           OrInt(request.chunkOverlap, project.chunkOverlap));
      HandlerOutcome(Success(reset), Crud.ReplaceDocument(docs, reset), store',
                     [DeleteVectors(documentId, projectId), ResetRow(documentId), QueueIngest(job)])
  }

  /** Only a COMPLETED document needs `force`; PENDING, PROCESSING and FAILED ones are always accepted. */
  lemma ReingestGuardIff(projects: seq<Project>, docs: seq<Document>, userId: Id, projectId: Id, documentId: Id, force: bool,
                         project: Project, d: Document)
    requires OwnedProject(projects, projectId, userId) == Success(project) && project.status == Active
    requires Crud.GetDocument(docs, documentId, projectId) == Some(d)
    ensures ReingestGuard(projects, docs, userId, projectId, documentId, force).Success? <==> d.status != Completed || force
    ensures ReingestGuard(projects, docs, userId, projectId, documentId, force).Failure? ==>
              ReingestGuard(projects, docs, userId, projectId, documentId, force).error == AlreadyProcessed
  {
  }

  /** An explicit overlap (or size) of 0 is replaced by the project's value, because 0 is falsy. */
  lemma ExplicitZeroOverlapIgnored(request: Schemas.ReingestionRequest, project: Project)
    requires request.chunkOverlap == Some(0)
    ensures OrInt(request.chunkOverlap, project.chunkOverlap) == project.chunkOverlap
    ensures project.chunkOverlap != 0 ==> OrInt(request.chunkOverlap, project.chunkOverlap) != 0
  {
  }

  // ---------------------------------------------------------------- deletion

  /** `delete_document`: vectors first, then the row, whether or not the vector call worked. */
  function DeleteDocument(
    projects: seq<Project>, docs: seq<Document>, store: VS.Store, userId: Id, projectId: Id, documentId: Id,
    vectorCall: Ingestion.StoreCall): (o: HandlerOutcome<()>)
    ensures OwnedProject(projects, projectId, userId).Failure? ==> o == HandlerOutcome(Failure(ProjectNotFound), docs, store, [])
    ensures OwnedProject(projects, projectId, userId).Success? && Crud.GetDocument(docs, documentId, projectId).None? ==>
              o == HandlerOutcome(Failure(DocumentNotFound), docs, store, [])
    ensures o.result.Success? ==>
              && o.effects == [DeleteVectors(documentId, projectId),
                               RemoveFile(Crud.GetDocument(docs, documentId, projectId).value.filePath),
                               DeleteRow(documentId)]
              && o.docs == Crud.DeleteDocumentRecord(docs, documentId)
              && o.store == Ingestion.DeleteDocumentVectors(store, documentId, projectId, vectorCall).0
    ensures o.result.Success? <==> OwnedProject(projects, projectId, userId).Success? && Crud.GetDocument(docs, documentId, projectId).Some?
  {
    match OwnedProject(projects, projectId, userId)
    case Failure(e) => HandlerOutcome(Failure(e), docs, store, [])
    case Success(_) =>
      match Crud.GetDocument(docs, documentId, projectId)
      case None => HandlerOutcome(Failure(DocumentNotFound), docs, store, [])
      case Some(d) =>
        var (store', _) := Ingestion.DeleteDocumentVectors(store, documentId, projectId, vectorCall);
        HandlerOutcome(Success(()), Crud.DeleteDocumentRecord(docs, documentId), store',
                       [DeleteVectors(documentId, projectId), RemoveFile(d.filePath), DeleteRow(documentId)])
  }

  /** When the vector call succeeds, a deleted document leaves no chunk behind in its namespace. */
  lemma DeletedDocumentLeavesNoVectors(
    projects: seq<Project>, docs: seq<Document>, store: VS.Store, userId: Id, projectId: Id, documentId: Id)
    requires DeleteDocument(projects, docs, store, userId, projectId, documentId, Ingestion.Applied).result.Success?
    ensures var o := DeleteDocument(projects, docs, store, userId, projectId, documentId, Ingestion.Applied);
            && VS.ChunksOf(o.store, projectId, documentId) == {}
            && forall i :: 0 <= i < |o.docs| ==> o.docs[i].id != documentId
  {
  }

  /**
   * When the vector call raises, the row is gone anyway, and every chunk of the
   * document that the interrupted call did not reach stays in the namespace.
   */
  lemma FailedVectorDeleteOrphansChunks(
    projects: seq<Project>, docs: seq<Document>, store: VS.Store, userId: Id, projectId: Id, documentId: Id,
    e: Ingestion.Raised, reached: set<VS.Chunk>, c: VS.Chunk)
    requires DeleteDocument(projects, docs, store, userId, projectId, documentId, Ingestion.Interrupted(e, reached)).result.Success?
    requires c in VS.ChunksOf(store, projectId, documentId) && c !in reached
    ensures var o := DeleteDocument(projects, docs, store, userId, projectId, documentId, Ingestion.Interrupted(e, reached));
            && c in VS.ChunksOf(o.store, projectId, documentId)
            && forall i :: 0 <= i < |o.docs| ==> o.docs[i].id != documentId
  {
  }

  // ---------------------------------------------------------------- supported types

  /** The allowed extensions in code-point order. */
  const SortedExtensions: seq<string> :=
    [".doc", ".docx", ".htm", ".html", ".md", ".pdf", ".ppt", ".pptx", ".txt", ".xls", ".xlsx"]

  lemma SortedExtensionsAllowed()
    ensures forall i :: 0 <= i < |SortedExtensions| ==> SortedExtensions[i] in AllowedExtensions
  {
  }

  lemma AllowedExtensionsListed()
    ensures forall e :: e in AllowedExtensions ==> e in SortedExtensions
  {
    var r := SortedExtensions;
    assert r[0] == ".doc" && r[1] == ".docx" && r[2] == ".htm" && r[3] == ".html";
    assert r[4] == ".md" && r[5] == ".pdf" && r[6] == ".ppt" && r[7] == ".pptx";
    assert r[8] == ".txt" && r[9] == ".xls" && r[10] == ".xlsx";
  }

  lemma SortedExtensionsSorted()
    ensures StrictlySorted(SortedExtensions)
  {
    var r := SortedExtensions;
    StrLtAt(r[0], r[1], 4);
    StrLtAt(r[1], r[2], 1);
    StrLtAt(r[2], r[3], 4);
    StrLtAt(r[3], r[4], 1);
    StrLtAt(r[4], r[5], 1);
    StrLtAt(r[5], r[6], 2);
    StrLtAt(r[6], r[7], 4);
    StrLtAt(r[7], r[8], 1);
    StrLtAt(r[8], r[9], 1);
    StrLtAt(r[9], r[10], 4);
  }

  /** `get_supported_types`: exactly the allowed extensions, each once, in increasing order. */
  function SupportedTypes(): (r: seq<string>)
    ensures forall i :: 0 <= i < |r| ==> r[i] in AllowedExtensions
    ensures forall e :: e in AllowedExtensions ==> e in r
    ensures StrictlySorted(r)
  {
    SortedExtensionsAllowed();
    AllowedExtensionsListed();
    SortedExtensionsSorted();
    SortedExtensions
  }

  // ---------------------------------------------------------------- GET routing

  /** The single-segment GET paths of the documents router. */
  datatype Handler = DetailHandler | SupportedTypesHandler

  datatype Pattern = Param | Literal(text: string)

  datatype Route = Route(pattern: Pattern, handler: Handler)

  /** Declaration order in the router: `/{document_id}` first, `/supported-types` last. */
  const RoutesAsWritten: seq<Route> := [Route(Param, DetailHandler), Route(Literal("supported-types"), SupportedTypesHandler)]

  /** The static path declared before the parameterised one. */
  const RoutesCorrected: seq<Route> := [Route(Literal("supported-types"), SupportedTypesHandler), Route(Param, DetailHandler)]

  predicate Matches(p: Pattern, segment: string) {
    match p
    case Param => |segment| > 0 && '/' !in segment
    case Literal(t) => segment == t
  }

  /** What a request reaches: a handler, or the 422 of a path parameter that is not a UUID. */
  datatype Dispatch = Handled(handler: Handler) | Rejected(error: HttpError) | NoRoute

  /** Route `i` is the first one whose pattern matches the segment. */
  predicate FirstMatching(routes: seq<Route>, segment: string, i: int) {
    && 0 <= i < |routes| && Matches(routes[i].pattern, segment)
    && forall j :: 0 <= j < i ==> !Matches(routes[j].pattern, segment)
  }

  /** What a matched route answers: a path parameter must be a UUID, else 422. */
  function Serve(route: Route, segment: string): Dispatch {
    if route.pattern.Param? && !UuidText(segment) then Rejected(InvalidUuid) else Handled(route.handler)
  }

  /** The first route whose pattern matches serves the request; its parameters are then validated. */
  function DispatchGet(routes: seq<Route>, segment: string): (d: Dispatch)
    ensures forall i :: FirstMatching(routes, segment, i) ==> d == Serve(routes[i], segment)
    ensures d.NoRoute? <==> forall i :: 0 <= i < |routes| ==> !Matches(routes[i].pattern, segment)
  {
    if |routes| == 0 then NoRoute
    else if Matches(routes[0].pattern, segment) then Serve(routes[0], segment)
    else
      var d := DispatchGet(routes[1..], segment);
      assert forall i :: FirstMatching(routes, segment, i) ==> FirstMatching(routes[1..], segment, i - 1) by {
        forall i | FirstMatching(routes, segment, i)
          ensures FirstMatching(routes[1..], segment, i - 1)
        {
          assert i != 0;
          forall j | 0 <= j < i - 1
            ensures !Matches(routes[1..][j].pattern, segment)
          {
            assert routes[1..][j] == routes[j + 1];
          }
        }
      }
      d
  }

  /** As declared, `GET /supported-types` is captured by `/{document_id}` and answered with 422. */
  lemma SupportedTypesUnreachable()
    ensures DispatchGet(RoutesAsWritten, "supported-types") == Rejected(InvalidUuid)
  {
    assert FirstMatching(RoutesAsWritten, "supported-types", 0);
    if UuidText("supported-types") {
      UuidTextLength("supported-types");
    }
  }

  /** With the static route first, the listing is reachable and every UUID still reaches the detail handler. */
  lemma SupportedTypesReachableWhenDeclaredFirst(segment: string)
    ensures DispatchGet(RoutesCorrected, "supported-types") == Handled(SupportedTypesHandler)
    ensures UuidText(segment) ==> DispatchGet(RoutesCorrected, segment) == Handled(DetailHandler)
    ensures UuidText(segment) ==> DispatchGet(RoutesAsWritten, segment) == Handled(DetailHandler)
  {
    assert FirstMatching(RoutesCorrected, "supported-types", 0);
    if UuidText(segment) {
      UuidTextLength(segment);
      assert segment != "supported-types";
      assert '/' !in segment;
      assert FirstMatching(RoutesCorrected, segment, 1);
      assert FirstMatching(RoutesAsWritten, segment, 0);
    }
  }
}

=== FILE: ingestion.dfy ===
/**
 * The ingestion service: one run of load, chunk, tag and store for a document,
 * with the status rows it writes and the result it returns, plus the two
 * vector-deletion helpers. The loader, chunker and vector-store writer are
 * collaborator functions whose results (including the exception they raise) are
 * inputs to the model.
 */
module Ingestion {
  import opened Wrappers
  import opened Models
  import Crud
  import VS = VectorStore

  // ---------------------------------------------------------------- collaborators

  /** One page (or section) the loader extracted. */
  datatype Page = Page(content: string)

  /** The five exception classes the pipeline tells apart. */
  datatype ErrorKind = UnsupportedFileType | LoadFailure | ChunkingFailure | VectorStoreFailure | Unexpected

  /** An exception: its class and its `str()`. */
  datatype Raised = Raised(kind: ErrorKind, detail: string)

  /** A collaborator call either returns a value or raises. */
  datatype Outcome<T> = Returned(value: T) | Threw(error: Raised)

  /**
   * How a vector-store call ends: it returns, or it raises after having applied
   * its effect to the chunks in `reached` only, which may be none or all of them.
   */
  datatype StoreCall = Applied | Interrupted(error: Raised, reached: set<VS.Chunk>)

  /** A chunk as the chunker produces it, before the source metadata is attached. */
  datatype Piece = Piece(chunkId: string, text: string)

  /**
   * The external steps. `split` receives the pages, the size, the overlap and the
   * document id it tags its chunks with; `add` says how the store call ended.
   */
  datatype Collaborators = Collaborators(
    load: string -> Outcome<seq<Page>>,
    split: (seq<Page>, int, int, Id) -> Outcome<seq<Piece>>,
    add: (seq<VS.Chunk>, VS.Namespace) -> StoreCall)

  /** The stem the three pipeline-stage failures share. */
  const FailedTo: string := "Failed to "

  /** The message prefix each exception class is reported under. */
  function ErrorPrefix(k: ErrorKind): string {
    match k
    case UnsupportedFileType => "Unsupported file type: "
    case LoadFailure => FailedTo + "load document: "
    case ChunkingFailure => FailedTo + "chunk document: "
    case VectorStoreFailure => FailedTo + "store in vector database: "
    case Unexpected => "Unexpected error during ingestion: "
  }

  /** The status message and returned message for a raised exception. */
  function ErrorMessage(e: Raised): (m: string)
    ensures |m| >= |ErrorPrefix(e.kind)| && m[..|ErrorPrefix(e.kind)|] == ErrorPrefix(e.kind)
    ensures m[|ErrorPrefix(e.kind)|..] == e.detail
  {
    ErrorPrefix(e.kind) + e.detail
  }

  /** Distinct classes are reported under distinct prefixes, none a prefix of another. */
  lemma ErrorPrefixesDistinguishable(a: ErrorKind, b: ErrorKind)
    requires a != b
    ensures var pa := ErrorPrefix(a); var pb := ErrorPrefix(b);
            !(|pa| <= |pb| && pb[..|pa|] == pa) && !(|pb| <= |pa| && pa[..|pb|] == pb)
  {
    PrefixCode(a);
    PrefixCode(b);
  }

  /** Characters 0, 2 and 10 of each prefix, which already tell the classes apart. */
  function Code(k: ErrorKind): (char, char, char) {
    match k
    case UnsupportedFileType => ('U', 's', 'd')
    case LoadFailure => ('F', 'i', 'l')
    case ChunkingFailure => ('F', 'i', 'c')
    case VectorStoreFailure => ('F', 'i', 's')
    case Unexpected => ('U', 'e', ' ')
  }

  lemma PrefixCode(k: ErrorKind)
    ensures var p := ErrorPrefix(k); |p| > 10 && (p[0], p[2], p[10]) == Code(k)
  {
    assert |FailedTo| == 10;
  }

  // ---------------------------------------------------------------- trace

  /** Whether a step is the store write of `count` chunks into `ns`. */
  predicate AddsChunks(step: Step, ns: VS.Namespace, count: int) {
    step.AddChunks? && step.namespace == ns && step.count == count
  }

  /** The arguments of one `update_document_status` call. */
  datatype StatusWrite = StatusWrite(
    status: DocumentStatus,
    message: Option<string>,
    chunkCount: Option<int>,
    pageCount: Option<int>,
    characterCount: Option<int>)

  /** The externally visible steps of a run, in the order they happen. */
  datatype Step =
    | Write(w: StatusWrite)
    | Load(path: string)
    | Split(pageCount: nat)
    | AddChunks(namespace: VS.Namespace, count: nat)

  /** `(success, message, chunk_count)`. */
  datatype IngestResult = IngestResult(success: bool, message: string, chunkCount: int)

  /** The state after a run: the documents table, the store, the trace and the returned triple. */
  datatype IngestRun = IngestRun(
    docs: seq<Document>,
    store: VS.Store,
    trace: seq<Step>,
    result: IngestResult)

  const ProcessingWrite: StatusWrite := StatusWrite(Processing, Some("Processing document..."), None, None, None)

  function FailedWrite(message: string): StatusWrite {
    StatusWrite(Failed, Some(message), None, None, None)
  }

  /** Applies one status write to a row, as `update_document_status` does. */
  function ApplyWrite(d: Document, w: StatusWrite, now: Time): Document {
    Crud.UpdateDocumentStatus(d, w.status, w.message, w.chunkCount, w.pageCount, w.characterCount, now)
  }

  /** Number of status writes in a trace. */
  function CountWrites(t: seq<Step>): nat {
    if |t| == 0 then 0 else CountWrites(t[..|t| - 1]) + (if t[|t| - 1].Write? then 1 else 0)
  }

  // ---------------------------------------------------------------- pipeline

  /** `sum(len(page) for page in pages)`. */
  function TotalChars(pages: seq<Page>): (n: nat)
    ensures |pages| > 0 ==> n >= |pages[0].content|
  {
    if |pages| == 0 then 0 else |pages[0].content| + TotalChars(pages[1..])
  }

  /** Tags every chunk with its document and, as `source` and `source_file`, the uploaded file's name. */
  function AttachSource(pieces: seq<Piece>, documentId: Id, originalFilename: string): (r: seq<VS.Chunk>)
    ensures |r| == |pieces|
    ensures forall i :: 0 <= i < |r| ==>
      && r[i].chunkId == pieces[i].chunkId && r[i].text == pieces[i].text
      && r[i].documentId == documentId
      && r[i].source == originalFilename && r[i].sourceFile == originalFilename
  {
    seq(|pieces|, i requires 0 <= i < |pieces| =>
      VS.Chunk(pieces[i].chunkId, documentId, pieces[i].text, originalFilename, originalFilename))
  }

  /** What the part of a run inside the `try` ends with. */
  datatype PipelineEnd = PipelineEnd(store: VS.Store, steps: seq<Step>, terminal: StatusWrite, result: IngestResult)

  /** The terminal write and result of a run that raised `e`. */
  function Raise(store: VS.Store, steps: seq<Step>, e: Raised): PipelineEnd {
    PipelineEnd(store, steps, FailedWrite(ErrorMessage(e)), IngestResult(false, ErrorMessage(e), 0))
  }

  /**
   * What every way out of the `try` has in common: the loader ran first and no
   * status was written; the terminal write is COMPLETED exactly on success, with a
   * positive chunk count after the store write, and FAILED with a message and a
   * count of 0 otherwise; the store changed only when the last step was the store
   * write, and then only by chunks of this document added to the project's namespace.
   */
  ghost predicate EndsWell(e: PipelineEnd, d: Document, projectId: Id, store: VS.Store) {
    && |e.steps| >= 1 && e.steps[0] == Load(d.filePath)
    && (forall i :: 0 <= i < |e.steps| ==> !e.steps[i].Write?)
    && (e.terminal.status == Completed || e.terminal.status == Failed)
    && (e.result.success <==> e.terminal.status == Completed)
    && (e.result.success ==> e.result.chunkCount > 0 && e.result.message == "Document processed successfully")
    && (!e.result.success ==> e.result.chunkCount == 0)
    && (e.store != store ==> e.steps[|e.steps| - 1].AddChunks?)
    && (!e.result.success ==> e.terminal.message.Some? && e.terminal == FailedWrite(e.terminal.message.value))
    && (e.result.success ==> AddsChunks(e.steps[|e.steps| - 1], projectId, e.result.chunkCount))
    && (forall n :: n != projectId ==> VS.Get(e.store, n) == VS.Get(store, n))
    && VS.Get(store, projectId) <= VS.Get(e.store, projectId)
    && (forall ch :: ch in VS.Get(e.store, projectId) && ch !in VS.Get(store, projectId) ==> OwnChunk(ch, d))
  }

  /** A chunk tagged as coming from document `d`: its id, and the uploaded file's name as source. */
  predicate OwnChunk(ch: VS.Chunk, d: Document) {
    ch.documentId == d.id && ch.source == d.originalFilename && ch.sourceFile == d.originalFilename
  }

  /** The body of the `try`: load, chunk, tag, store, and the terminal write's arguments. */
  function RunPipeline(
    d: Document, c: Collaborators, projectId: Id, chunkSize: int, chunkOverlap: int, store: VS.Store): (e: PipelineEnd)
    ensures EndsWell(e, d, projectId, store)
  {
    var steps := [Load(d.filePath)];
    match c.load(d.filePath)
    case Threw(err) => Raise(store, steps, err)
    case Returned(pages) =>
      if |pages| == 0 then
        PipelineEnd(store, steps, FailedWrite("No content extracted from document"),
                    IngestResult(false, "No content extracted from document", 0))
      else
        var steps := steps + [Split(|pages|)];
        match c.split(pages, chunkSize, chunkOverlap, d.id)
        case Threw(err) => Raise(store, steps, err)
        case Returned(pieces) =>
          if |pieces| == 0 then
            PipelineEnd(store, steps, FailedWrite("No chunks created from document"),
                        IngestResult(false, "No chunks created", 0))
          else
            var chunks := AttachSource(pieces, d.id, d.originalFilename);
            var steps := steps + [AddChunks(projectId, |chunks|)];
            match c.add(chunks, projectId)
            case Interrupted(err, reached) => Raise(VS.AddSome(store, projectId, chunks, reached), steps, err)
            case Applied =>
              PipelineEnd(VS.Add(store, projectId, chunks), steps,
                          StatusWrite(Completed, Some("Document processed successfully"),
                                      Some(|pieces|), Some(|pages|), Some(TotalChars(pages))),
                          IngestResult(true, "Document processed successfully", |pieces|))
  }

  /** The run after the row is found: PROCESSING written, the pipeline's steps, then exactly one terminal write. */
  function FinishRun(docs: seq<Document>, d: Document, e: PipelineEnd, projectId: Id, store: VS.Store, now: Time)
    : (r: IngestRun)
    requires EndsWell(e, d, projectId, store)
    ensures |r.trace| >= 3
    ensures r.trace[0] == Write(ProcessingWrite) && r.trace[1] == Load(d.filePath)
    ensures r.trace[|r.trace| - 1].Write?
    ensures r.trace[|r.trace| - 1].w.status == Completed || r.trace[|r.trace| - 1].w.status == Failed
    ensures r.result.success <==> r.trace[|r.trace| - 1].w.status == Completed
    ensures CountWrites(r.trace) == 2
    ensures r.result.success ==> r.result.chunkCount > 0 && r.result.message == "Document processed successfully"
    ensures r.result.success ==> AddsChunks(r.trace[|r.trace| - 2], projectId, r.result.chunkCount)
    ensures !r.result.success ==> r.result.chunkCount == 0
    ensures r.store != store ==> r.trace[|r.trace| - 2].AddChunks?
    ensures forall n :: n != projectId ==> VS.Get(r.store, n) == VS.Get(store, n)
    ensures VS.Get(store, projectId) <= VS.Get(r.store, projectId)
    ensures forall ch :: ch in VS.Get(r.store, projectId) && ch !in VS.Get(store, projectId) ==> OwnChunk(ch, d)
    ensures |r.docs| == |docs|
  {
    var processing := ApplyWrite(d, ProcessingWrite, now);
    var final := ApplyWrite(processing, e.terminal, now);
    var trace := [Write(ProcessingWrite)] + e.steps + [Write(e.terminal)];
    TraceShape(e.steps, e.terminal);
    IngestRun(Crud.ReplaceDocument(docs, final), e.store, trace, e.result)
  }

  /**
   * `ingest_document`: finds the row, marks it PROCESSING, runs the pipeline and
   * writes exactly one terminal status.
   */
  function IngestDocument(
    docs: seq<Document>, store: VS.Store, c: Collaborators,
    documentId: Id, projectId: Id, chunkSize: int, chunkOverlap: int, now: Time): (r: IngestRun)
    ensures Crud.GetDocumentById(docs, documentId).None? ==>
              r == IngestRun(docs, store, [], IngestResult(false, "Document not found", 0))
    ensures Crud.GetDocumentById(docs, documentId).Some? ==>
              && |r.trace| >= 3
              && r.trace[0] == Write(ProcessingWrite)
              && r.trace[1].Load?
              && r.trace[|r.trace| - 1].Write?
              && (r.trace[|r.trace| - 1].w.status == Completed || r.trace[|r.trace| - 1].w.status == Failed)
              && (r.result.success <==> r.trace[|r.trace| - 1].w.status == Completed)
              && CountWrites(r.trace) == 2
    ensures r.result.success ==> r.result.chunkCount > 0 && r.result.message == "Document processed successfully"
    ensures !r.result.success ==> r.result.chunkCount == 0
  {
    match Crud.GetDocumentById(docs, documentId)
    case None => IngestRun(docs, store, [], IngestResult(false, "Document not found", 0))
    case Some(d) =>
      // The pipeline reads only the path, id and original name, which the PROCESSING write leaves alone.
      var e := RunPipeline(d, c, projectId, chunkSize, chunkOverlap, store);
      var r := FinishRun(docs, d, e, projectId, store, now);
      r
  }

  /**
   * What a run does to the store and the table: the store changes only when the
   * step before the terminal write is the store write, and then only by chunks of
   * this document added to the project's namespace; the table keeps its length.
   */
  lemma IngestStoreEffect(
    docs: seq<Document>, store: VS.Store, c: Collaborators,
    documentId: Id, projectId: Id, chunkSize: int, chunkOverlap: int, now: Time)
    ensures var r := IngestDocument(docs, store, c, documentId, projectId, chunkSize, chunkOverlap, now);
            && (r.store != store ==> |r.trace| >= 2 && r.trace[|r.trace| - 2].AddChunks?)
            && (forall n :: n != projectId ==> VS.Get(r.store, n) == VS.Get(store, n))
            && VS.Get(store, projectId) <= VS.Get(r.store, projectId)
            && (forall ch :: ch in VS.Get(r.store, projectId) && ch !in VS.Get(store, projectId) ==> ch.documentId == documentId)
            && |r.docs| == |docs|
  {
    hide RunPipeline, EndsWell;
    match Crud.GetDocumentById(docs, documentId)
    case None =>
    case Some(d) =>
      var e := RunPipeline(d, c, projectId, chunkSize, chunkOverlap, store);
      var r := FinishRun(docs, d, e, projectId, store, now);
      assert IngestDocument(docs, store, c, documentId, projectId, chunkSize, chunkOverlap, now) == r;
      assert forall ch :: ch in VS.Get(r.store, projectId) && ch !in VS.Get(store, projectId) ==> OwnChunk(ch, d);
  }

  /** A successful run writes COMPLETED only right after storing its chunks in the project's namespace. */
  lemma StoreWritePrecedesCompletion(
    docs: seq<Document>, store: VS.Store, c: Collaborators,
    documentId: Id, projectId: Id, chunkSize: int, chunkOverlap: int, now: Time)
    requires IngestDocument(docs, store, c, documentId, projectId, chunkSize, chunkOverlap, now).result.success
    ensures var r := IngestDocument(docs, store, c, documentId, projectId, chunkSize, chunkOverlap, now);
            && |r.trace| >= 3
            && AddsChunks(r.trace[|r.trace| - 2], projectId, r.result.chunkCount)
            && r.trace[|r.trace| - 1] == Write(r.trace[|r.trace| - 1].w) && r.trace[|r.trace| - 1].w.status == Completed
  {
    var found := Crud.GetDocumentById(docs, documentId);
    assert found.Some?;
    var d := found.value;
    var e := RunPipeline(d, c, projectId, chunkSize, chunkOverlap, store);
    var r := FinishRun(docs, d, e, projectId, store, now);
    assert IngestDocument(docs, store, c, documentId, projectId, chunkSize, chunkOverlap, now) == r;
    assert r.result.success;
    assert AddsChunks(r.trace[|r.trace| - 2], projectId, r.result.chunkCount);
  }

  /** A run's trace: the PROCESSING write, the pipeline's write-free steps, then the terminal write. */
  lemma TraceShape(steps: seq<Step>, terminal: StatusWrite)
    requires |steps| >= 1
    requires forall i :: 0 <= i < |steps| ==> !steps[i].Write?
    ensures var trace := [Write(ProcessingWrite)] + steps + [Write(terminal)];
            && |trace| == |steps| + 2
            && trace[0] == Write(ProcessingWrite) && trace[1] == steps[0]
            && trace[|trace| - 2] == steps[|steps| - 1]
            && trace[|trace| - 1] == Write(terminal)
            && CountWrites(trace) == 2
  {
    var trace := [Write(ProcessingWrite)] + steps + [Write(terminal)];
    CountWritesLast(trace);
    assert trace[..|trace| - 1] == [Write(ProcessingWrite)] + steps;
    CountWritesNone([Write(ProcessingWrite)] + steps);
  }

  /** A trace whose only write is its first step, followed by one more write, counts two. */
  lemma CountWritesLast(t: seq<Step>)
    requires |t| >= 1
    ensures CountWrites(t) == CountWrites(t[..|t| - 1]) + (if t[|t| - 1].Write? then 1 else 0)
  {
  }

  lemma {:induction false} CountWritesNone(t: seq<Step>)
    requires |t| >= 1 && t[0].Write?
    requires forall i :: 1 <= i < |t| ==> !t[i].Write?
    ensures CountWrites(t) == 1
    decreases |t|
  {
    if |t| > 1 {
      CountWritesNone(t[..|t| - 1]);
    }
  }

  /** The rows of `docs` carrying `documentId`, after the run, all satisfy `p`. */
  predicate RowsAfter(docs: seq<Document>, before: seq<Document>, documentId: Id, p: Document -> bool) {
    |docs| == |before| && forall i :: 0 <= i < |before| && before[i].id == documentId ==> p(docs[i])
  }

  /**
   * A successful run: every collaborator returned, the loader gave pages and the
   * chunker gave chunks. The tagged chunks are added under the project namespace,
   * and the row is COMPLETED with the chunk, page and character counts.
   */
  lemma IngestSucceeds(
    docs: seq<Document>, store: VS.Store, c: Collaborators, documentId: Id, projectId: Id,
    chunkSize: int, chunkOverlap: int, now: Time, d: Document, pages: seq<Page>, pieces: seq<Piece>)
    requires Crud.GetDocumentById(docs, documentId) == Some(d)
    requires c.load(d.filePath) == Returned(pages) && |pages| > 0
    requires c.split(pages, chunkSize, chunkOverlap, documentId) == Returned(pieces) && |pieces| > 0
    requires c.add(AttachSource(pieces, documentId, d.originalFilename), projectId) == Applied
    ensures var r := IngestDocument(docs, store, c, documentId, projectId, chunkSize, chunkOverlap, now);
            && r.result == IngestResult(true, "Document processed successfully", |pieces|)
            && r.store == VS.Add(store, projectId, AttachSource(pieces, documentId, d.originalFilename))
            && r.trace[|r.trace| - 1] == Write(StatusWrite(Completed, Some("Document processed successfully"),
                                                           Some(|pieces|), Some(|pages|), Some(TotalChars(pages))))
            && RowsAfter(r.docs, docs, documentId, (x: Document) =>
                 x.status == Completed && x.chunkCount == |pieces| && x.pageCount == Some(|pages|)
                 && x.characterCount == Some(TotalChars(pages)) && x.processedAt == Some(now))
  {
  }

  /** Every chunk a successful run stores carries the document id and the uploaded file's name. */
  lemma StoredChunksCarrySource(
    docs: seq<Document>, store: VS.Store, c: Collaborators, documentId: Id, projectId: Id,
    chunkSize: int, chunkOverlap: int, now: Time, d: Document, ch: VS.Chunk)
    requires Crud.GetDocumentById(docs, documentId) == Some(d)
    requires ch in VS.Get(IngestDocument(docs, store, c, documentId, projectId, chunkSize, chunkOverlap, now).store, projectId)
    requires ch !in VS.Get(store, projectId)
    ensures ch.documentId == documentId && ch.source == d.originalFilename && ch.sourceFile == d.originalFilename
  {
    var e := RunPipeline(d, c, projectId, chunkSize, chunkOverlap, store);
    assert IngestDocument(docs, store, c, documentId, projectId, chunkSize, chunkOverlap, now)
           == FinishRun(docs, d, e, projectId, store, now);
  }

  /** A raised exception anywhere in the pipeline ends FAILED with the class's message prefix and a count of 0. */
  lemma IngestReportsRaised(
    docs: seq<Document>, store: VS.Store, c: Collaborators, documentId: Id, projectId: Id,
    chunkSize: int, chunkOverlap: int, now: Time, d: Document, e: Raised)
    requires Crud.GetDocumentById(docs, documentId) == Some(d)
    requires || c.load(d.filePath) == Threw(e)
             || (exists pages :: c.load(d.filePath) == Returned(pages) && |pages| > 0
                                 && c.split(pages, chunkSize, chunkOverlap, documentId) == Threw(e))
             || (exists pages, pieces :: c.load(d.filePath) == Returned(pages) && |pages| > 0
                                 && c.split(pages, chunkSize, chunkOverlap, documentId) == Returned(pieces) && |pieces| > 0
                                 && c.add(AttachSource(pieces, documentId, d.originalFilename), projectId).Interrupted?
                                 && c.add(AttachSource(pieces, documentId, d.originalFilename), projectId).error == e)
    ensures var r := IngestDocument(docs, store, c, documentId, projectId, chunkSize, chunkOverlap, now);
            && r.result == IngestResult(false, ErrorPrefix(e.kind) + e.detail, 0)
            && (r.store != store ==> r.trace[|r.trace| - 2].AddChunks?)
            && (forall ch :: ch in VS.Get(r.store, projectId) && ch !in VS.Get(store, projectId) ==>
                  ch.documentId == documentId && ch.sourceFile == d.originalFilename)
            && r.trace[|r.trace| - 1] == Write(FailedWrite(ErrorPrefix(e.kind) + e.detail))
            && RowsAfter(r.docs, docs, documentId, (x: Document) =>
                 x.status == Failed && x.statusMessage == Some(ErrorPrefix(e.kind) + e.detail))
  {
    var p := RunPipeline(d, c, projectId, chunkSize, chunkOverlap, store);
    assert IngestDocument(docs, store, c, documentId, projectId, chunkSize, chunkOverlap, now)
           == FinishRun(docs, d, p, projectId, store, now);
    assert p.terminal == FailedWrite(ErrorPrefix(e.kind) + e.detail);
    assert p.result == IngestResult(false, ErrorPrefix(e.kind) + e.detail, 0);
  }

  /**
   * A store write that raises part-way leaves exactly the chunks it reached added
   * to the project's namespace, beside whatever was there, and reports FAILED.
   */
  lemma IngestInterruptedAdd(
    docs: seq<Document>, store: VS.Store, c: Collaborators, documentId: Id, projectId: Id,
    chunkSize: int, chunkOverlap: int, now: Time, d: Document, pages: seq<Page>, pieces: seq<Piece>,
    e: Raised, reached: set<VS.Chunk>)
    requires Crud.GetDocumentById(docs, documentId) == Some(d)
    requires c.load(d.filePath) == Returned(pages) && |pages| > 0
    requires c.split(pages, chunkSize, chunkOverlap, documentId) == Returned(pieces) && |pieces| > 0
    requires c.add(AttachSource(pieces, documentId, d.originalFilename), projectId) == Interrupted(e, reached)
    ensures var r := IngestDocument(docs, store, c, documentId, projectId, chunkSize, chunkOverlap, now);
            && r.result == IngestResult(false, ErrorPrefix(e.kind) + e.detail, 0)
            && r.store == VS.AddSome(store, projectId, AttachSource(pieces, documentId, d.originalFilename), reached)
            && RowsAfter(r.docs, docs, documentId, (x: Document) =>
                 x.status == Failed && x.statusMessage == Some(ErrorPrefix(e.kind) + e.detail))
  {
    var chunks := AttachSource(pieces, documentId, d.originalFilename);
    var p := RunPipeline(d, c, projectId, chunkSize, chunkOverlap, store);
    assert p == Raise(VS.AddSome(store, projectId, chunks, reached), [Load(d.filePath), Split(|pages|), AddChunks(projectId, |chunks|)], e);
    assert IngestDocument(docs, store, c, documentId, projectId, chunkSize, chunkOverlap, now)
           == FinishRun(docs, d, p, projectId, store, now);
  }

  /** A loader that returns no pages fails the run before the chunker is called. */
  lemma IngestNoContent(
    docs: seq<Document>, store: VS.Store, c: Collaborators, documentId: Id, projectId: Id,
    chunkSize: int, chunkOverlap: int, now: Time, d: Document)
    requires Crud.GetDocumentById(docs, documentId) == Some(d)
    requires c.load(d.filePath) == Returned([])
    ensures var r := IngestDocument(docs, store, c, documentId, projectId, chunkSize, chunkOverlap, now);
            && r.result == IngestResult(false, "No content extracted from document", 0)
            && r.store == store
            && r.trace == [Write(ProcessingWrite), Load(d.filePath), Write(FailedWrite("No content extracted from document"))]
  {
    var e := RunPipeline(d, c, projectId, chunkSize, chunkOverlap, store);
    assert e.steps == [Load(d.filePath)];
    assert IngestDocument(docs, store, c, documentId, projectId, chunkSize, chunkOverlap, now)
           == FinishRun(docs, d, e, projectId, store, now);
  }

  /**
   * A chunker that returns nothing fails the run without touching the store; the
   * stored message and the returned one differ.
   */
  lemma IngestNoChunks(
    docs: seq<Document>, store: VS.Store, c: Collaborators, documentId: Id, projectId: Id,
    chunkSize: int, chunkOverlap: int, now: Time, d: Document, pages: seq<Page>)
    requires Crud.GetDocumentById(docs, documentId) == Some(d)
    requires c.load(d.filePath) == Returned(pages) && |pages| > 0
    requires c.split(pages, chunkSize, chunkOverlap, documentId) == Returned([])
    ensures var r := IngestDocument(docs, store, c, documentId, projectId, chunkSize, chunkOverlap, now);
            && r.result == IngestResult(false, "No chunks created", 0)
            && r.store == store
            && r.trace[|r.trace| - 1] == Write(FailedWrite("No chunks created from document"))
            && RowsAfter(r.docs, docs, documentId, (x: Document) => x.statusMessage == Some("No chunks created from document"))
  {
  }

  // ---------------------------------------------------------------- vector deletion

  /**
   * `delete_document_vectors`: true exactly when the store call returned. Only the
   * document's chunks in the project's namespace can go: all of them when the call
   * returned, the ones it reached when it raised.
   */
  function DeleteDocumentVectors(store: VS.Store, documentId: Id, projectId: Id, call: StoreCall)
    : (r: (VS.Store, bool))
    ensures r.1 <==> call.Applied?
    ensures r.1 ==> VS.ChunksOf(r.0, projectId, documentId) == {}
    ensures call.Interrupted? ==> forall ch :: ch in VS.ChunksOf(store, projectId, documentId) && ch !in call.reached ==>
                                                ch in VS.Get(r.0, projectId)
    ensures VS.Get(r.0, projectId) <= VS.Get(store, projectId)
    ensures forall ch :: ch in VS.Get(store, projectId) && ch.documentId != documentId ==> ch in VS.Get(r.0, projectId)
    ensures forall n :: n != projectId ==> VS.Get(r.0, n) == VS.Get(store, n)
  {
    match call
    case Applied => (VS.DeleteByDocumentId(store, projectId, documentId), true)
    case Interrupted(_, reached) => (VS.DeleteSomeOfDocument(store, projectId, documentId, reached), false)
  }

  /**
   * `delete_project_vectors`: true exactly when the store call returned; the
   * namespace is then empty, and after a raise it has lost the chunks reached.
   */
  function DeleteProjectVectors(store: VS.Store, projectId: Id, call: StoreCall): (r: (VS.Store, bool))
    ensures r.1 <==> call.Applied?
    ensures r.1 ==> VS.Get(r.0, projectId) == {}
    ensures call.Interrupted? ==> forall ch :: ch in VS.Get(r.0, projectId) <==> ch in VS.Get(store, projectId) && ch !in call.reached
    ensures forall n :: n != projectId ==> VS.Get(r.0, n) == VS.Get(store, n)
  {
    match call
    case Applied => (VS.DeleteNamespace(store, projectId), true)
    case Interrupted(_, reached) => (VS.DeleteSomeOfNamespace(store, projectId, reached), false)
  }
}

=== FILE: lifecycle.dfy ===
/**
 * A document's life across the handlers and the background job: upload leaves it
 * PENDING, a run of the queued job moves it through PROCESSING to COMPLETED or
 * FAILED, and re-ingestion clears its vectors and sends it back to PENDING.
 */
module Lifecycle {
  import opened Wrappers
  import opened Models
  import opened Api
  import Crud
  import VS = VectorStore
  import Ingestion
  import Schemas
  import DocumentsApi

  /** `process_document_background`: the queued job runs one ingestion with the job's arguments. */
  function RunJob(docs: seq<Document>, store: VS.Store, c: Ingestion.Collaborators, job: IngestJob, now: Time)
    : (r: Ingestion.IngestRun)
    ensures Crud.GetDocumentById(docs, job.documentId).Some? ==> Ingestion.CountWrites(r.trace) == 2
    ensures r.store != store ==> |r.trace| >= 2 && r.trace[|r.trace| - 2].AddChunks?
    ensures VS.Get(store, job.projectId) <= VS.Get(r.store, job.projectId)
    ensures forall ch :: ch in VS.Get(r.store, job.projectId) && ch !in VS.Get(store, job.projectId) ==>
              ch.documentId == job.documentId
    ensures forall n :: n != job.projectId ==> VS.Get(r.store, n) == VS.Get(store, n)
  {
    Ingestion.IngestStoreEffect(docs, store, c, job.documentId, job.projectId, job.chunkSize, job.chunkOverlap, now);
    Ingestion.IngestDocument(docs, store, c, job.documentId, job.projectId, job.chunkSize, job.chunkOverlap, now)
  }

  /** The status moves the documented lifecycle allows: into PROCESSING only from PENDING; back to PENDING from anywhere. */
  predicate Documented(from: DocumentStatus, to: DocumentStatus) {
    || (from == Pending && to == Processing)
    || (from == Processing && (to == Completed || to == Failed))
    || to == Pending
  }

  /**
   * A run over a row it finds leaves every row with that id in the status of its
   * last write, which is a documented move out of PROCESSING.
   */
  lemma IngestEndsTerminal(
    docs: seq<Document>, store: VS.Store, c: Ingestion.Collaborators, documentId: Id, projectId: Id,
    chunkSize: int, chunkOverlap: int, now: Time)
    requires Crud.GetDocumentById(docs, documentId).Some?
    ensures var r := Ingestion.IngestDocument(docs, store, c, documentId, projectId, chunkSize, chunkOverlap, now);
            && |r.trace| >= 1 && r.trace[|r.trace| - 1].Write?
            && Documented(Processing, r.trace[|r.trace| - 1].w.status)
            && (forall i :: 0 <= i < |docs| && docs[i].id == documentId ==>
                  r.docs[i].status == r.trace[|r.trace| - 1].w.status)
  {
  }

  /**
   * The run never looks at the row's status: a row that is not PENDING (a FAILED
   * one, or a COMPLETED one) is still moved straight to PROCESSING, a move the
   * documented lifecycle does not allow.
   */
  lemma IngestIgnoresStatus(
    docs: seq<Document>, store: VS.Store, c: Ingestion.Collaborators, documentId: Id, projectId: Id,
    chunkSize: int, chunkOverlap: int, now: Time, d: Document)
    requires Crud.GetDocumentById(docs, documentId) == Some(d) && d.status != Pending
    ensures Ingestion.IngestDocument(docs, store, c, documentId, projectId, chunkSize, chunkOverlap, now).trace[0]
            == Ingestion.Write(Ingestion.ProcessingWrite)
    ensures !Documented(d.status, Ingestion.ProcessingWrite.status)
  {
  }

  /** After a successful re-ingestion the row the queued job finds is the reset one, PENDING with no chunks. */
  lemma ReingestedRowIsNext(
    projects: seq<Project>, docs: seq<Document>, store: VS.Store, userId: Id, projectId: Id, documentId: Id,
    request: Schemas.ReingestionRequest, vectorCall: Ingestion.StoreCall, now: Time)
    requires DocumentsApi.ReingestDocument(projects, docs, store, userId, projectId, documentId, request, vectorCall, now).result.Success?
    ensures var o := DocumentsApi.ReingestDocument(projects, docs, store, userId, projectId, documentId, request, vectorCall, now);
            && Crud.GetDocumentById(o.docs, documentId) == Some(o.result.value)
            && o.result.value.status == Pending && o.result.value.chunkCount == 0
            && o.effects[2].job.documentId == documentId && o.effects[2].job.projectId == projectId
  {
    var o := DocumentsApi.ReingestDocument(projects, docs, store, userId, projectId, documentId, request, vectorCall, now);
    var d := DocumentsApi.ReingestGuard(projects, docs, userId, projectId, documentId, request.force).value.1;
    var i :| 0 <= i < |docs| && docs[i] == d;
    Crud.ReplacedRowFound(docs, o.result.value, i);
  }

  /**
   * Re-ingestion whose vector delete worked, followed by a successful run of the
   * job it queued, leaves exactly the new chunks of the document in the project's
   * namespace and every other document's chunks as they were.
   */
  lemma NoStaleVectorsAfterReingest(
    projects: seq<Project>, docs: seq<Document>, store: VS.Store, userId: Id, projectId: Id, documentId: Id,
    request: Schemas.ReingestionRequest, now: Time, c: Ingestion.Collaborators, later: Time,
    pages: seq<Ingestion.Page>, pieces: seq<Ingestion.Piece>)
    requires DocumentsApi.ReingestDocument(projects, docs, store, userId, projectId, documentId, request, Ingestion.Applied, now).result.Success?
    requires var o := DocumentsApi.ReingestDocument(projects, docs, store, userId, projectId, documentId, request, Ingestion.Applied, now);
             && c.load(o.result.value.filePath) == Ingestion.Returned(pages) && |pages| > 0
             && c.split(pages, o.effects[2].job.chunkSize, o.effects[2].job.chunkOverlap, documentId) == Ingestion.Returned(pieces)
             && |pieces| > 0
             && c.add(Ingestion.AttachSource(pieces, documentId, o.result.value.originalFilename), projectId) == Ingestion.Applied
    ensures var o := DocumentsApi.ReingestDocument(projects, docs, store, userId, projectId, documentId, request, Ingestion.Applied, now);
            var r := RunJob(o.docs, o.store, c, o.effects[2].job, later);
            && r.result.success && r.result.chunkCount == |pieces|
            && (forall ch :: ch in VS.ChunksOf(r.store, projectId, documentId) <==>
                  ch in Ingestion.AttachSource(pieces, documentId, o.result.value.originalFilename))
            && (forall other :: other != documentId ==>
                  VS.ChunksOf(r.store, projectId, other) == VS.ChunksOf(store, projectId, other))
  {
    var o := DocumentsApi.ReingestDocument(projects, docs, store, userId, projectId, documentId, request, Ingestion.Applied, now);
    var job := o.effects[2].job;
    var chunks := Ingestion.AttachSource(pieces, documentId, o.result.value.originalFilename);
    ReingestedRowIsNext(projects, docs, store, userId, projectId, documentId, request, Ingestion.Applied, now);
    Ingestion.IngestSucceeds(o.docs, o.store, c, documentId, projectId, job.chunkSize, job.chunkOverlap, later,
                             o.result.value, pages, pieces);
    assert o.store == VS.DeleteByDocumentId(store, projectId, documentId);
    VS.DeleteThenAddReplaces(store, projectId, documentId, chunks);
  }

  /**
   * When the vector delete of a re-ingestion raises, the run that follows adds
   * its chunks beside the old ones: a chunk stored before that the interrupted
   * delete did not reach survives, so the document's vectors are no longer
   * those of one run.
   */
  lemma StaleVectorsSurviveFailedDelete(
    projects: seq<Project>, docs: seq<Document>, store: VS.Store, userId: Id, projectId: Id, documentId: Id,
    request: Schemas.ReingestionRequest, e: Ingestion.Raised, reached: set<VS.Chunk>, now: Time,
    c: Ingestion.Collaborators, later: Time, stale: VS.Chunk)
    requires DocumentsApi.ReingestDocument(projects, docs, store, userId, projectId, documentId, request, Ingestion.Interrupted(e, reached), now).result.Success?
    requires stale in VS.ChunksOf(store, projectId, documentId) && stale !in reached
    ensures var o := DocumentsApi.ReingestDocument(projects, docs, store, userId, projectId, documentId, request, Ingestion.Interrupted(e, reached), now);
            var r := RunJob(o.docs, o.store, c, o.effects[2].job, later);
            stale in VS.ChunksOf(r.store, projectId, documentId)
  {
    var o := DocumentsApi.ReingestDocument(projects, docs, store, userId, projectId, documentId, request, Ingestion.Interrupted(e, reached), now);
    var job := o.effects[2].job;
    assert stale in VS.Get(o.store, projectId);
    assert stale in VS.Get(RunJob(o.docs, o.store, c, job, later).store, projectId);
  }
}

=== FILE: models.dfy ===
/**
 * The relational records of the system: the document and project status enums,
 * the Document / Project / User rows and the three token tables, with the column
 * defaults the ORM applies when a row is inserted.
 */
module Models {
  import opened Wrappers

  /** Row identifiers are UUID text; a project's id is also its vector-store namespace. */
  type Id = string

  /** Clock readings in whole seconds, in place of `datetime` values. */
  type Time = int

  // ---------------------------------------------------------------- enums

  /** Processing state of a document. */
  datatype DocumentStatus = Pending | Processing | Completed | Failed

  /** The string each status is stored and serialised as. */
  function DocumentStatusValue(s: DocumentStatus): string {
    match s
    case Pending => "pending"
    case Processing => "processing"
    case Completed => "completed"
    case Failed => "failed"
  }

  /** `DocumentStatus(v)`: the member whose value is `v`, if any. */
  function ParseDocumentStatus(v: string): (r: Option<DocumentStatus>)
    ensures r.Some? ==> DocumentStatusValue(r.value) == v
    ensures r.None? <==> v !in {"pending", "processing", "completed", "failed"}
  {
    if v == "pending" then Some(Pending)
    else if v == "processing" then Some(Processing)
    else if v == "completed" then Some(Completed)
    else if v == "failed" then Some(Failed)
    else None
  }

  /** Parsing a status's own value gives that status back, so values are distinct. */
  lemma DocumentStatusRoundTrip(s: DocumentStatus)
    ensures ParseDocumentStatus(DocumentStatusValue(s)) == Some(s)
  {
  }

  /** COMPLETED and FAILED end an ingestion run. */
  predicate IsTerminal(s: DocumentStatus) {
    s == Completed || s == Failed
  }

  /** Whether a project accepts uploads and re-ingestion. */
  datatype ProjectStatus = Active | Archived

  function ProjectStatusValue(s: ProjectStatus): string {
    match s
    case Active => "active"
    case Archived => "archived"
  }

  /** `ProjectStatus(v)`: the member whose value is `v`, if any. */
  function ParseProjectStatus(v: string): (r: Option<ProjectStatus>)
    ensures r.Some? ==> ProjectStatusValue(r.value) == v
    ensures r.None? <==> v !in {"active", "archived"}
  {
    if v == "active" then Some(Active)
    else if v == "archived" then Some(Archived)
    else None
  }

  lemma ProjectStatusRoundTrip(s: ProjectStatus)
    ensures ParseProjectStatus(ProjectStatusValue(s)) == Some(s)
  {
  }

  // ---------------------------------------------------------------- projects

  const DefaultChunkSize: int := 1000
  const DefaultChunkOverlap: int := 200

  datatype Project = Project(
    id: Id,
    name: string,
    description: Option<string>,
    ownerId: Id,
    status: ProjectStatus,
    chunkSize: int,
    chunkOverlap: int)

  /** A `projects` row as inserted: absent columns take their declared defaults. */
  function NewProjectRow(
    id: Id, name: string, description: Option<string>, ownerId: Id,
    status: Option<ProjectStatus>, chunkSize: Option<int>, chunkOverlap: Option<int>): (p: Project)
    ensures p.id == id && p.name == name && p.ownerId == ownerId && p.description == description
    ensures status.None? ==> p.status == Active
    ensures chunkSize.None? ==> p.chunkSize == 1000
    ensures chunkOverlap.None? ==> p.chunkOverlap == 200
    ensures status.Some? ==> p.status == status.value
    ensures chunkSize.Some? ==> p.chunkSize == chunkSize.value
    ensures chunkOverlap.Some? ==> p.chunkOverlap == chunkOverlap.value
  {
    Project(id, name, description, ownerId, status.GetOr(Active),
            chunkSize.GetOr(DefaultChunkSize), chunkOverlap.GetOr(DefaultChunkOverlap))
  }

  // ---------------------------------------------------------------- documents

  datatype Document = Document(
    id: Id,
    filename: string,
    originalFilename: string,
    projectId: Id,
    filePath: string,
    fileSize: Option<int>,
    fileType: Option<string>,
    contentType: Option<string>,
    status: DocumentStatus,
    statusMessage: Option<string>,
    chunkCount: int,
    pageCount: Option<int>,
    characterCount: Option<int>,
    updatedAt: Time,
    processedAt: Option<Time>)

  /** The state of a row nobody has ingested yet. */
  predicate IsUnprocessed(d: Document) {
    && d.status == Pending
    && d.statusMessage.None?
    && d.chunkCount == 0
    && d.pageCount.None?
    && d.characterCount.None?
    && d.processedAt.None?
  }

  /** A `documents` row as inserted: status PENDING, no chunks, no metrics. */
  function NewDocumentRow(
    id: Id, filename: string, originalFilename: string, projectId: Id, filePath: string,
    fileSize: Option<int>, fileType: Option<string>, contentType: Option<string>, now: Time): (d: Document)
    ensures IsUnprocessed(d)
    ensures d.id == id && d.projectId == projectId && d.filePath == filePath
    ensures d.filename == filename && d.originalFilename == originalFilename
    ensures d.fileSize == fileSize && d.fileType == fileType && d.contentType == contentType
    ensures d.updatedAt == now
  {
    Document(id, filename, originalFilename, projectId, filePath, fileSize, fileType, contentType,
             Pending, None, 0, None, None, now, None)
  }

  // ---------------------------------------------------------------- accounts

  datatype User = User(
    id: Id,
    email: string,
    isActive: bool,
    isVerified: bool,
    failedLoginAttempts: int,
    lockedUntil: Option<Time>,
    lastLoginAt: Option<Time>)

  datatype RefreshToken = RefreshToken(
    id: Id,
    token: string,
    userId: Id,
    isRevoked: bool,
    expiresAt: Time,
    revokedAt: Option<Time>,
    familyId: Id,
    replacedBy: Option<Id>)

  datatype VerificationToken = VerificationToken(
    id: Id,
    token: string,
    userId: Id,
    tokenType: string,
    newEmail: Option<string>,
    isUsed: bool,
    expiresAt: Time,
    usedAt: Option<Time>)

  datatype PasswordResetToken = PasswordResetToken(
    id: Id,
    token: string,
    userId: Id,
    isUsed: bool,
    expiresAt: Time,
    usedAt: Option<Time>)
}

=== FILE: projects_api.dfy ===
/**
 * The project endpoints: listing with pagination, the statistics view, and
 * deletion, which clears the project's vector namespace before the rows.
 */
module ProjectsApi {
  import opened Wrappers
  import opened Models
  import opened Api
  import Crud
  import Schemas
  import VS = VectorStore
  import Ingestion

  datatype ProjectList = ProjectList(items: seq<Project>, total: nat, page: int, pageSize: int, pages: nat)

  /** `list_projects`: one page of the caller's projects, newest first, optionally of one status. */
  function ListProjects(projects: seq<Project>, userId: Id, page: int, pageSize: int, status: Option<ProjectStatus>)
    : (r: ProjectList)
    requires ValidPaging(page, pageSize)
    ensures r.total == |Crud.UserProjects(projects, userId, status)|
    ensures r.items == Crud.Window(Crud.UserProjects(projects, userId, status), Skip(page, pageSize), pageSize)
    ensures r.pages * pageSize >= r.total && (r.total > 0 ==> (r.pages - 1) * pageSize < r.total)
    ensures r.items != [] <==> page <= r.pages
    ensures forall k :: 0 <= k < |r.items| ==> r.items[k].ownerId == userId
    ensures r.page == page && r.pageSize == pageSize
  {
    var (items, total) := Crud.GetProjects(projects, userId, status, Skip(page, pageSize), pageSize);
    PagesCoverRows(total, pageSize, page);
    ProjectList(items, total, page, pageSize, Pages(total, pageSize))
  }

  /** Offset `m` of page `q + 1` shows the caller's `(q * pageSize + m)`-th newest project. */
  lemma ListedOnItsPage(projects: seq<Project>, userId: Id, pageSize: int, status: Option<ProjectStatus>, q: nat, m: nat)
    requires 1 <= pageSize <= 100 && m < pageSize
    requires q * pageSize + m < |Crud.UserProjects(projects, userId, status)|
    ensures ValidPaging(q + 1, pageSize)
    ensures m < |ListProjects(projects, userId, q + 1, pageSize, status).items|
    ensures ListProjects(projects, userId, q + 1, pageSize, status).items[m]
            == Crud.UserProjects(projects, userId, status)[q * pageSize + m]
  {
    RowOnItsPage(Crud.UserProjects(projects, userId, status), pageSize, q, m);
  }

  datatype ProjectWithStats = ProjectWithStats(project: Project, stats: Schemas.ProjectStats)

  /** `get_project_with_stats`: the owned project together with its document statistics. */
  function GetProjectWithStats(projects: seq<Project>, docs: seq<Document>, userId: Id, projectId: Id)
    : (r: Result<ProjectWithStats, HttpError>)
    ensures r.Failure? <==> OwnedProject(projects, projectId, userId).Failure?
    ensures r.Failure? ==> r.error == ProjectNotFound
    ensures r.Success? ==> r.value.project == OwnedProject(projects, projectId, userId).value
    ensures r.Success? ==> r.value.stats.documentCount == Crud.CountProject(docs, projectId)
    ensures r.Success? ==> r.value.stats.pendingDocuments
                             == Crud.CountStatus(docs, projectId, Pending) + Crud.CountStatus(docs, projectId, Processing)
    ensures r.Success? ==> r.value.stats.completedDocuments == Crud.CountStatus(docs, projectId, Completed)
    ensures r.Success? ==> r.value.stats.failedDocuments == Crud.CountStatus(docs, projectId, Failed)
    ensures r.Success? ==> r.value.stats.totalChunks == Crud.SumChunks(docs, projectId)
    ensures r.Success? ==> r.value.stats.totalSizeBytes == Crud.SumSizes(docs, projectId)
  {
    match OwnedProject(projects, projectId, userId)
    case Failure(e) => Failure(e)
    case Success(p) =>
      Success(ProjectWithStats(p, Crud.GetProjectStats(docs, projectId)))
  }

  /** The statistics view is internally consistent: its buckets add up to the document count. */
  lemma StatsViewConsistent(projects: seq<Project>, docs: seq<Document>, userId: Id, projectId: Id)
    requires forall i :: 0 <= i < |docs| ==> docs[i].chunkCount >= 0
    requires GetProjectWithStats(projects, docs, userId, projectId).Success?
    ensures Schemas.ConsistentStats(GetProjectWithStats(projects, docs, userId, projectId).value.stats)
  {
    Crud.StatsConsistent(docs, projectId);
  }

  datatype DeleteOutcome = DeleteOutcome(
    result: Result<(), HttpError>,
    projects: seq<Project>,
    docs: seq<Document>,
    store: VS.Store,
    effects: seq<Effect>)

  /**
   * The file removals `delete_project` in the data layer attempts before deleting the
   * row: one per document of the project, in table order.
   */
  function FileRemovals(docs: seq<Document>, projectId: Id): (r: seq<Effect>)
    ensures |r| <= |docs|
    ensures forall k :: 0 <= k < |r| ==> r[k].RemoveFile?
  {
    if |docs| == 0 then []
    else
      (if docs[0].projectId == projectId then [RemoveFile(docs[0].filePath)] else [])
      + FileRemovals(docs[1..], projectId)
  }

  /** A file is removed exactly when some document of the project is stored there. */
  lemma {:induction false} FileRemovalsMembers(docs: seq<Document>, projectId: Id, path: string)
    ensures RemoveFile(path) in FileRemovals(docs, projectId)
            <==> exists i :: 0 <= i < |docs| && docs[i].projectId == projectId && docs[i].filePath == path
  {
    if |docs| > 0 {
      var rest := docs[1..];
      FileRemovalsMembers(rest, projectId, path);
      if exists i :: 0 <= i < |docs| && docs[i].projectId == projectId && docs[i].filePath == path {
        var i :| 0 <= i < |docs| && docs[i].projectId == projectId && docs[i].filePath == path;
        if i > 0 {
          assert rest[i - 1] == docs[i];
        }
      }
      if RemoveFile(path) in FileRemovals(rest, projectId) {
        var j :| 0 <= j < |rest| && rest[j].projectId == projectId && rest[j].filePath == path;
        assert docs[j + 1] == rest[j];
      }
    }
  }

  /**
   * `delete_project`: after the ownership guard, the namespace is cleared (a failing
   * vector call is swallowed), then each of the project's files is removed (a missing
   * file is skipped and a failing removal swallowed), then the row and, by cascade,
   * its documents go.
   */
  function DeleteProject(
    projects: seq<Project>, docs: seq<Document>, store: VS.Store, userId: Id, projectId: Id,
    vectorCall: Ingestion.StoreCall): (o: DeleteOutcome)
    ensures OwnedProject(projects, projectId, userId).Failure? ==>
              o == DeleteOutcome(Failure(ProjectNotFound), projects, docs, store, [])
    ensures o.result.Success? <==> OwnedProject(projects, projectId, userId).Success?
    ensures o.result.Success? ==>
              && o.effects == [DeleteNamespace(projectId)] + FileRemovals(docs, projectId) + [DeleteProjectRow(projectId)]
              && (o.projects, o.docs) == Crud.DeleteProject(projects, docs, projectId)
              && o.store == Ingestion.DeleteProjectVectors(store, projectId, vectorCall).0
  {
    match OwnedProject(projects, projectId, userId)
    case Failure(e) => DeleteOutcome(Failure(e), projects, docs, store, [])
    case Success(_) =>
      var (store', _) := Ingestion.DeleteProjectVectors(store, projectId, vectorCall);
      var (projects', docs') := Crud.DeleteProject(projects, docs, projectId);
      DeleteOutcome(Success(()), projects', docs', store',
                    [DeleteNamespace(projectId)] + FileRemovals(docs, projectId) + [DeleteProjectRow(projectId)])
  }

  /**
   * Between clearing the namespace and deleting the row, a successful deletion removes
   * the file of every document of the project and no other file.
   */
  lemma DeletionRemovesProjectFiles(
    projects: seq<Project>, docs: seq<Document>, store: VS.Store, userId: Id, projectId: Id,
    vectorCall: Ingestion.StoreCall, path: string)
    requires DeleteProject(projects, docs, store, userId, projectId, vectorCall).result.Success?
    ensures var o := DeleteProject(projects, docs, store, userId, projectId, vectorCall);
            && |o.effects| >= 2
            && o.effects[0] == DeleteNamespace(projectId)
            && o.effects[|o.effects| - 1] == DeleteProjectRow(projectId)
            && (RemoveFile(path) in o.effects
                <==> exists i :: 0 <= i < |docs| && docs[i].projectId == projectId && docs[i].filePath == path)
  {
    FileRemovalsMembers(docs, projectId, path);
  }

  /**
   * A successful deletion leaves nothing of the project: no row, no document, and
   * (when the vector call works) no vector; an interrupted vector call removes
   * only the chunks it reached; every other namespace is untouched.
   */
  lemma DeletedProjectLeavesNothing(
    projects: seq<Project>, docs: seq<Document>, store: VS.Store, userId: Id, projectId: Id,
    vectorCall: Ingestion.StoreCall)
    requires DeleteProject(projects, docs, store, userId, projectId, vectorCall).result.Success?
    ensures var o := DeleteProject(projects, docs, store, userId, projectId, vectorCall);
            && Crud.GetProject(o.projects, projectId, userId).None?
            && (forall i :: 0 <= i < |o.docs| ==> o.docs[i].projectId != projectId)
            && (vectorCall.Applied? ==> VS.Get(o.store, projectId) == {})
            && (vectorCall.Interrupted? ==> forall ch :: ch in VS.Get(o.store, projectId) <==>
                                                         ch in VS.Get(store, projectId) && ch !in vectorCall.reached)
            && (forall n :: n != projectId ==> VS.Get(o.store, n) == VS.Get(store, n))
  {
  }

  /** Other users' projects and documents survive a deletion. */
  lemma DeleteProjectKeepsOthers(
    projects: seq<Project>, docs: seq<Document>, store: VS.Store, userId: Id, projectId: Id,
    vectorCall: Ingestion.StoreCall, q: Project, d: Document)
    requires q in projects && q.id != projectId
    requires d in docs && d.projectId != projectId
    ensures var o := DeleteProject(projects, docs, store, userId, projectId, vectorCall);
            q in o.projects && d in o.docs
  {
  }
}

=== FILE: query_api.dfy ===
/**
 * The query endpoints: the checks a question passes before the engine runs, the
 * engine configuration, the chat session it is filed under, and the mapping of
 * retrieved chunks to citations. The engine and retriever are collaborators whose
 * outcome is a parameter; relevance scores are carried as an opaque type.
 */
module QueryApi {
  import opened Wrappers
  import opened Models
  import opened Api
  import Crud
  import Schemas

  // ---------------------------------------------------------------- strategy and configuration

  /** `get_retrieval_strategy`: the RAG strategy with the same value. */
  function GetRetrievalStrategy(s: Schemas.RetrievalStrategy): (r: RagStrategy)
    ensures RagStrategyValue(r) == Schemas.RetrievalStrategyValue(s)
  {
    match s
    case Similarity => RagSimilarity
    case Mmr => RagMmr
    case Hybrid => RagHybrid
  }

  /** The conversion is a bijection: distinct strategies stay distinct and every RAG strategy is reached. */
  lemma GetRetrievalStrategyBijective(a: Schemas.RetrievalStrategy, b: Schemas.RetrievalStrategy, t: RagStrategy)
    ensures GetRetrievalStrategy(a) == GetRetrievalStrategy(b) ==> a == b
    ensures exists s :: GetRetrievalStrategy(s) == t
  {
    match t
    case RagSimilarity => assert GetRetrievalStrategy(Schemas.Similarity) == t;
    case RagMmr => assert GetRetrievalStrategy(Schemas.Mmr) == t;
    case RagHybrid => assert GetRetrievalStrategy(Schemas.Hybrid) == t;
  }

  /** The retriever and query configuration of one request: deterministic answers that must cite. */
  function ConfigFor(q: Schemas.QueryRequest): (c: EngineConfig)
    ensures RagStrategyValue(c.strategy) == Schemas.RetrievalStrategyValue(q.retrievalStrategy)
    ensures c.topK == q.topK
    ensures c.temperature == 0.0 && c.citationRequired
  {
    EngineConfig(GetRetrievalStrategy(q.retrievalStrategy), q.topK, 0.0, true)
  }

  // ---------------------------------------------------------------- preconditions

  const NoProcessedDocuments: HttpError :=
    HttpError(400, "No processed documents available in this project. Please upload and wait for processing to complete.")

  function DocumentNotReady(id: Id): HttpError {
    HttpError(400, "Document " + id + " not found or not yet processed")
  }

  /** The ids of the COMPLETED documents among `candidates`. */
  function CompletedIds(candidates: seq<Document>): (r: set<Id>)
    ensures forall id :: id in r <==> exists i :: 0 <= i < |candidates| && candidates[i].id == id && candidates[i].status == Completed
  {
    set i | 0 <= i < |candidates| && candidates[i].status == Completed :: candidates[i].id
  }

  /** The first requested id that is not valid, if any. */
  function FirstInvalid(ids: seq<Id>, valid: set<Id>): (r: Option<Id>)
    ensures r.None? <==> forall i :: 0 <= i < |ids| ==> ids[i] in valid
    ensures r.Some? ==> r.value in ids && r.value !in valid
    ensures r.Some? ==> exists i :: 0 <= i < |ids| && ids[i] == r.value && forall j :: 0 <= j < i ==> ids[j] in valid
  {
    FindFirst(ids, (id: Id) => id !in valid)
  }

  /**
   * The checks made before the engine is built, in order: the caller owns the
   * project (404), it has a COMPLETED document (400), and every requested document
   * is a COMPLETED one among `candidates`, the documents the check looks at (400).
   */
  function Preconditions(projects: seq<Project>, docs: seq<Document>, userId: Id, q: Schemas.QueryRequest, candidates: seq<Document>)
    : (r: Result<Project, HttpError>)
    ensures r.Success? <==>
              && OwnedProject(projects, q.projectId, userId).Success?
              && Crud.CountStatus(docs, q.projectId, Completed) > 0
              && forall i :: 0 <= i < |q.documentIds.GetOr([])| ==> q.documentIds.GetOr([])[i] in CompletedIds(candidates)
    ensures OwnedProject(projects, q.projectId, userId).Failure? ==> r == Failure(ProjectNotFound)
    ensures OwnedProject(projects, q.projectId, userId).Success? && Crud.CountStatus(docs, q.projectId, Completed) == 0 ==>
              r == Failure(NoProcessedDocuments)
    ensures OwnedProject(projects, q.projectId, userId).Success? && Crud.CountStatus(docs, q.projectId, Completed) > 0 && r.Failure? ==>
              exists id :: id in q.documentIds.GetOr([]) && id !in CompletedIds(candidates) && r.error == DocumentNotReady(id)
  {
    match OwnedProject(projects, q.projectId, userId)
    case Failure(e) => Failure(e)
    case Success(p) =>
      if Crud.CountStatus(docs, q.projectId, Completed) == 0 then Failure(NoProcessedDocuments)
      else match FirstInvalid(q.documentIds.GetOr([]), CompletedIds(candidates))
        case Some(id) => Failure(DocumentNotReady(id))
        case None => Success(p)
  }

  /** The documents the id check sees as written: one default page of the project, its newest 100. */
  function NewestPage(docs: seq<Document>, projectId: Id): (r: seq<Document>)
    ensures |r| <= 100
    ensures r == Crud.Window(Crud.ProjectDocuments(docs, projectId, None), 0, 100)
  {
    Crud.GetDocumentsByProject(docs, projectId, None, 0, 100).0
  }

  // ---------------------------------------------------------------- the chat session

  const InvalidSessionId: HttpError := HttpError(400, "Invalid session_id format")
  const SessionNotFound: HttpError := HttpError(404, "Chat session not found")
  const SessionOtherProject: HttpError := HttpError(400, "session_id does not belong to the specified project")
  const UnexpectedQueryError: HttpError := HttpError(500, "An unexpected error occurred while processing your query")

  function QueryFailure(message: string): HttpError {
    HttpError(500, "Query processing failed: " + message)
  }

  /**
   * What the chat tables (not part of this model) answer about a supplied session
   * id: whether it parses as a UUID, and the project of the caller's session with
   * that id, if there is one.
   */
  datatype SessionLookup = SessionLookup(isUuid: bool, projectOf: Option<Id>)

  /** Whether the request names a session (a non-empty `session_id`). */
  predicate NamesSession(q: Schemas.QueryRequest) {
    q.sessionId.Some? && q.sessionId.value != ""
  }

  /** The session checks: true to reuse the named session, false to create one, or the error raised. */
  function SessionStep(q: Schemas.QueryRequest, lookup: SessionLookup): (r: Result<bool, HttpError>)
    ensures !NamesSession(q) ==> r == Success(false)
    ensures r == Success(true) <==> NamesSession(q) && lookup.isUuid && lookup.projectOf == Some(q.projectId)
    ensures r.Failure? ==> r.error in {InvalidSessionId, SessionNotFound, SessionOtherProject}
  {
    if !NamesSession(q) then Success(false)
    else if !lookup.isUuid then Failure(InvalidSessionId)
    else match lookup.projectOf
      case None => Failure(SessionNotFound)
      case Some(pid) => if pid != q.projectId then Failure(SessionOtherProject) else Success(true)
  }

  // ---------------------------------------------------------------- the handler

  /** What the engine call came to: an answer, a `QueryError` with its message, or any other exception. */
  datatype EngineResult = Answered(answer: string) | QueryFailed(message: string) | Crashed

  datatype QueryResponse = QueryResponse(answer: string, queryId: Id)

  datatype QueryOutcome = QueryOutcome(result: Result<QueryResponse, HttpError>, effects: seq<Effect>)

  /** The fresh UUIDs a query draws: the query id and, when none is named, the new session's id. */
  datatype QueryIds = QueryIds(queryId: Id, sessionId: Id)

  /**
   * `query_documents`, parameterised by the documents the id check sees and by
   * whether an `HTTPException` raised inside the `try` block escapes it.
   */
  function RunQuery(
    projects: seq<Project>, docs: seq<Document>, userId: Id, q: Schemas.QueryRequest, candidates: seq<Document>,
    httpErrorsEscape: bool, engine: EngineResult, lookup: SessionLookup, ids: QueryIds): (o: QueryOutcome)
    ensures Preconditions(projects, docs, userId, q, candidates).Failure? ==>
              o == QueryOutcome(Failure(Preconditions(projects, docs, userId, q, candidates).error), [])
    ensures Preconditions(projects, docs, userId, q, candidates).Success? ==> |o.effects| >= 1 && o.effects[0] == QueryEngine(ConfigFor(q))
    ensures o.result.Success? ==>
              && Preconditions(projects, docs, userId, q, candidates).Success?
              && engine == Answered(o.result.value.answer) && SessionStep(q, lookup).Success?
              && o.result.value.queryId == ids.queryId
              && o.effects == [QueryEngine(ConfigFor(q))]
                              + (if SessionStep(q, lookup).value then [] else [CreateSession(ids.sessionId)])
                              + [StoreMessage(UserRole, q.question), StoreMessage(AssistantRole, engine.answer)]
    ensures Preconditions(projects, docs, userId, q, candidates).Success? && engine.QueryFailed? ==>
              o == QueryOutcome(Failure(QueryFailure(engine.message)), [QueryEngine(ConfigFor(q))])
    ensures Preconditions(projects, docs, userId, q, candidates).Success? && engine.Crashed? ==>
              o == QueryOutcome(Failure(UnexpectedQueryError), [QueryEngine(ConfigFor(q))])
  {
    match Preconditions(projects, docs, userId, q, candidates)
    case Failure(e) => QueryOutcome(Failure(e), [])
    case Success(_) =>
      match engine
      case Crashed => QueryOutcome(Failure(UnexpectedQueryError), [QueryEngine(ConfigFor(q))])
      case QueryFailed(m) => QueryOutcome(Failure(QueryFailure(m)), [QueryEngine(ConfigFor(q))])
      case Answered(a) =>
        match SessionStep(q, lookup)
        case Failure(e) => QueryOutcome(Failure(if httpErrorsEscape then e else UnexpectedQueryError), [QueryEngine(ConfigFor(q))])
        case Success(existing) =>
          var create := if existing then [] else [CreateSession(ids.sessionId)];
          QueryOutcome(Success(QueryResponse(a, ids.queryId)),
                       [QueryEngine(ConfigFor(q))] + create + [StoreMessage(UserRole, q.question), StoreMessage(AssistantRole, a)])
  }

  /**
   * Once the checks pass, the engine runs first, built with the request's strategy and
   * `top_k`, temperature 0 and required citations, whatever the engine then does.
   */
  lemma EngineBuiltFromRequest(
    projects: seq<Project>, docs: seq<Document>, userId: Id, q: Schemas.QueryRequest, candidates: seq<Document>,
    httpErrorsEscape: bool, engine: EngineResult, lookup: SessionLookup, ids: QueryIds)
    requires Preconditions(projects, docs, userId, q, candidates).Success?
    ensures var o := RunQuery(projects, docs, userId, q, candidates, httpErrorsEscape, engine, lookup, ids);
            && |o.effects| >= 1 && o.effects[0].QueryEngine?
            && RagStrategyValue(o.effects[0].config.strategy) == Schemas.RetrievalStrategyValue(q.retrievalStrategy)
            && o.effects[0].config.topK == q.topK
            && o.effects[0].config.temperature == 0.0
            && o.effects[0].config.citationRequired
  {
    hide ConfigFor;
  }

  /** `query_documents` as written: ids checked against the newest 100 documents, session errors swallowed. */
  function QueryDocumentsAsWritten(
    projects: seq<Project>, docs: seq<Document>, userId: Id, q: Schemas.QueryRequest,
    engine: EngineResult, lookup: SessionLookup, ids: QueryIds): (o: QueryOutcome)
    ensures o.result.Success? ==> SessionStep(q, lookup).Success? && engine.Answered?
    ensures o.result.Failure? && Preconditions(projects, docs, userId, q, NewestPage(docs, q.projectId)).Success? ==>
              o.result.error.code == 500
  {
    RunQuery(projects, docs, userId, q, NewestPage(docs, q.projectId), false, engine, lookup, ids)
  }

  /**
   * `query_documents` as evidently intended: every COMPLETED document of the project
   * may be requested, and the 400/404 of the session checks reach the client.
   */
  function QueryDocuments(
    projects: seq<Project>, docs: seq<Document>, userId: Id, q: Schemas.QueryRequest,
    engine: EngineResult, lookup: SessionLookup, ids: QueryIds): (o: QueryOutcome)
    ensures o.result.Success? ==>
              && OwnedProject(projects, q.projectId, userId).Success?
              && Crud.CountStatus(docs, q.projectId, Completed) > 0
              && (forall id :: id in q.documentIds.GetOr([]) ==>
                    exists d :: d in docs && d.id == id && d.projectId == q.projectId && d.status == Completed)
              && engine == Answered(o.result.value.answer)
              && |o.effects| >= 3
              && o.effects[|o.effects| - 2] == StoreMessage(UserRole, q.question)
              && o.effects[|o.effects| - 1] == StoreMessage(AssistantRole, o.result.value.answer)
  {
    var o := RunQuery(projects, docs, userId, q, Crud.ProjectDocuments(docs, q.projectId, None), true, engine, lookup, ids);
    if o.result.Success? then
      ValidIdsAreProjectDocuments(docs, q);
      o
    else o
  }

  /** As corrected, a session error after a successful engine call reaches the client as itself. */
  lemma SessionErrorReported(
    projects: seq<Project>, docs: seq<Document>, userId: Id, q: Schemas.QueryRequest,
    answer: string, lookup: SessionLookup, ids: QueryIds)
    requires Preconditions(projects, docs, userId, q, Crud.ProjectDocuments(docs, q.projectId, None)).Success?
    requires SessionStep(q, lookup).Failure?
    ensures QueryDocuments(projects, docs, userId, q, Answered(answer), lookup, ids).result == Failure(SessionStep(q, lookup).error)
    ensures QueryDocuments(projects, docs, userId, q, Answered(answer), lookup, ids).result.error.code in {400, 404}
  {
  }

  /** A successful query creates a chat session exactly when the request names none. */
  lemma SessionCreatedUnlessNamed(
    projects: seq<Project>, docs: seq<Document>, userId: Id, q: Schemas.QueryRequest,
    engine: EngineResult, lookup: SessionLookup, ids: QueryIds)
    requires QueryDocuments(projects, docs, userId, q, engine, lookup, ids).result.Success?
    ensures var e := QueryDocuments(projects, docs, userId, q, engine, lookup, ids).effects;
            NamesSession(q) <==> forall j :: 0 <= j < |e| ==> !e[j].CreateSession?
  {
    var e := QueryDocuments(projects, docs, userId, q, engine, lookup, ids).effects;
    if !NamesSession(q) {
      assert e[1] == CreateSession(ids.sessionId);
    }
  }

  /** An id that passes the corrected check belongs to a COMPLETED document of the project. */
  lemma ValidIdsAreProjectDocuments(docs: seq<Document>, q: Schemas.QueryRequest)
    ensures forall id :: id in CompletedIds(Crud.ProjectDocuments(docs, q.projectId, None)) ==>
              exists d :: d in docs && d.id == id && d.projectId == q.projectId && d.status == Completed
  {
  }

  /** Any COMPLETED document of the project may be requested under the corrected check. */
  lemma CompletedDocumentAccepted(
    projects: seq<Project>, docs: seq<Document>, userId: Id, q: Schemas.QueryRequest, d: Document)
    requires OwnedProject(projects, q.projectId, userId).Success?
    requires d in docs && d.projectId == q.projectId && d.status == Completed
    requires q.documentIds == Some([d.id])
    ensures Preconditions(projects, docs, userId, q, Crud.ProjectDocuments(docs, q.projectId, None)).Success?
  {
    var all := Crud.ProjectDocuments(docs, q.projectId, None);
    assert d in all;
    var i :| 0 <= i < |all| && all[i] == d;
    assert d.id in CompletedIds(all);
    CompletedCounted(docs, q.projectId, d);
  }

  /** A COMPLETED document of the project makes the completed count positive. */
  lemma {:induction false} CompletedCounted(docs: seq<Document>, projectId: Id, d: Document)
    requires d in docs && d.projectId == projectId && d.status == Completed
    ensures Crud.CountStatus(docs, projectId, Completed) > 0
    decreases |docs|
  {
    if docs[|docs| - 1] != d {
      assert d in docs[..|docs| - 1] by {
        var i :| 0 <= i < |docs| && docs[i] == d;
        assert i < |docs| - 1;
        assert docs[..|docs| - 1][i] == d;
      }
      CompletedCounted(docs[..|docs| - 1], projectId, d);
    }
  }

  /**
   * As written, a COMPLETED document older than the project's newest 100 cannot be
   * requested: the oldest of more than 100 documents, with an id no newer one has,
   * is reported as not found or not processed.
   */
  lemma OldestCompletedRejected(
    projects: seq<Project>, docs: seq<Document>, userId: Id, q: Schemas.QueryRequest,
    engine: EngineResult, lookup: SessionLookup, ids: QueryIds)
    requires OwnedProject(projects, q.projectId, userId).Success?
    requires Crud.CountStatus(docs, q.projectId, Completed) > 0
    requires var all := Crud.ProjectDocuments(docs, q.projectId, None);
             && |all| > 100
             && (forall i :: 0 <= i < 100 ==> all[i].id != all[|all| - 1].id)
             && q.documentIds == Some([all[|all| - 1].id])
    ensures var all := Crud.ProjectDocuments(docs, q.projectId, None);
            QueryDocumentsAsWritten(projects, docs, userId, q, engine, lookup, ids).result
            == Failure(DocumentNotReady(all[|all| - 1].id))
  {
    var all := Crud.ProjectDocuments(docs, q.projectId, None);
    var page := NewestPage(docs, q.projectId);
    var oldest := all[|all| - 1];
    assert |page| == 100;
    assert oldest.id !in CompletedIds(page) by {
      forall i | 0 <= i < |page| ensures page[i].id != oldest.id {
        assert page[i] == all[i];
      }
    }
    assert FirstInvalid([oldest.id], CompletedIds(page)) == Some(oldest.id);
  }

  /**
   * As written, a session error after a successful engine call reaches the client
   * as the generic 500, never as its own 400 or 404.
   */
  lemma SessionErrorMasked(
    projects: seq<Project>, docs: seq<Document>, userId: Id, q: Schemas.QueryRequest,
    answer: string, lookup: SessionLookup, ids: QueryIds)
    requires Preconditions(projects, docs, userId, q, NewestPage(docs, q.projectId)).Success?
    requires SessionStep(q, lookup).Failure?
    ensures QueryDocumentsAsWritten(projects, docs, userId, q, Answered(answer), lookup, ids).result == Failure(UnexpectedQueryError)
    ensures SessionStep(q, lookup).error.code != 500
  {
  }

  /** A session of another project: the intended 400 as corrected, the generic 500 as written. */
  lemma OtherProjectSession(
    projects: seq<Project>, docs: seq<Document>, userId: Id, q: Schemas.QueryRequest,
    answer: string, other: Id, ids: QueryIds)
    requires NamesSession(q) && other != q.projectId
    requires Preconditions(projects, docs, userId, q, NewestPage(docs, q.projectId)).Success?
    requires Preconditions(projects, docs, userId, q, Crud.ProjectDocuments(docs, q.projectId, None)).Success?
    ensures QueryDocuments(projects, docs, userId, q, Answered(answer), SessionLookup(true, Some(other)), ids).result
            == Failure(SessionOtherProject)
    ensures QueryDocumentsAsWritten(projects, docs, userId, q, Answered(answer), SessionLookup(true, Some(other)), ids).result
            == Failure(UnexpectedQueryError)
  {
  }

  // ---------------------------------------------------------------- similar chunks

  /** `text_snippet`: the text when at most 300 characters, else its first 300 and an ellipsis. */
  function Snippet(text: string): (r: string)
    ensures |r| <= 303
    ensures |text| <= 300 ==> r == text
    ensures |text| > 300 ==> |r| == 303 && r[..300] == text[..300] && r[300..] == "..."
  {
    if |text| > 300 then text[..300] + "..." else text
  }

  /** Snipping a snippet changes nothing. */
  lemma SnippetIdempotent(text: string)
    ensures Snippet(Snippet(text)) == Snippet(text)
  {
    if |text| > 300 {
      var s := Snippet(text);
      assert s[..300] == text[..300];
    }
  }

  /** `relevance_score`: the score at the same position, when there is one. */
  function ScoreAt<S>(scores: seq<S>, i: nat): (r: Option<S>)
    ensures r.Some? <==> i < |scores|
    ensures r.Some? ==> r.value == scores[i]
  {
    if i < |scores| then Some(scores[i]) else None
  }

  /** A retrieved chunk: its text and the metadata keys the citation reads, each possibly absent. */
  datatype Retrieved = Retrieved(
    content: string,
    chunkId: Option<string>,
    documentId: Option<string>,
    sourceFile: Option<string>,
    page: Option<int>,
    charStart: Option<int>,
    charEnd: Option<int>)

  datatype Citation<S> = Citation(
    chunkId: string,
    documentId: Option<string>,
    sourceFile: string,
    page: Option<int>,
    charStart: Option<int>,
    charEnd: Option<int>,
    textSnippet: string,
    relevanceScore: Option<S>)

  /** The citation of the `i`-th retrieved chunk. */
  function CitationOf<S>(doc: Retrieved, scores: seq<S>, i: nat): (c: Citation<S>)
    ensures c.chunkId == doc.chunkId.GetOr("unknown") && c.sourceFile == doc.sourceFile.GetOr("unknown")
    ensures c.documentId == doc.documentId && c.page == doc.page
    ensures c.textSnippet == Snippet(doc.content) && c.relevanceScore == ScoreAt(scores, i)
    ensures c.charStart == doc.charStart && c.charEnd == doc.charEnd
  {
    Citation(doc.chunkId.GetOr("unknown"), doc.documentId, doc.sourceFile.GetOr("unknown"),
             doc.page, doc.charStart, doc.charEnd, Snippet(doc.content), ScoreAt(scores, i))
  }

  const SimilarFailed: HttpError := HttpError(500, "Failed to find similar chunks")

  datatype SimilarChunksResponse<S> = SimilarChunksResponse(chunks: seq<Citation<S>>, queryText: string)

  /**
   * `find_similar_chunks`: after the ownership guard, one citation per retrieved
   * chunk in retrieval order; a retriever that raises gives 500. `retrieved` is
   * what the retriever returned (documents and scores), or None when it raised.
   */
  function FindSimilarChunks<S>(
    projects: seq<Project>, userId: Id, request: Schemas.SimilarChunksRequest,
    retrieved: Option<(seq<Retrieved>, seq<S>)>): (r: Result<SimilarChunksResponse<S>, HttpError>)
    ensures OwnedProject(projects, request.projectId, userId).Failure? ==> r == Failure(ProjectNotFound)
    ensures OwnedProject(projects, request.projectId, userId).Success? && retrieved.None? ==> r == Failure(SimilarFailed)
    ensures r.Success? <==> OwnedProject(projects, request.projectId, userId).Success? && retrieved.Some?
    ensures r.Success? ==>
              && r.value.queryText == request.text
              && |r.value.chunks| == |retrieved.value.0|
              && forall i :: 0 <= i < |r.value.chunks| ==>
                   && r.value.chunks[i].textSnippet == Snippet(retrieved.value.0[i].content)
                   && |r.value.chunks[i].textSnippet| <= 303
                   && r.value.chunks[i].relevanceScore == ScoreAt(retrieved.value.1, i)
                   && r.value.chunks[i].chunkId == retrieved.value.0[i].chunkId.GetOr("unknown")
                   && r.value.chunks[i] == CitationOf(retrieved.value.0[i], retrieved.value.1, i)
  {
    match OwnedProject(projects, request.projectId, userId)
    case Failure(e) => Failure(e)
    case Success(_) =>
      match retrieved
      case None => Failure(SimilarFailed)
      case Some((found, scores)) =>
        Success(SimilarChunksResponse(seq(|found|, i requires 0 <= i < |found| => CitationOf(found[i], scores, i)), request.text))
  }

  /** With fewer scores than chunks, exactly the trailing citations have no score. */
  lemma MissingScoresAreTrailing<S>(
    projects: seq<Project>, userId: Id, request: Schemas.SimilarChunksRequest, found: seq<Retrieved>, scores: seq<S>, i: nat)
    requires FindSimilarChunks(projects, userId, request, Some((found, scores))).Success?
    requires i < |found|
    ensures FindSimilarChunks(projects, userId, request, Some((found, scores))).value.chunks[i].relevanceScore.None?
            <==> i >= |scores|
  {
  }
}

=== FILE: schemas.dfy ===
/**
 * Request and response schemas: the enums the API exposes, the field bounds
 * request validation enforces, and the defaults an omitted field takes.
 * A request is parsed from optional raw fields into either the validated record
 * or the name of the first field (in declaration order) that violates its bound.
 */
module Schemas {
  import opened Wrappers
  import Models
  import Settings

  // ---------------------------------------------------------------- enums

  /** The document status as the API serialises it. */
  datatype DocumentStatus = Pending | Processing | Completed | Failed

  function DocumentStatusValue(s: DocumentStatus): string {
    match s
    case Pending => "pending"
    case Processing => "processing"
    case Completed => "completed"
    case Failed => "failed"
  }

  /** The API status carrying the same value as a stored status. */
  function FromModelStatus(s: Models.DocumentStatus): (r: DocumentStatus)
    ensures DocumentStatusValue(r) == Models.DocumentStatusValue(s)
  {
    match s
    case Pending => Pending
    case Processing => Processing
    case Completed => Completed
    case Failed => Failed
  }

  /** The stored status carrying the same value as an API status. */
  function ToModelStatus(s: DocumentStatus): (r: Models.DocumentStatus)
    ensures Models.DocumentStatusValue(r) == DocumentStatusValue(s)
  {
    match s
    case Pending => Models.Pending
    case Processing => Models.Processing
    case Completed => Models.Completed
    case Failed => Models.Failed
  }

  /** The two status enums are the same four values: conversion by value is a bijection. */
  lemma DocumentStatusEnumsAgree(a: DocumentStatus, m: Models.DocumentStatus)
    ensures ToModelStatus(FromModelStatus(m)) == m
    ensures FromModelStatus(ToModelStatus(a)) == a
    ensures DocumentStatusValue(a) == Models.DocumentStatusValue(m) <==> ToModelStatus(a) == m
  {
  }

  /** The retrieval strategies a query may name. */
  datatype RetrievalStrategy = Similarity | Mmr | Hybrid

  function RetrievalStrategyValue(s: RetrievalStrategy): string {
    match s
    case Similarity => "similarity"
    case Mmr => "mmr"
    case Hybrid => "hybrid"
  }

  /** `RetrievalStrategy(v)`: the member whose value is `v`, if any. */
  function ParseRetrievalStrategy(v: string): (r: Option<RetrievalStrategy>)
    ensures r.Some? ==> RetrievalStrategyValue(r.value) == v
  {
    if v == "similarity" then Some(Similarity)
    else if v == "mmr" then Some(Mmr)
    else if v == "hybrid" then Some(Hybrid)
    else None
  }

  /**
   * The schema's strategies are exactly the names the settings validator accepts,
   * and each strategy's value parses back to it.
   */
  lemma RetrievalStrategyMatchesSettings(v: string, s: RetrievalStrategy)
    ensures ParseRetrievalStrategy(v).Some? <==> Settings.IsValidStrategy(v)
    ensures ParseRetrievalStrategy(RetrievalStrategyValue(s)) == Some(s)
  {
  }

  // ---------------------------------------------------------------- field bounds

  predicate ValidChunkSize(n: int) {
    100 <= n <= 4000
  }

  predicate ValidChunkOverlap(n: int) {
    0 <= n <= 1000
  }

  predicate ValidQueryTopK(n: int) {
    1 <= n <= 20
  }

  predicate ValidSimilarTopK(n: int) {
    1 <= n <= 50
  }

  predicate ValidProjectName(s: string) {
    1 <= |s| <= 255
  }

  predicate ValidDescription(d: Option<string>) {
    d.None? || |d.value| <= 2000
  }

  predicate ValidQueryText(s: string) {
    1 <= |s| <= 2000
  }

  /** An optional field bounded by `ok` when present. */
  predicate OptionalWithin(v: Option<int>, ok: int -> bool) {
    v.None? || ok(v.value)
  }

  /** Settings whose RAG defaults are in range supply values every request schema accepts. */
  lemma SettingsDefaultsFitSchemas(s: Settings.Settings)
    requires Settings.RagDefaultsInRange(s)
    ensures ValidChunkSize(s.defaultChunkSize) && ValidChunkOverlap(s.defaultChunkOverlap)
    ensures ValidQueryTopK(s.defaultTopK) && ValidSimilarTopK(s.defaultTopK)
  {
  }

  // ---------------------------------------------------------------- documents

  /** Options for re-ingesting a document; absent sizes fall back later to the project's. */
  datatype ReingestionRequest = ReingestionRequest(
    chunkSize: Option<int>,
    chunkOverlap: Option<int>,
    force: bool)

  predicate ValidReingestionRequest(r: ReingestionRequest) {
    OptionalWithin(r.chunkSize, ValidChunkSize) && OptionalWithin(r.chunkOverlap, ValidChunkOverlap)
  }

  /** Validation of a `ReingestionRequest` body. */
  function ParseReingestionRequest(chunkSize: Option<int>, chunkOverlap: Option<int>, force: Option<bool>)
    : (r: Result<ReingestionRequest, string>)
    ensures r.Success? <==> OptionalWithin(chunkSize, ValidChunkSize) && OptionalWithin(chunkOverlap, ValidChunkOverlap)
    ensures r.Success? ==> ValidReingestionRequest(r.value)
    ensures r.Success? ==> r.value.chunkSize == chunkSize && r.value.chunkOverlap == chunkOverlap
    ensures r.Success? ==> (r.value.force <==> force == Some(true))
    ensures r.Failure? ==> r.error in {"chunk_size", "chunk_overlap"}
  {
    if !OptionalWithin(chunkSize, ValidChunkSize) then Failure("chunk_size")
    else if !OptionalWithin(chunkOverlap, ValidChunkOverlap) then Failure("chunk_overlap")
    else Success(ReingestionRequest(chunkSize, chunkOverlap, force.GetOr(false)))
  }

  /** An empty body is valid: no sizes, no force. */
  lemma EmptyReingestionRequest()
    ensures ParseReingestionRequest(None, None, None) == Success(ReingestionRequest(None, None, false))
  {
  }

  /** The ingestion progress report of one document. */
  datatype DocumentIngestionStatus = DocumentIngestionStatus(
    documentId: Models.Id,
    status: DocumentStatus,
    message: Option<string>,
    chunksCreated: int,
    pagesProcessed: Option<int>,
    startedAt: Option<Models.Time>,
    completedAt: Option<Models.Time>)

  // ---------------------------------------------------------------- projects

  datatype ProjectCreate = ProjectCreate(
    name: string,
    description: Option<string>,
    chunkSize: int,
    chunkOverlap: int)

  predicate ValidProjectCreate(p: ProjectCreate) {
    && ValidProjectName(p.name)
    && ValidDescription(p.description)
    && ValidChunkSize(p.chunkSize)
    && ValidChunkOverlap(p.chunkOverlap)
  }

  /** Validation of a `ProjectCreate` body: sizes default to 1000 and 200. */
  function ParseProjectCreate(name: string, description: Option<string>, chunkSize: Option<int>, chunkOverlap: Option<int>)
    : (r: Result<ProjectCreate, string>)
    ensures r.Success? <==> (&& ValidProjectName(name) && ValidDescription(description)
                             && ValidChunkSize(chunkSize.GetOr(1000)) && ValidChunkOverlap(chunkOverlap.GetOr(200)))
    ensures r.Success? ==> ValidProjectCreate(r.value) && r.value.name == name && r.value.description == description
    ensures r.Success? && chunkSize.None? ==> r.value.chunkSize == Models.DefaultChunkSize
    ensures r.Success? && chunkOverlap.None? ==> r.value.chunkOverlap == Models.DefaultChunkOverlap
    ensures r.Success? && chunkSize.Some? ==> r.value.chunkSize == chunkSize.value
    ensures r.Success? && chunkOverlap.Some? ==> r.value.chunkOverlap == chunkOverlap.value
    ensures r.Failure? ==> r.error in {"name", "description", "chunk_size", "chunk_overlap"}
  {
    var size := chunkSize.GetOr(1000);
    var overlap := chunkOverlap.GetOr(200);
    if !ValidProjectName(name) then Failure("name")
    else if !ValidDescription(description) then Failure("description")
    else if !ValidChunkSize(size) then Failure("chunk_size")
    else if !ValidChunkOverlap(overlap) then Failure("chunk_overlap")
    else Success(ProjectCreate(name, description, size, overlap))
  }

  /** Nothing relates overlap to size: an overlap as large as the chunk, or larger, is accepted. */
  lemma OverlapNotBelowSizeAccepted(name: string, size: int, overlap: int)
    requires ValidProjectName(name) && ValidChunkSize(size) && ValidChunkOverlap(overlap)
    requires overlap >= size
    ensures ParseProjectCreate(name, None, Some(size), Some(overlap)).Success?
    ensures ParseProjectCreate(name, None, Some(size), Some(overlap)).value.chunkOverlap >= size
  {
  }

  /** Such a project exists: size 100 with overlap 1000. */
  lemma OverlapAboveSizeWitness()
    ensures ParseProjectCreate("p", None, Some(100), Some(1000)).Success?
  {
    OverlapNotBelowSizeAccepted("p", 100, 1000);
  }

  datatype ProjectUpdate = ProjectUpdate(
    name: Option<string>,
    description: Option<string>,
    status: Option<Models.ProjectStatus>,
    chunkSize: Option<int>,
    chunkOverlap: Option<int>)

  predicate ValidProjectUpdate(u: ProjectUpdate) {
    && (u.name.None? || ValidProjectName(u.name.value))
    && ValidDescription(u.description)
    && OptionalWithin(u.chunkSize, ValidChunkSize)
    && OptionalWithin(u.chunkOverlap, ValidChunkOverlap)
  }

  /** Validation of a `ProjectUpdate` body: every field optional, each bounded like `ProjectCreate`'s. */
  function ParseProjectUpdate(u: ProjectUpdate): (r: Result<ProjectUpdate, string>)
    ensures r.Success? <==> ValidProjectUpdate(u)
    ensures r.Success? ==> r.value == u
    ensures r.Failure? ==> r.error in {"name", "description", "chunk_size", "chunk_overlap"}
  {
    if u.name.Some? && !ValidProjectName(u.name.value) then Failure("name")
    else if !ValidDescription(u.description) then Failure("description")
    else if !OptionalWithin(u.chunkSize, ValidChunkSize) then Failure("chunk_size")
    else if !OptionalWithin(u.chunkOverlap, ValidChunkOverlap) then Failure("chunk_overlap")
    else Success(u)
  }

  /** A complete, valid update is exactly a valid create with a status attached. */
  lemma UpdateBoundsMatchCreate(p: ProjectCreate, st: Models.ProjectStatus)
    ensures ValidProjectUpdate(ProjectUpdate(Some(p.name), p.description, Some(st), Some(p.chunkSize), Some(p.chunkOverlap)))
            <==> ValidProjectCreate(p)
  {
  }

  /** Per-project document and chunk totals. */
  datatype ProjectStats = ProjectStats(
    documentCount: int,
    completedDocuments: int,
    failedDocuments: int,
    pendingDocuments: int,
    totalChunks: int,
    totalSizeBytes: int)

  /** The statistics of a project nothing has been counted for. */
  const EmptyProjectStats: ProjectStats := ProjectStats(0, 0, 0, 0, 0, 0)

  /** Stats are consistent when the three status buckets partition the documents. */
  predicate ConsistentStats(s: ProjectStats) {
    && s.documentCount == s.completedDocuments + s.failedDocuments + s.pendingDocuments
    && s.completedDocuments >= 0 && s.failedDocuments >= 0 && s.pendingDocuments >= 0
    && s.totalChunks >= 0
  }

  lemma EmptyProjectStatsConsistent()
    ensures ConsistentStats(EmptyProjectStats)
    ensures EmptyProjectStats.documentCount == 0 && EmptyProjectStats.totalChunks == 0
  {
  }

  // ---------------------------------------------------------------- queries

  datatype QueryRequest = QueryRequest(
    projectId: Models.Id,
    question: string,
    documentIds: Option<seq<Models.Id>>,
    includeAllSources: bool,
    retrievalStrategy: RetrievalStrategy,
    topK: int,
    sessionId: Option<Models.Id>)

  predicate ValidQueryRequest(q: QueryRequest) {
    ValidQueryText(q.question) && ValidQueryTopK(q.topK)
  }

  /** Validation of a `QueryRequest` body: MMR, top 5 and no extra sources by default. */
  function ParseQueryRequest(
    projectId: Models.Id, question: string, documentIds: Option<seq<Models.Id>>,
    includeAllSources: Option<bool>, strategy: Option<RetrievalStrategy>, topK: Option<int>,
    sessionId: Option<Models.Id>): (r: Result<QueryRequest, string>)
    ensures r.Success? <==> ValidQueryText(question) && ValidQueryTopK(topK.GetOr(5))
    ensures r.Success? ==> ValidQueryRequest(r.value)
    ensures r.Success? ==> r.value.projectId == projectId && r.value.question == question
    ensures r.Success? ==> r.value.documentIds == documentIds && r.value.sessionId == sessionId
    ensures r.Success? && strategy.None? ==> r.value.retrievalStrategy == Mmr
    ensures r.Success? && strategy.Some? ==> r.value.retrievalStrategy == strategy.value
    ensures r.Success? ==> (r.value.includeAllSources <==> includeAllSources == Some(true))
    ensures r.Success? && topK.None? ==> r.value.topK == 5
    ensures r.Success? && topK.Some? ==> r.value.topK == topK.value
    ensures r.Failure? ==> r.error in {"question", "top_k"}
  {
    var k := topK.GetOr(5);
    if !ValidQueryText(question) then Failure("question")
    else if !ValidQueryTopK(k) then Failure("top_k")
    else Success(QueryRequest(projectId, question, documentIds, includeAllSources.GetOr(false),
                              strategy.GetOr(Mmr), k, sessionId))
  }

  /** The default query strategy is also the settings' default strategy. */
  lemma QueryDefaultsMatchSettings()
    ensures RetrievalStrategyValue(Mmr) == Settings.Defaults.defaultRetrievalStrategy
    ensures Settings.Defaults.defaultTopK == 5
  {
  }

  datatype SimilarChunksRequest = SimilarChunksRequest(
    projectId: Models.Id,
    text: string,
    topK: int,
    documentIds: Option<seq<Models.Id>>)

  /** Validation of a `SimilarChunksRequest` body: the same text bound, a wider `top_k` range. */
  function ParseSimilarChunksRequest(projectId: Models.Id, text: string, topK: Option<int>, documentIds: Option<seq<Models.Id>>)
    : (r: Result<SimilarChunksRequest, string>)
    ensures r.Success? <==> ValidQueryText(text) && ValidSimilarTopK(topK.GetOr(5))
    ensures r.Success? ==> r.value.projectId == projectId && r.value.text == text && r.value.documentIds == documentIds
    ensures r.Success? && topK.None? ==> r.value.topK == 5
    ensures r.Success? && topK.Some? ==> r.value.topK == topK.value
    ensures r.Failure? ==> r.error in {"text", "top_k"}
  {
    var k := topK.GetOr(5);
    if !ValidQueryText(text) then Failure("text")
    else if !ValidSimilarTopK(k) then Failure("top_k")
    else Success(SimilarChunksRequest(projectId, text, k, documentIds))
  }

  /** Every `top_k` a query accepts, a similar-chunks request accepts too, but not conversely. */
  lemma SimilarTopKWidensQuery(k: int)
    ensures ValidQueryTopK(k) ==> ValidSimilarTopK(k)
    ensures ValidSimilarTopK(50) && !ValidQueryTopK(50)
  {
  }
}

=== FILE: settings.dfy ===
/**
 * Application settings: the fields the core reads, their declared defaults and
 * bounds, and the computed properties and validators defined on them.
 */
module Settings {
  import opened Wrappers
  import opened Strings

  datatype Settings = Settings(
    debug: bool,
    environment: string,
    allowedOrigins: string,
    maxLoginAttempts: int,
    lockoutDurationMinutes: int,
    verificationTokenExpireHours: int,
    passwordResetTokenExpireHours: int,
    smtpHost: string,
    smtpUser: Option<string>,
    smtpPassword: Option<string>,
    maxFileSizeMb: int,
    defaultChunkSize: int,
    defaultChunkOverlap: int,
    defaultTopK: int,
    defaultRetrievalStrategy: string)

  /** The values the settings class declares when the environment sets nothing. */
  const Defaults: Settings := Settings(
    debug := true,
    environment := "development",
    allowedOrigins := "http://localhost:3000,http://localhost:8000",
    maxLoginAttempts := 5,
    lockoutDurationMinutes := 30,
    verificationTokenExpireHours := 24,
    passwordResetTokenExpireHours := 1,
    smtpHost := "smtp.gmail.com",
    smtpUser := None,
    smtpPassword := None,
    maxFileSizeMb := 50,
    defaultChunkSize := 1000,
    defaultChunkOverlap := 200,
    defaultTopK := 5,
    defaultRetrievalStrategy := "mmr")

  /** The `Field(ge=…, le=…)` bounds on the RAG defaults. */
  predicate RagDefaultsInRange(s: Settings) {
    && 100 <= s.defaultChunkSize <= 4000
    && 0 <= s.defaultChunkOverlap <= 1000
    && 1 <= s.defaultTopK <= 20
  }

  /** The declared defaults satisfy their own bounds and their own validator. */
  lemma DefaultsAreValid()
    ensures RagDefaultsInRange(Defaults)
    ensures ValidateRetrievalStrategy(Defaults.defaultRetrievalStrategy) == Success("mmr")
  {
    StripQuotesUnchanged("mmr");
    assert Lower("mmr") == "mmr";
  }

  // ---------------------------------------------------------------- computed fields

  /** `max_upload_size_bytes`. */
  function MaxUploadSizeBytes(s: Settings): (n: int)
    ensures s.maxFileSizeMb >= 0 ==> n >= 0 && n % 1048576 == 0 && n / 1048576 == s.maxFileSizeMb
  {
    s.maxFileSizeMb * 1024 * 1024
  }

  predicate IsDoubleQuote(c: char) {
    c == '"'
  }

  predicate IsSingleQuote(c: char) {
    c == '\''
  }

  predicate IsQuote(c: char) {
    IsDoubleQuote(c) || IsSingleQuote(c)
  }

  /** `v.strip('"').strip("'")`. */
  function StripQuotes(v: string): (r: string)
    ensures forall k :: 0 <= k < |r| ==> r[k] in v
  {
    Strip(Strip(v, IsDoubleQuote), IsSingleQuote)
  }

  /** A value with no quote at either end passes `StripQuotes` unchanged. */
  lemma StripQuotesUnchanged(v: string)
    requires |v| == 0 || (!IsQuote(v[0]) && !IsQuote(v[|v| - 1]))
    ensures StripQuotes(v) == v
  {
    StripUnchanged(v, IsDoubleQuote);
    StripUnchanged(v, IsSingleQuote);
  }

  /** What every parsed origin is: non-empty, comma-free, no surrounding whitespace. */
  predicate OriginEntry(o: string) {
    |o| > 0 && ',' !in o && !IsSpace(o[0]) && !IsSpace(o[|o| - 1])
  }

  /** The part of `allowed_origins_list` after the `"*"` test: strip quotes, split, trim, drop empties. */
  function ParseOrigins(raw: string): (origins: seq<string>)
    ensures forall i :: 0 <= i < |origins| ==> OriginEntry(origins[i])
  {
    TrimmedNonEmpty(Split(StripQuotes(raw), ','))
  }

  /** `[p.strip() for p in parts if p.strip()]`, over comma-free parts. */
  function TrimmedNonEmpty(parts: seq<string>): (r: seq<string>)
    requires forall i :: 0 <= i < |parts| ==> ',' !in parts[i]
    ensures |r| <= |parts|
    ensures forall i :: 0 <= i < |r| ==> OriginEntry(r[i])
  {
    if |parts| == 0 then []
    else
      var t := StripSpace(parts[0]);
      var rest := TrimmedNonEmpty(parts[1..]);
      if |t| > 0 then
        StrippedEntry(parts[0]);
        [t] + rest
      else rest
  }

  /** A comma-free part that is not blank strips to a well-formed entry. */
  lemma StrippedEntry(p: string)
    requires ',' !in p && |StripSpace(p)| > 0
    ensures OriginEntry(StripSpace(p))
  {
  }

  /** `allowed_origins_list`. */
  function AllowedOriginsList(s: Settings): (origins: seq<string>)
    ensures s.allowedOrigins == "*" ==> origins == ["*"]
    ensures s.allowedOrigins != "*" ==> forall i :: 0 <= i < |origins| ==> OriginEntry(origins[i])
  {
    if s.allowedOrigins == "*" then ["*"] else ParseOrigins(s.allowedOrigins)
  }

  /** An origin as a well-formed list entry: non-empty, no comma, no outer space or quote. */
  predicate CleanOrigin(o: string) {
    && |o| > 0
    && ',' !in o
    && !IsSpace(o[0]) && !IsSpace(o[|o| - 1])
    && !IsQuote(o[0]) && !IsQuote(o[|o| - 1])
  }

  lemma {:induction false} TrimmedNonEmptyOfClean(parts: seq<string>)
    requires forall i :: 0 <= i < |parts| ==> ',' !in parts[i]
    requires forall i :: 0 <= i < |parts| ==> CleanOrigin(parts[i])
    ensures TrimmedNonEmpty(parts) == parts
    decreases |parts|
  {
    if |parts| > 0 {
      StripUnchanged(parts[0], IsSpace);
      TrimmedNonEmptyOfClean(parts[1..]);
      assert parts == [parts[0]] + parts[1..];
    }
  }

  /** `[f(p) for p in parts if f(p)]` for any per-part map `f`: the shape of the trimming above. */
  function MapNonEmpty(parts: seq<string>, f: string -> string): seq<string>
    decreases |parts|
  {
    if |parts| == 0 then []
    else (if f(parts[0]) != "" then [f(parts[0])] else []) + MapNonEmpty(parts[1..], f)
  }

  /** Every part whose image is not empty contributes that image. */
  lemma {:induction false} MapNonEmptyKeeps(parts: seq<string>, f: string -> string, j: nat)
    requires j < |parts| && f(parts[j]) != ""
    ensures f(parts[j]) in MapNonEmpty(parts, f)
    decreases |parts|
  {
    if j > 0 {
      assert parts[1..][j - 1] == parts[j];
      MapNonEmptyKeeps(parts[1..], f, j - 1);
    }
  }

  /** Every entry is the image of some part. */
  lemma {:induction false} MapNonEmptyFrom(parts: seq<string>, f: string -> string, i: nat)
    requires i < |MapNonEmpty(parts, f)|
    ensures exists j :: 0 <= j < |parts| && MapNonEmpty(parts, f)[i] == f(parts[j])
    decreases |parts|
  {
    var head := if f(parts[0]) != "" then [f(parts[0])] else [];
    var rest := MapNonEmpty(parts[1..], f);
    assert MapNonEmpty(parts, f) == head + rest;
    if i < |head| {
      assert MapNonEmpty(parts, f)[i] == f(parts[0]);
    } else {
      assert MapNonEmpty(parts, f)[i] == rest[i - |head|];
      MapNonEmptyFrom(parts[1..], f, i - |head|);
      var j :| 0 <= j < |parts[1..]| && rest[i - |head|] == f(parts[1..][j]);
      assert parts[1..][j] == parts[j + 1];
    }
  }

  /** The trimming is `MapNonEmpty` with `str.strip` as the map. */
  lemma {:induction false} TrimmedIsMapped(parts: seq<string>)
    requires forall i :: 0 <= i < |parts| ==> ',' !in parts[i]
    ensures TrimmedNonEmpty(parts) == MapNonEmpty(parts, StripSpace)
    decreases |parts|
  {
    if |parts| > 0 {
      TrimmedIsMapped(parts[1..]);
    }
  }

  /**
   * The entries kept are exactly the non-blank parts, stripped: every such part
   * is kept, and every entry comes from one.
   */
  lemma TrimmedNonEmptyMembers(parts: seq<string>)
    requires forall i :: 0 <= i < |parts| ==> ',' !in parts[i]
    ensures forall j :: 0 <= j < |parts| && StripSpace(parts[j]) != "" ==> StripSpace(parts[j]) in TrimmedNonEmpty(parts)
    ensures forall i :: 0 <= i < |TrimmedNonEmpty(parts)| ==>
              exists j :: 0 <= j < |parts| && TrimmedNonEmpty(parts)[i] == StripSpace(parts[j])
  {
    TrimmedIsMapped(parts);
    forall j | 0 <= j < |parts| && StripSpace(parts[j]) != "" {
      MapNonEmptyKeeps(parts, StripSpace, j);
    }
    forall i | 0 <= i < |TrimmedNonEmpty(parts)|
      ensures exists j :: 0 <= j < |parts| && TrimmedNonEmpty(parts)[i] == StripSpace(parts[j])
    {
      MapNonEmptyFrom(parts, StripSpace, i);
    }
  }

  /**
   * Outside the `"*"` case the origin list holds exactly the non-blank pieces of
   * the setting, stripped: each of them is listed, and each entry is one of them.
   */
  lemma AllowedOriginsMembers(s: Settings)
    ensures s.allowedOrigins != "*" ==>
              var parts := Split(StripQuotes(s.allowedOrigins), ',');
              var origins := AllowedOriginsList(s);
              && (forall j :: 0 <= j < |parts| && StripSpace(parts[j]) != "" ==> StripSpace(parts[j]) in origins)
              && (forall i :: 0 <= i < |origins| ==> exists j :: 0 <= j < |parts| && origins[i] == StripSpace(parts[j]))
  {
    TrimmedNonEmptyMembers(Split(StripQuotes(s.allowedOrigins), ','));
  }

  /** Trimming distributes over concatenation, so the kept entries keep the order of their parts. */
  lemma {:induction false} TrimmedNonEmptyConcat(a: seq<string>, b: seq<string>)
    requires forall i :: 0 <= i < |a| ==> ',' !in a[i]
    requires forall i :: 0 <= i < |b| ==> ',' !in b[i]
    ensures TrimmedNonEmpty(a + b) == TrimmedNonEmpty(a) + TrimmedNonEmpty(b)
    decreases |a|
  {
    if |a| > 0 {
      assert (a + b)[1..] == a[1..] + b;
      assert (a + b)[0] == a[0];
      TrimmedNonEmptyConcat(a[1..], b);
    } else {
      assert a + b == b;
    }
  }

  /** Parsing clean origins written comma-separated gives them back. */
  lemma ParseOriginsRoundTrip(origins: seq<string>)
    requires |origins| >= 1
    requires forall i :: 0 <= i < |origins| ==> CleanOrigin(origins[i])
    ensures ParseOrigins(Join(origins, ',')) == origins
  {
    hide Join, Split, StripQuotes, TrimmedNonEmpty;
    JoinedCleanUnquoted(origins);
    SplitJoin(origins, ',');
    TrimmedNonEmptyOfClean(origins);
  }

  /** Clean origins joined with commas carry no quote at either end. */
  lemma JoinedCleanUnquoted(origins: seq<string>)
    requires |origins| >= 1
    requires forall i :: 0 <= i < |origins| ==> CleanOrigin(origins[i])
    ensures StripQuotes(Join(origins, ',')) == Join(origins, ',')
  {
    hide Join, StripQuotes;
    JoinEnds(origins, ',');
    StripQuotesUnchanged(Join(origins, ','));
  }

  /** Writing a list of clean origins comma-separated and reading the setting gives the list back. */
  lemma OriginsRoundTrip(s: Settings, origins: seq<string>)
    requires |origins| >= 1
    requires forall i :: 0 <= i < |origins| ==> CleanOrigin(origins[i])
    requires s.allowedOrigins == Join(origins, ',')
    ensures AllowedOriginsList(s) == origins
  {
    if s.allowedOrigins == "*" {
      JoinEnds(origins, ',');
    } else {
      ParseOriginsRoundTrip(origins);
    }
  }

  /** A join starts with its first part and ends with its last. */
  lemma {:induction false} JoinEnds(parts: seq<string>, sep: char)
    requires |parts| >= 1
    requires forall i :: 0 <= i < |parts| ==> |parts[i]| > 0
    ensures var s := Join(parts, sep);
            |s| >= |parts[0]| && s[0] == parts[0][0] && s[|s| - 1] == parts[|parts| - 1][|parts[|parts| - 1]| - 1]
    decreases |parts|
  {
    if |parts| > 1 {
      JoinEnds(parts[1..], sep);
    }
  }

  // ---------------------------------------------------------------- validators

  /** The accepted retrieval-strategy names. */
  predicate IsValidStrategy(n: string) {
    n == "similarity" || n == "mmr" || n == "hybrid"
  }

  /** The normal form the strategy validator compares: quotes stripped, lower-cased. */
  function NormalizeStrategy(v: string): string {
    Lower(StripQuotes(v))
  }

  /** `validate_retrieval_strategy`: the normalised value, or the rejection message. */
  function ValidateRetrievalStrategy(v: string): (r: Result<string, string>)
    ensures r.Success? <==> IsValidStrategy(NormalizeStrategy(v))
    ensures r.Success? ==> r.value == NormalizeStrategy(v) && IsValidStrategy(r.value)
  {
    var n := NormalizeStrategy(v);
    if IsValidStrategy(n) then Success(n)
    else Failure("Invalid retrieval strategy: " + n + ". Must be one of {'similarity', 'mmr', 'hybrid'}")
  }

  /** Validating an accepted value again accepts it unchanged. */
  lemma ValidateRetrievalStrategyIdempotent(v: string)
    requires ValidateRetrievalStrategy(v).Success?
    ensures ValidateRetrievalStrategy(ValidateRetrievalStrategy(v).value) == ValidateRetrievalStrategy(v)
  {
    var n := ValidateRetrievalStrategy(v).value;
    StrategyIsFixedPoint(n);
  }

  /** Each valid strategy name normalises to itself. */
  lemma StrategyIsFixedPoint(n: string)
    requires IsValidStrategy(n)
    ensures NormalizeStrategy(n) == n
  {
    assert !IsQuote(n[0]) && !IsQuote(n[|n| - 1]);
    assert forall i :: 0 <= i < |n| ==> 'a' <= n[i] <= 'z';
    NormalFormFixed(n);
  }

  /** A value with no outer quote and no upper-case letter is already normalised. */
  lemma NormalFormFixed(v: string)
    requires |v| == 0 || (!IsQuote(v[0]) && !IsQuote(v[|v| - 1]))
    requires forall i :: 0 <= i < |v| ==> !('A' <= v[i] <= 'Z')
    ensures NormalizeStrategy(v) == v
  {
    calc {
      NormalizeStrategy(v);
      Lower(StripQuotes(v));
      { StripQuotesUnchanged(v); }
      Lower(v);
      { LowerUnchanged(v); }
      v;
    }
  }

  /** Surrounding double quotes are removed before the comparison. */
  lemma {:induction false} QuotedValueUnwrapped(v: string)
    requires |v| > 0 && !IsQuote(v[0]) && !IsQuote(v[|v| - 1])
    ensures StripQuotes(['"'] + v + ['"']) == v
  {
    var q := ['"'] + v + ['"'];
    assert q[1..] == v + ['"'];
    assert TrimLeft(q, IsDoubleQuote) == TrimLeft(v + ['"'], IsDoubleQuote);
    assert TrimLeft(v + ['"'], IsDoubleQuote) == v + ['"'];
    assert (v + ['"'])[..|v|] == v;
    assert TrimRight(v + ['"'], IsDoubleQuote) == TrimRight(v, IsDoubleQuote);
    StripUnchanged(v, IsDoubleQuote);
    StripUnchanged(v, IsSingleQuote);
  }

  /** A double-quoted spelling of a valid name, in any letter case, is accepted and normalised. */
  lemma QuotedSpellingAccepted(v: string)
    requires |v| > 0 && !IsQuote(v[0]) && !IsQuote(v[|v| - 1])
    requires IsValidStrategy(Lower(v))
    ensures ValidateRetrievalStrategy(['"'] + v + ['"']) == Success(Lower(v))
  {
    QuotedValueUnwrapped(v);
  }

  /** `is_production`. */
  predicate IsProduction(s: Settings) {
    s.environment == "production"
  }

  /** `is_development`: the environment says so, or DEBUG is on. */
  predicate IsDevelopment(s: Settings) {
    s.environment == "development" || s.debug
  }

  /** Production and development are exclusive only when DEBUG is off; the default DEBUG is on. */
  lemma EnvironmentFlags(s: Settings)
    ensures !s.debug ==> !(IsProduction(s) && IsDevelopment(s))
    ensures IsProduction(s) && s.debug ==> IsDevelopment(s)
    ensures IsDevelopment(Defaults) && !IsProduction(Defaults)
  {
  }

  /** `email_enabled`: both SMTP credentials are non-empty. */
  predicate EmailEnabled(s: Settings) {
    s.smtpUser.Some? && s.smtpUser.value != "" && s.smtpPassword.Some? && s.smtpPassword.value != ""
  }

  /** Python truthiness of an optional string. */
  predicate Unset(v: Option<string>) {
    v.None? || v.value == ""
  }

  /** `validate_required_for_email`: the unset SMTP settings, in declaration order. */
  function ValidateRequiredForEmail(s: Settings): (missing: seq<string>)
    ensures "SMTP_HOST" in missing <==> s.smtpHost == ""
    ensures "SMTP_USER" in missing <==> Unset(s.smtpUser)
    ensures "SMTP_PASSWORD" in missing <==> Unset(s.smtpPassword)
    ensures forall i :: 0 <= i < |missing| ==> missing[i] in ["SMTP_HOST", "SMTP_USER", "SMTP_PASSWORD"]
    ensures forall i, j :: 0 <= i < j < |missing| ==> EmailFieldRank(missing[i]) < EmailFieldRank(missing[j])
    ensures missing == [] ==> EmailEnabled(s)
  {
    (if s.smtpHost == "" then ["SMTP_HOST"] else [])
    + (if Unset(s.smtpUser) then ["SMTP_USER"] else [])
    + (if Unset(s.smtpPassword) then ["SMTP_PASSWORD"] else [])
  }

  /** Declaration order of the SMTP fields. */
  function EmailFieldRank(name: string): int {
    if name == "SMTP_HOST" then 0 else if name == "SMTP_USER" then 1 else 2
  }

  /** Email can count as enabled while the host is missing: `email_enabled` ignores it. */
  lemma EnabledWithoutHost()
    ensures var s := Defaults.(smtpHost := "", smtpUser := Some("u"), smtpPassword := Some("p"));
            EmailEnabled(s) && ValidateRequiredForEmail(s) == ["SMTP_HOST"]
  {
  }
}

=== FILE: strings.dfy ===
/**
 * Python `str` primitives used by the settings parser and the upload checks:
 * `strip`, `lower`, `split`, `join`, `pathlib` suffixes and code-point ordering.
 * Strings are sequences of Unicode code points, as Python's are.
 */
module Strings {
  import opened Wrappers

  /** `str.isspace()` for one code point: the characters Python's `strip()` removes. */
  predicate IsSpace(c: char) {
    || c == ' '
    || ('\U{09}' <= c <= '\U{0D}')
    || ('\U{1C}' <= c <= '\U{1F}')
    || c == '\U{85}' || c == '\U{A0}' || c == '\U{1680}'
    || ('\U{2000}' <= c <= '\U{200A}')
    || c == '\U{2028}' || c == '\U{2029}' || c == '\U{202F}' || c == '\U{205F}' || c == '\U{3000}'
  }

  /** `s.lstrip(chars)`: drops the longest prefix whose characters satisfy `p`. */
  function TrimLeft(s: string, p: char -> bool): (r: string)
    ensures |r| <= |s| && r == s[|s| - |r|..]
    ensures |r| == 0 || !p(r[0])
    ensures forall i :: 0 <= i < |s| - |r| ==> p(s[i])
    decreases |s|
  {
    if |s| > 0 && p(s[0]) then
      var r := TrimLeft(s[1..], p);
      assert s[1..][|s| - 1 - |r|..] == s[|s| - |r|..];
      assert forall i :: 1 <= i < |s| - |r| ==> s[i] == s[1..][i - 1];
      r
    else s
  }

  /** `s.rstrip(chars)`: drops the longest suffix whose characters satisfy `p`. */
  function TrimRight(s: string, p: char -> bool): (r: string)
    ensures |r| <= |s| && r == s[..|r|]
    ensures |r| == 0 || !p(r[|r| - 1])
    ensures forall i :: |r| <= i < |s| ==> p(s[i])
    decreases |s|
  {
    if |s| > 0 && p(s[|s| - 1]) then TrimRight(s[..|s| - 1], p) else s
  }

  /** `s.strip(chars)`: both ends. */
  function Strip(s: string, p: char -> bool): (r: string)
    ensures |r| == 0 || (!p(r[0]) && !p(r[|r| - 1]))
    ensures forall k :: 0 <= k < |r| ==> r[k] in s
  {
    var left := TrimLeft(s, p);
    var r := TrimRight(left, p);
    InfixMembers(s, |s| - |left|, left, r);
    r
  }

  /** Every character of a prefix of a suffix of `s` occurs in `s`. */
  lemma InfixMembers(s: string, a: nat, left: string, r: string)
    requires a <= |s| && left == s[a..]
    requires |r| <= |left| && r == left[..|r|]
    ensures forall k :: 0 <= k < |r| ==> r[k] in s
  {
    forall k | 0 <= k < |r|
      ensures r[k] in s
    {
      assert r[k] == s[a + k];
    }
  }

  /** `s.strip()` with no argument. */
  function StripSpace(s: string): (r: string)
    ensures |r| == 0 || (!IsSpace(r[0]) && !IsSpace(r[|r| - 1]))
    ensures forall c :: c in r ==> c in s
  {
    var r := Strip(s, IsSpace);
    assert |r| == 0 || (!IsSpace(r[0]) && !IsSpace(r[|r| - 1]));
    r
  }

  /** A string `Strip` leaves alone: nothing to remove at either end. */
  lemma StripUnchanged(s: string, p: char -> bool)
    requires |s| == 0 || (!p(s[0]) && !p(s[|s| - 1]))
    ensures Strip(s, p) == s
  {
  }

  /** Lower-casing of one code point (ASCII letters; see README). */
  function LowerChar(c: char): (r: char)
    ensures 'A' <= c <= 'Z' ==> 'a' <= r <= 'z'
    ensures !('A' <= c <= 'Z') ==> r == c
  {
    if 'A' <= c <= 'Z' then (c as int + 32) as char else c
  }

  /** `s.lower()`. */
  function Lower(s: string): (r: string)
    ensures |r| == |s|
    ensures forall i :: 0 <= i < |s| ==> r[i] == LowerChar(s[i])
  {
    seq(|s|, i requires 0 <= i < |s| => LowerChar(s[i]))
  }

  /** A string without upper-case ASCII letters is its own lower case. */
  lemma LowerUnchanged(s: string)
    requires forall i :: 0 <= i < |s| ==> !('A' <= s[i] <= 'Z')
    ensures Lower(s) == s
  {
  }

  /** `Lower` is idempotent. */
  lemma LowerIdempotent(s: string)
    ensures Lower(Lower(s)) == Lower(s)
  {
    var l := Lower(s);
    forall i | 0 <= i < |s|
      ensures Lower(l)[i] == l[i]
    {
      assert !('A' <= l[i] <= 'Z');
    }
  }

  /** Position of the first `c` in `s` (`str.find`). */
  function IndexOf(s: string, c: char): (r: Option<nat>)
    ensures r.None? <==> c !in s
    ensures r.Some? ==> r.value < |s| && s[r.value] == c && c !in s[..r.value]
  {
    if |s| == 0 then None
    else if s[0] == c then Some(0)
    else
      match IndexOf(s[1..], c)
      case None => None
      case Some(i) =>
        assert s[..i + 1] == [s[0]] + s[1..][..i];
        Some(i + 1)
  }

  /** Position of the last `c` in `s` (`str.rfind`). */
  function LastIndexOf(s: string, c: char): (r: Option<nat>)
    ensures r.None? <==> c !in s
    ensures r.Some? ==> r.value < |s| && s[r.value] == c && c !in s[r.value + 1..]
    decreases |s|
  {
    if |s| == 0 then None
    else if s[|s| - 1] == c then Some(|s| - 1)
    else
      match LastIndexOf(s[..|s| - 1], c)
      case None => None
      case Some(i) =>
        assert s[i + 1..] == s[..|s| - 1][i + 1..] + [s[|s| - 1]];
        Some(i)
  }

  /** `s.split(sep)` for a one-character separator: never empty, no part holds `sep`. */
  function Split(s: string, sep: char): (parts: seq<string>)
    ensures |parts| >= 1
    ensures forall i :: 0 <= i < |parts| ==> sep !in parts[i]
    decreases |s|
  {
    match IndexOf(s, sep)
    case None => [s]
    case Some(i) => [s[..i]] + Split(s[i + 1..], sep)
  }

  /** `sep.join(parts)`. */
  function Join(parts: seq<string>, sep: char): string {
    if |parts| == 0 then ""
    else if |parts| == 1 then parts[0]
    else parts[0] + [sep] + Join(parts[1..], sep)
  }

  /** Splitting a join gives the parts back when no part holds the separator. */
  lemma {:induction false} SplitJoin(parts: seq<string>, sep: char)
    requires |parts| >= 1
    requires forall i :: 0 <= i < |parts| ==> sep !in parts[i]
    ensures Split(Join(parts, sep), sep) == parts
    decreases |parts|
  {
    if |parts| > 1 {
      SplitJoin(parts[1..], sep);
      SplitCons(parts[0], sep, Join(parts[1..], sep));
      assert parts == [parts[0]] + parts[1..];
    }
  }

  /** Joining a split gives the string back. */
  lemma {:induction false} JoinSplit(s: string, sep: char)
    ensures Join(Split(s, sep), sep) == s
    decreases |s|
  {
    match IndexOf(s, sep)
    case None =>
    case Some(i) =>
      var rest := Split(s[i + 1..], sep);
      assert Split(s, sep) == [s[..i]] + rest;
      assert ([s[..i]] + rest)[1..] == rest;
      assert Join(Split(s, sep), sep) == s[..i] + [sep] + Join(rest, sep);
      JoinSplit(s[i + 1..], sep);
      assert s == s[..i] + [sep] + s[i + 1..];
  }

  /** Code-point lexicographic order, Python's `<` on `str`. */
  predicate StrLt(a: string, b: string)
    decreases |a|
  {
    if |a| == 0 then |b| > 0
    else if |b| == 0 then false
    else if a[0] == b[0] then StrLt(a[1..], b[1..])
    else a[0] < b[0]
  }

  /** `a` sorts before `b` when they agree up to `k` and `a` ends there or has the smaller character there. */
  lemma {:induction false} StrLtAt(a: string, b: string, k: nat)
    requires k <= |a| && k <= |b| && a[..k] == b[..k]
    requires (k == |a| && k < |b|) || (k < |a| && k < |b| && a[k] < b[k])
    ensures StrLt(a, b)
    decreases k
  {
    if k > 0 {
      assert a[0] == a[..k][0] == b[..k][0] == b[0];
      assert a[1..][..k - 1] == a[..k][1..];
      assert b[1..][..k - 1] == b[..k][1..];
      StrLtAt(a[1..], b[1..], k - 1);
    }
  }

  /** Every adjacent pair is in strictly increasing order, as `sorted` of a set yields. */
  predicate StrictlySorted(xs: seq<string>) {
    forall i :: 0 <= i < |xs| - 1 ==> StrLt(xs[i], xs[i + 1])
  }

  // ---------------------------------------------------------------- pathlib

  /** A component `PurePosixPath` keeps: it drops empty components and `.`. */
  predicate KeptPart(p: string) {
    p != "" && p != "."
  }

  /** The kept components among `parts`, in order. */
  function Keep(parts: seq<string>): (r: seq<string>)
    ensures |r| <= |parts|
    ensures forall i :: 0 <= i < |r| ==> KeptPart(r[i]) && r[i] in parts
    ensures forall i :: 0 <= i < |parts| && KeptPart(parts[i]) ==> parts[i] in r
  {
    if |parts| == 0 then []
    else
      var rest := Keep(parts[1..]);
      assert forall i :: 1 <= i < |parts| ==> parts[i] == parts[1..][i - 1];
      if KeptPart(parts[0]) then [parts[0]] + rest else rest
  }

  /** Keeping distributes over concatenation, so it keeps the order of the parts. */
  lemma {:induction false} KeepConcat(a: seq<string>, b: seq<string>)
    ensures Keep(a + b) == Keep(a) + Keep(b)
    decreases |a|
  {
    if |a| > 0 {
      assert (a + b)[1..] == a[1..] + b;
      KeepConcat(a[1..], b);
    } else {
      assert a + b == b;
    }
  }

  /** Components that are all kept are kept as they are. */
  lemma {:induction false} KeepAllKept(parts: seq<string>)
    requires forall i :: 0 <= i < |parts| ==> KeptPart(parts[i])
    ensures Keep(parts) == parts
    decreases |parts|
  {
    if |parts| > 0 {
      KeepAllKept(parts[1..]);
      assert parts == [parts[0]] + parts[1..];
    }
  }

  /** `PurePosixPath(path).parts` without the root: split on `/`, empty and `.` components dropped. */
  function PathParts(path: string): (r: seq<string>)
    ensures forall i :: 0 <= i < |r| ==> KeptPart(r[i]) && '/' !in r[i]
  {
    Keep(Split(path, '/'))
  }

  /** The root `posixpath.splitroot` finds: exactly two leading slashes stay two, one or three or more become one. */
  function PathRoot(path: string): (r: string)
    ensures r == "" || r == "/" || r == "//"
  {
    if |path| >= 2 && path[0] == '/' && path[1] == '/' && !(|path| >= 3 && path[2] == '/') then "//"
    else if |path| >= 1 && path[0] == '/' then "/"
    else ""
  }

  /** `str()` of a path with this root and these components; a path with neither is `"."`. */
  function PathText(root: string, parts: seq<string>): string {
    if root == "" && |parts| == 0 then "." else root + Join(parts, '/')
  }

  /** `PurePosixPath(path).name`: the last kept component, or empty when there is none. */
  function PathName(path: string): (r: string)
    ensures '/' !in r
    ensures r == "" || (KeptPart(r) && r in Split(path, '/'))
  {
    var parts := PathParts(path);
    if |parts| == 0 then "" else parts[|parts| - 1]
  }

  /**
   * `str(PurePosixPath(dir) / name)`: an absolute `name` replaces `dir`; otherwise
   * the result has `dir`'s root and `dir`'s components followed by `name`'s.
   */
  function PathJoin(dir: string, name: string): (r: string)
    ensures PathRoot(name) == "" ==> PathRoot(r) == PathRoot(dir) && PathParts(r) == PathParts(dir) + PathParts(name)
    ensures PathRoot(name) != "" ==> PathRoot(r) == PathRoot(name) && PathParts(r) == PathParts(name)
  {
    if PathRoot(name) != "" then
      PathTextRoundTrip(PathRoot(name), PathParts(name));
      PathText(PathRoot(name), PathParts(name))
    else
      var parts := PathParts(dir) + PathParts(name);
      PathTextRoundTrip(PathRoot(dir), parts);
      PathText(PathRoot(dir), parts)
  }

  /** Splitting after a leading separator gives an empty first part. */
  lemma SplitAfterSeparator(t: string, sep: char)
    ensures Split([sep] + t, sep) == [""] + Split(t, sep)
  {
    var s := [sep] + t;
    assert IndexOf(s, sep) == Some(0);
    assert s[1..] == t;
  }

  /** The first occurrence is the one with no earlier occurrence. */
  lemma IndexOfIsFirst(s: string, c: char, i: nat)
    requires i < |s| && s[i] == c && c !in s[..i]
    ensures IndexOf(s, c) == Some(i)
  {
    var r := IndexOf(s, c);
    assert r.Some?;
  }

  /** A separator-free head followed by a separator is split off as the first part. */
  lemma SplitCons(a: string, sep: char, b: string)
    requires sep !in a
    ensures Split(a + [sep] + b, sep) == [a] + Split(b, sep)
  {
    var s := a + [sep] + b;
    assert s[..|a|] == a;
    IndexOfIsFirst(s, sep, |a|);
    assert s[|a| + 1..] == b;
  }

  /** Appending a separator and a separator-free tail appends that tail as the last part. */
  lemma {:induction false} SplitAppend(s: string, sep: char, t: string)
    requires sep !in t
    ensures Split(s + [sep] + t, sep) == Split(s, sep) + [t]
    decreases |s|
  {
    match IndexOf(s, sep)
    case None =>
      SplitCons(s, sep, t);
      SplitNoSeparator(t, sep);
    case Some(i) =>
      assert s + [sep] + t == s[..i] + [sep] + (s[i + 1..] + [sep] + t);
      SplitCons(s[..i], sep, s[i + 1..] + [sep] + t);
      SplitAppend(s[i + 1..], sep, t);
  }

  /** A string without the separator splits into itself. */
  lemma SplitNoSeparator(s: string, sep: char)
    requires sep !in s
    ensures Split(s, sep) == [s]
  {
  }

  /** Printing a root and clean components and parsing the text again gives them back. */
  lemma PathTextRoundTrip(root: string, parts: seq<string>)
    requires root == "" || root == "/" || root == "//"
    requires forall i :: 0 <= i < |parts| ==> KeptPart(parts[i]) && '/' !in parts[i]
    ensures PathRoot(PathText(root, parts)) == root
    ensures PathParts(PathText(root, parts)) == parts
  {
    if |parts| == 0 {
      EmptyPathRoundTrip(root);
    } else {
      var body := Join(parts, '/');
      SplitJoin(parts, '/');
      KeepAllKept(parts);
      JoinStartsWithFirst(parts, '/');
      assert body[0] == parts[0][0] != '/';
      RootedPathParts(root, body);
      assert PathText(root, parts) == root + body;
    }
  }

  /** The texts of paths with no component: `"."`, `"/"` and `"//"`. */
  lemma EmptyPathRoundTrip(root: string)
    requires root == "" || root == "/" || root == "//"
    ensures PathRoot(PathText(root, [])) == root
    ensures PathParts(PathText(root, [])) == []
  {
    SplitNoSeparator("", '/');
    if root == "" {
      SplitNoSeparator(".", '/');
    } else if root == "/" {
      assert PathText(root, []) == ['/'] + "";
      SplitAfterSeparator("", '/');
      assert [""] + [""] == ["", ""];
      assert ["", ""][1..] == [""];
      assert Keep([""]) == [];
    } else {
      assert PathText(root, []) == ['/'] + "/";
      assert "/" == ['/'] + "";
      SplitAfterSeparator("/", '/');
      SplitAfterSeparator("", '/');
      assert Split("//", '/') == ["", "", ""];
      assert ["", "", ""][1..] == ["", ""];
      assert ["", ""][1..] == [""];
      assert Keep([""]) == [];
      assert Keep(["", ""]) == [];
    }
  }

  /** A root in front of a body that does not start with `/` adds only empty components. */
  lemma RootedPathParts(root: string, body: string)
    requires root == "" || root == "/" || root == "//"
    requires |body| > 0 && body[0] != '/'
    ensures PathRoot(root + body) == root
    ensures Keep(Split(root + body, '/')) == Keep(Split(body, '/'))
  {
    if root == "/" {
      assert root + body == ['/'] + body;
      SplitAfterSeparator(body, '/');
      KeepConcat([""], Split(body, '/'));
    } else if root == "//" {
      assert root + body == ['/'] + (['/'] + body);
      SplitAfterSeparator(['/'] + body, '/');
      SplitAfterSeparator(body, '/');
      KeepConcat([""], [""] + Split(body, '/'));
      KeepConcat([""], Split(body, '/'));
    } else {
      assert root + body == body;
    }
  }

  /** A join of non-empty components starts with the first one. */
  lemma {:induction false} JoinStartsWithFirst(parts: seq<string>, sep: char)
    requires |parts| >= 1 && |parts[0]| > 0
    ensures |Join(parts, sep)| >= |parts[0]| && Join(parts, sep)[..|parts[0]|] == parts[0]
  {
  }

  /** A trailing `/` or `/.` does not change a path's name: pathlib drops both components. */
  lemma NameIgnoresTrailingSeparators(path: string)
    ensures PathName(path + "/") == PathName(path)
    ensures PathName(path + "/.") == PathName(path)
  {
    assert path + "/" == path + ['/'] + "";
    PartsIgnoreTrailing(path, "");
    assert path + "/." == path + ['/'] + ".";
    PartsIgnoreTrailing(path, ".");
  }

  lemma PartsIgnoreTrailing(path: string, tail: string)
    requires tail == "" || tail == "."
    ensures PathParts(path + ['/'] + tail) == PathParts(path)
  {
    SplitAppend(path, '/', tail);
    KeepConcat(Split(path, '/'), [tail]);
    assert Keep([tail]) == [];
  }

  /** A single kept component is its own name. */
  lemma NameOfComponent(name: string)
    requires KeptPart(name) && '/' !in name
    ensures PathParts(name) == [name] && PathName(name) == name && PathRoot(name) == ""
  {
    assert IndexOf(name, '/') == None;
    assert Split(name, '/') == [name];
  }

  /**
   * `PurePosixPath(path).suffix`: from the last `.` of the name, when that
   * dot is neither the name's first nor its last character; empty otherwise.
   */
  function PathSuffix(path: string): (r: string)
    ensures |r| == 0 || (r[0] == '.' && |r| >= 2 && '.' !in r[1..] && '/' !in r)
  {
    var name := PathName(path);
    match LastIndexOf(name, '.')
    case None => ""
    case Some(i) => if 0 < i < |name| - 1 then name[i..] else ""
  }

  /** A name made of a non-empty stem and a dotted extension has that extension as its suffix. */
  lemma SuffixOfName(stem: string, ext: string)
    requires |stem| > 0 && |ext| >= 2 && ext[0] == '.' && '.' !in ext[1..]
    requires '/' !in stem && '/' !in ext
    ensures PathSuffix(stem + ext) == ext
  {
    var name := stem + ext;
    assert '/' !in name;
    assert name != "" && name != "." by { assert |name| >= 3; }
    NameOfComponent(name);
    assert name[|stem|] == '.';
    var r := LastIndexOf(name, '.');
    assert r.Some?;
    assert name[|stem|..] == ext;
  }

  /** A name that starts with its only dot (a dotfile) has no suffix. */
  lemma DotfileHasNoSuffix(rest: string)
    requires '.' !in rest && '/' !in rest
    ensures PathSuffix(['.'] + rest) == ""
  {
    var name := ['.'] + rest;
    assert '/' !in name;
    if rest == "" {
      assert name == ".";
      assert PathParts(name) == [] by {
        assert IndexOf(name, '/') == None;
        assert Split(name, '/') == ["."];
      }
    } else {
      assert |name| >= 2;
      NameOfComponent(name);
    }
    var r := LastIndexOf(name, '.');
    assert r.Some?;
  }
}

=== FILE: vectorstore.dfy ===
/**
 * The vector-store gateway as the core sees it: each namespace (a project id)
 * holds a set of chunks tagged with the document they came from. Embeddings are
 * opaque and left out. The store's calls are not atomic: one that raises may
 * already have applied its effect to some of the chunks it concerns, so each
 * call also has an interrupted form that applies it to an arbitrary `reached` set.
 */
module VectorStore {

  /** A stored chunk and the metadata the core attaches or filters on. */
  datatype Chunk = Chunk(
    chunkId: string,
    documentId: string,
    text: string,
    source: string,
    sourceFile: string)

  type Namespace = string

  type Store = map<Namespace, set<Chunk>>

  /** The chunks under a namespace; an unknown namespace is empty. */
  function Get(store: Store, ns: Namespace): set<Chunk> {
    if ns in store then store[ns] else {}
  }

  /** The chunks of one document under a namespace. */
  function ChunksOf(store: Store, ns: Namespace, documentId: string): (r: set<Chunk>)
    ensures forall c :: c in r <==> c in Get(store, ns) && c.documentId == documentId
  {
    set c | c in Get(store, ns) && c.documentId == documentId
  }

  /** `add_documents(chunks, namespace)`: upserts the chunks into that namespace only. */
  function Add(store: Store, ns: Namespace, chunks: seq<Chunk>): (r: Store)
    ensures forall c :: c in Get(r, ns) <==> c in Get(store, ns) || c in chunks
    ensures forall n :: n != ns ==> Get(r, n) == Get(store, n)
  {
    store[ns := Get(store, ns) + set c | c in chunks]
  }

  /** `delete_by_document_id(document_id, namespace)`: drops that document's chunks from that namespace only. */
  function DeleteByDocumentId(store: Store, ns: Namespace, documentId: string): (r: Store)
    ensures forall c :: c in Get(r, ns) <==> c in Get(store, ns) && c.documentId != documentId
    ensures forall n :: n != ns ==> Get(r, n) == Get(store, n)
  {
    if ns in store then store[ns := set c | c in store[ns] && c.documentId != documentId] else store
  }

  /** `delete_namespace(namespace)`: empties one namespace. */
  function DeleteNamespace(store: Store, ns: Namespace): (r: Store)
    ensures Get(r, ns) == {}
    ensures forall n :: n != ns ==> Get(r, n) == Get(store, n)
  {
    map n | n in store && n != ns :: store[n]
  }

  /** An `add_documents` that raised part-way: of the chunks, only those in `reached` landed. */
  function AddSome(store: Store, ns: Namespace, chunks: seq<Chunk>, reached: set<Chunk>): (r: Store)
    ensures forall c :: c in Get(r, ns) <==> c in Get(store, ns) || (c in chunks && c in reached)
    ensures forall n :: n != ns ==> Get(r, n) == Get(store, n)
  {
    store[ns := Get(store, ns) + set c | c in chunks && c in reached]
  }

  /** A `delete_by_document_id` that raised part-way: only the document's chunks in `reached` are gone. */
  function DeleteSomeOfDocument(store: Store, ns: Namespace, documentId: string, reached: set<Chunk>): (r: Store)
    ensures forall c :: c in Get(r, ns) <==> c in Get(store, ns) && !(c.documentId == documentId && c in reached)
    ensures forall n :: n != ns ==> Get(r, n) == Get(store, n)
  {
    store[ns := set c | c in Get(store, ns) && !(c.documentId == documentId && c in reached)]
  }

  /** A `delete_namespace` that raised part-way: only the namespace's chunks in `reached` are gone. */
  function DeleteSomeOfNamespace(store: Store, ns: Namespace, reached: set<Chunk>): (r: Store)
    ensures forall c :: c in Get(r, ns) <==> c in Get(store, ns) && c !in reached
    ensures forall n :: n != ns ==> Get(r, n) == Get(store, n)
  {
    store[ns := Get(store, ns) - reached]
  }

  /**
   * An interrupted call lies between doing nothing and doing everything: reaching
   * no chunk leaves the namespace as it was, reaching all of them is the full call.
   */
  lemma InterruptedCallsBetween(store: Store, ns: Namespace, documentId: string, chunks: seq<Chunk>)
    ensures Get(AddSome(store, ns, chunks, {}), ns) == Get(store, ns)
    ensures Get(AddSome(store, ns, chunks, set c | c in chunks), ns) == Get(Add(store, ns, chunks), ns)
    ensures Get(DeleteSomeOfDocument(store, ns, documentId, {}), ns) == Get(store, ns)
    ensures Get(DeleteSomeOfDocument(store, ns, documentId, Get(store, ns)), ns) == Get(DeleteByDocumentId(store, ns, documentId), ns)
    ensures Get(DeleteSomeOfNamespace(store, ns, {}), ns) == Get(store, ns)
    ensures Get(DeleteSomeOfNamespace(store, ns, Get(store, ns)), ns) == Get(DeleteNamespace(store, ns), ns)
  {
    assert forall c :: c in Get(AddSome(store, ns, chunks, {}), ns) <==> c in Get(store, ns);
    assert forall c :: c in Get(AddSome(store, ns, chunks, set c | c in chunks), ns) <==> c in Get(Add(store, ns, chunks), ns);
    assert forall c :: c in Get(DeleteSomeOfDocument(store, ns, documentId, {}), ns) <==> c in Get(store, ns);
    assert forall c :: c in Get(DeleteSomeOfDocument(store, ns, documentId, Get(store, ns)), ns)
                       <==> c in Get(DeleteByDocumentId(store, ns, documentId), ns);
  }

  /** Deleting a document's vectors twice is deleting them once. */
  lemma DeleteByDocumentIdIdempotent(store: Store, ns: Namespace, documentId: string)
    ensures Get(DeleteByDocumentId(DeleteByDocumentId(store, ns, documentId), ns, documentId), ns)
            == Get(DeleteByDocumentId(store, ns, documentId), ns)
    ensures ChunksOf(DeleteByDocumentId(store, ns, documentId), ns, documentId) == {}
  {
    var once := DeleteByDocumentId(store, ns, documentId);
    var twice := DeleteByDocumentId(once, ns, documentId);
    assert forall c :: c in Get(twice, ns) <==> c in Get(once, ns);
  }

  /**
   * Delete-then-add replaces a document: afterwards its chunks in the namespace are
   * exactly the added ones, and other documents' chunks are untouched.
   */
  lemma DeleteThenAddReplaces(store: Store, ns: Namespace, documentId: string, chunks: seq<Chunk>)
    requires forall i :: 0 <= i < |chunks| ==> chunks[i].documentId == documentId
    ensures var r := Add(DeleteByDocumentId(store, ns, documentId), ns, chunks);
            && (forall c :: c in ChunksOf(r, ns, documentId) <==> c in chunks)
            && (forall other :: other != documentId ==> ChunksOf(r, ns, other) == ChunksOf(store, ns, other))
  {
    var r := Add(DeleteByDocumentId(store, ns, documentId), ns, chunks);
    forall other | other != documentId
      ensures ChunksOf(r, ns, other) == ChunksOf(store, ns, other)
    {
      assert forall c :: c in ChunksOf(r, ns, other) <==> c in ChunksOf(store, ns, other);
    }
  }

  /** Adding without deleting first keeps every earlier chunk of the document. */
  lemma AddWithoutDeleteKeepsOld(store: Store, ns: Namespace, documentId: string, chunks: seq<Chunk>, prior: Chunk)
    requires prior in ChunksOf(store, ns, documentId)
    ensures prior in ChunksOf(Add(store, ns, chunks), ns, documentId)
  {
  }
}

=== FILE: wrappers.dfy ===
/** Failure-compatible datatypes and small sequence searches shared by every module. */
module Wrappers {

  /** A value that may be absent: Python's `Optional[T]` / SQL NULL. */
  datatype Option<+T> = None | Some(value: T) {

    /** The carried value, or `default` when absent. */
    function GetOr(default: T): T {
      match this
      case Some(v) => v
      case None => default
    }
  }

  /** Either a value or an error: a raised exception becomes `Failure`. */
  datatype Result<+R, +E> = Success(value: R) | Failure(error: E) {

    predicate IsFailure() {
      Failure?
    }

    function PropagateFailure<U>(): Result<U, E>
      requires Failure?
    {
      Failure(error)
    }

    function Extract(): R
      requires Success?
    {
      value
    }
  }

  /** The first element of `xs` satisfying `p` (SQL `.filter(...).first()`). */
  function FindFirst<T>(xs: seq<T>, p: T -> bool): (r: Option<T>)
    ensures r.Some? ==> r.value in xs && p(r.value)
    ensures r.None? <==> forall i :: 0 <= i < |xs| ==> !p(xs[i])
    ensures r.Some? ==> exists i :: 0 <= i < |xs| && xs[i] == r.value &&
                                    forall j :: 0 <= j < i ==> !p(xs[j])
  {
    if |xs| == 0 then None
    else if p(xs[0]) then Some(xs[0])
    else
      var rest := FindFirst(xs[1..], p);
      assert forall j :: 1 <= j < |xs| ==> xs[j] == xs[1..][j - 1];
      rest
  }

  /** The elements of `xs` satisfying `p`, in order (SQL `.filter(...)`). */
  function Filter<T>(xs: seq<T>, p: T -> bool): (r: seq<T>)
    ensures |r| <= |xs|
    ensures forall i :: 0 <= i < |r| ==> r[i] in xs && p(r[i])
    ensures forall i :: 0 <= i < |xs| && p(xs[i]) ==> xs[i] in r
  {
    if |xs| == 0 then []
    else if p(xs[0]) then [xs[0]] + Filter(xs[1..], p)
    else Filter(xs[1..], p)
  }

  /** `xs` in reverse order. */
  function Reverse<T>(xs: seq<T>): (r: seq<T>)
    ensures |r| == |xs|
    ensures forall i :: 0 <= i < |xs| ==> r[i] == xs[|xs| - 1 - i]
  {
    if |xs| == 0 then [] else Reverse(xs[1..]) + [xs[0]]
  }

  lemma ReverseMembership<T>(xs: seq<T>, x: T)
    ensures x in Reverse(xs) <==> x in xs
  {
    var r := Reverse(xs);
    if x in xs {
      var i :| 0 <= i < |xs| && xs[i] == x;
      assert r[|xs| - 1 - i] == x;
    }
  }
}
